=== FILE: README.md ===
# sharc grid layout, modelled in Dafny

This project models the layout core of sharc, the diagram generator of the larc
architecture language:

- `Sparse2D`, the sparse grid keyed by `"x:y"` addresses. It lives in
  `sharc/src/cli/common/sparsely.ts`.
- The grid layout engine of `sharc/src/cli/common/layout.ts`, which works in three stages:
  - **`fixedPass`** builds a tree of layout records from the architecture tree.
    - Every container starts with a grid of `width` rows. For a node, `width` is the total
      count of its descendants; for the synthetic root it is only the number of top-level
      nodes. Row 0 holds the direct children, one cell each, so it can be shorter or longer
      than `width`; every other row holds `width` `undefined` cells.
    - `getLocationAttrs` gives every node that has a layout entry both coordinates: a
      missing `x` or `y` defaults to the node's seed position.
    - `placeOneFixed` sweeps repeat while some node with an entry and no anchors is unlaid.
      A sweep moves the first unlaid node with an entry it meets to its (x, y), anchors or
      not. On the way it pins the unlaid nodes without an entry where they stand.
    - A node without an entry that no sweep reaches stays unlaid. With children `A` (entry
      `x: 0`) and `B` (no entry), the first sweep moves `A` and the loop then stops, so `B`
      is never pinned.
    - Rows holding nothing are dropped, and every `undefined` cell of a kept row is replaced
      by an anonymous filler record.
    - The rows are then cut after the largest last-record index, where "largest" is taken
      over decimal spellings (see Findings). The model cuts after the numerically largest
      index instead. On the filled rows built just before, that cut removes nothing.
  - **`relativePass`** repeats passes over the tree until no node waits on an unresolved
    anchor `anchor(ID:SIDE)`.
    - A node is placed next to its anchor target when the target is laid. The engine walks
      away from the target one cell at a time, growing the parent's grid when the walk
      leaves it, until it finds a cell whose occupant is not fixed.
    - A pass that finds nothing placeable throws the "circular" error, which lists every
      waiting node and the nodes it depends on.
  - **`absPositions`** gives every record a dotted address per axis. The address is the
    parent's address followed by the record's own coordinate.

The engine mutates node objects shared between grids. The model is purely functional:
- The nodes live in an arena keyed by name (`LayoutTypes.Arena`). A grid cell holds an
  occupant's name.
- A cell distinguishes four things JavaScript keeps apart:
  - an array hole;
  - `undefined`;
  - a filler record;
  - a real node.
- Writes at a negative column are kept as off-array properties, as JavaScript keeps them.
- Every `throw`, and every property read of `undefined`, is a `Failure` of `LayoutTypes.Error`.

Modules, in dependency order:

| module | file | contents |
|---|---|---|
| Wrappers | wrappers.dfy | `Option` and `Result` |
| Decimal | decimal.dfy | decimal spelling and strict parsing of integers |
| LayoutTypes | types.dfy | anchors, locations, cells, rows, layout records, errors |
| Sparsely | sparsely.dfy | `Sparse2D` |
| Attrs | attrs.dfy | `nodeAttr`, `nodeKind`, the anchor matcher, `getLocationAttrs`, the layout-attribute index |
| Grids | grid.dfy | JavaScript-array reads and writes on grids, `resizeAsNeeded` |
| Place | place.dfy | `putNode`, `placeOneFixed`, `firstUnlaid` |
| Fixed | fixed.dfy | `gatherKind`, `countDeep`, `layNodes`, the trim, `fixedPass` |
| Relative | relative.dfy | `flatNodes`, `findParent`, `applyAnchor`, `relativePass` |
| AbsPos | abspos.dfy | `absPositions` |
| Pipeline | pipeline.dfy | the three stages chained as the renderers chain them |

Three facts about the code shape the model:
- There are no bounding boxes. Anchors are written `anchor(ID:SIDE)` and are placed by the
  step walk described above.
- Children are seeded in row 0, at the column of their sibling index
  (`sharc/src/cli/common/layout.ts:205`). That seed position is also the default `x`/`y` of a
  child whose layout entry omits them (`Fixed.ChildSeeded`).
- `relativePass` stops when a pass finds no placeable node, and a pass that places anything
  always lays a node. The proved bound on passes (`Relative.RelativePass`) is stated in terms
  of the count of unlaid nodes.

Two edge cases of the anchor walk are modelled as the code behaves. They are not reported
as findings, because nothing in the code says which outcome is intended:
- A `left` anchor whose target is in column 0 grows the grid by a column. The write still
  goes to column -1, so the node lands outside the cells the rows list
  (`Relative.LeftOfColumnZero`).
- A `top` anchor whose target is in row 0 grows the grid by a row at the top. The read of
  `parent.nodes[-1]` is then a TypeError (`Relative.AboveRowZero`).

## Model

| member | source | states |
|---|---|---|
| Sparsely.AddrInjective | sharc/src/cli/common/sparsely.ts:16 | Two coordinates with the same `"x:y"` address are the same coordinates, so the record never confuses two cells. |
| Sparsely.Empty | sharc/src/cli/common/sparsely.ts:4-6 | A new grid is well formed and holds no cell. |
| Sparsely.GetView | sharc/src/cli/common/sparsely.ts:38-40 | `get(x, y)` returns the value stored at `(x, y)`, and `undefined` when the cell is empty. |
| Sparsely.Delete | sharc/src/cli/common/sparsely.ts:18-24 | `delete` returns the old value of the cell and empties only that cell. Every other cell reads as before. |
| Sparsely.Put | sharc/src/cli/common/sparsely.ts:26-36 | `put` returns the old value. A falsy value deletes the cell. Any other value is stored at `(x, y)` and every other cell is unchanged. |
| Sparsely.ExtentOf | sharc/src/cli/common/sparsely.ts:42-54 | The `dims` reduction gives the infinite sentinels exactly when the grid is empty. Otherwise its bounds are finite and contain every entry. |
| Sparsely.ExtentAttained | sharc/src/cli/common/sparsely.ts:42-54 | Each of the four finite `dims` bounds is attained by some entry. |
| Sparsely.DimsBoundOccupied | sharc/src/cli/common/sparsely.ts:42-54 | `dims` is the tight bounding box of the occupied cells. It is the sentinel exactly when no cell is occupied. |
| Sparsely.PutOutsideGrows | sharc/src/cli/common/sparsely.ts:26-54 | Putting into an empty cell stretches each `dims` bound just enough to cover it. |
| Sparsely.ToArray | sharc/src/cli/common/sparsely.ts:72-86 | `toArray` is `[]` for an empty grid. Otherwise it has one row per y and one column per x of the box, and cell `[i][j]` is `get(minx + j, miny + i)`. |
| Sparsely.From | sharc/src/cli/common/sparsely.ts:8-14 | `from(rows)` holds `rows[y][x]` at `(x, y)` for every x and y inside the rows, and nothing elsewhere. |
| Sparsely.FromToArray | sharc/src/cli/common/sparsely.ts:72-86 | For rows whose occupied cells touch all four edges, `toArray(from(rows))` gives back the rows. |
| Sparsely.ToArrayOfGrid | sharc/src/cli/common/sparsely.ts:72-86 | A grid whose `get` reads every cell of a rectangle of rows, and whose box is exactly that rectangle, converts back to those rows. |
| Decimal.ParseIntToString | sharc/src/cli/common/layout.ts:143-144 | `parseInt` of the decimal spelling of an integer gives the integer back. The coordinate attributes and their defaults rely on this round trip. |
| Decimal.IntToStringInjective | sharc/src/cli/common/layout.ts:456-457 | Different integers get different spellings. |
| Attrs.NodeAttr | sharc/src/cli/common/layout.ts:8-12 | `nodeAttr` returns the value of the first attribute with that name, or the default when there is none. |
| Attrs.NodeKind | sharc/src/cli/common/layout.ts:14 | A node's kind is its `kind` attribute. It falls back to the node's name. |
| Attrs.ParseAnchor | sharc/src/cli/common/layout.ts:122-135 | A non-anchor value fails with that value. A parsed anchor has the attribute's own direction and is unresolved. |
| Attrs.ParseAnchorIff | sharc/src/cli/common/layout.ts:122-128 | The value is accepted exactly when it contains `anchor(ID:SIDE)` somewhere, with ID and SIDE non-empty and free of `:`. |
| Attrs.ParseAnchorLeftmost | sharc/src/cli/common/layout.ts:122-124 | The match is the leftmost one. At that position it is the longest SIDE, since the regex backtracks to the last `)`. |
| Attrs.ParseAnchorSpelled | sharc/src/cli/common/layout.ts:122-135 | `anchor(ID:SIDE)` parses back to exactly ID, SIDE and the attribute's direction, unresolved. |
| Attrs.Declared | sharc/src/cli/common/layout.ts:146-148 | The sides kept are exactly those of the input whose attribute is non-empty. Their order is kept: sides given in left, right, top, bottom order come out in that order, none twice. |
| Attrs.AnchorSides | sharc/src/cli/common/layout.ts:146-148 | A side is listed exactly when its attribute is non-empty. Each is listed once, in the order left, right, top, bottom. |
| Attrs.ParseAnchors | sharc/src/cli/common/layout.ts:149 | Every declared anchor is parsed in order. The whole parse fails exactly when one of them fails. |
| Attrs.Coordinate | sharc/src/cli/common/layout.ts:143-144 | A missing `x`/`y` attribute gives the default position. Otherwise the result is the attribute's parsed integer, or a `BadNumber` error carrying the value exactly when it does not parse. |
| Attrs.GetLocationAttrs | sharc/src/cli/common/layout.ts:137-155 | There are no location attributes without a layout entry. With an entry, the result succeeds exactly when `x`, `y` and every declared anchor parse. It then holds those coordinates and exactly the anchors the declared sides parse to, in side order, each unresolved and owned by its side. |
| Attrs.LayoutAttributes | sharc/src/cli/common/layout.ts:198-201 | The index holds an entry for every name in the layout, and each key maps to an entry of that name. |
| Attrs.LayoutAttributesLastWins | sharc/src/cli/common/layout.ts:198-201 | When a name appears more than once, the last entry wins. |
| Grids.Read | sharc/src/cli/common/layout.ts:366 | Reading a missing row is a TypeError. Any other read yields a value, never a hole. |
| Grids.Write | sharc/src/cli/common/layout.ts:39-41 | Writing into a missing row is a TypeError. A write changes only its own row. A negative column changes only the off-array properties. |
| Grids.ReadWrite | sharc/src/cli/common/layout.ts:39-41 | The written cell reads back the written value. Every other cell reads as before, including the holes a write past the end creates. |
| Grids.Resize | sharc/src/cli/common/layout.ts:303-328 | `resizeAsNeeded` adds one column on the side x falls off, or else one row on the side y falls off. The shifted cells read as before, the new ones read `undefined`, and only `nodes`, `width` and `height` change. |
| Place.Merge | sharc/src/cli/common/layout.ts:43-52 | Spreading a position over `locationAttrs` takes x and y from the position. It keeps the old anchor array when the position carries none. |
| Place.PutNode | sharc/src/cli/common/layout.ts:28-54 | `putNode` fails exactly on a missing row, or when the target holds a laid and fixed node. Otherwise it keeps the set of nodes and the number of rows. |
| Place.PutNodeGrid | sharc/src/cli/common/layout.ts:29-41 | After `putNode` the node is at the target and the previous occupant is at the vacated position. Every other cell is unchanged. |
| Place.PutNodeArena | sharc/src/cli/common/layout.ts:36-53 | After `putNode` the node is laid, fixed and positioned at the target, and a displaced node records the vacated position. Every other node is unchanged, and no other node changes its `laid` or `fixed` flag. |
| Place.FreeInColumn | sharc/src/cli/common/layout.ts:81-82 | Gives the first row whose cell in the column is not laid, or -1 when every cell is laid. |
| Place.FreeInRow | sharc/src/cli/common/layout.ts:93-94 | Gives the first cell of the row that is not laid, or -1 when every cell is laid. |
| Place.Scan | sharc/src/cli/common/layout.ts:56-120 | The sweep finds a mover exactly when some unlaid record carrying a coordinate remains. It reports the first one in row-major order, from where it stands, with the target `placeOneFixed` computes for it. Every unlaid, coordinate-free, anchorless record it passes before that is pinned where it stands; with no mover, every such record is pinned. Every record the sweep changes stands strictly before the mover (anywhere in the grid when there is none), and nothing else changes. |
| Place.FirstMover | sharc/src/cli/common/layout.ts:57-78 | The result is the first slot, in row-major order, holding an unlaid record with a coordinate; none exists exactly when no such slot remains. |
| Place.Target | sharc/src/cli/common/layout.ts:75-101 | Both coordinates send the record to `(x, y)`. With only `x`, it goes to the first row whose cell in the record's current column is not laid, and fails with `ColumnFull` when there is none. With only `y`, it goes to the first unlaid slot of that row, fails with `RowFull` when there is none, and fails with a TypeError when the row does not exist. |
| Place.PinsOnlyTrans | sharc/src/cli/common/layout.ts:109-116 | Pinning steps compose: two sweeps that only pin amount to one that only pins. |
| Place.PlaceOneFixed | sharc/src/cli/common/layout.ts:56-120 | A sweep keeps the set of nodes and the number of rows, and never unlays a node. When a mover exists, the sweep puts it at its target with `putNode`, so on success it is laid and fixed, or else fails with the target's error. With no mover, the grid is unchanged, no node becomes fixed, and every passed anchorless, coordinate-free node is pinned. |
| Place.PlaceHeld | sharc/src/cli/common/layout.ts:28-120 | A sweep changes only records its grid holds, in a slot or an off-array property, and afterwards the grid holds no record it did not hold before: pins and `putNode` swaps bring no other record in. |
| Place.InFlat | sharc/src/cli/common/layout.ts:163 | `flat()` holds exactly the cells of the grid's rows. |
| Place.FirstUnlaid | sharc/src/cli/common/layout.ts:162-167 | The result is none exactly when no real node in the grid has location attributes, no anchors and is unlaid. A result is such a node. |
| Fixed.GatherKind | sharc/src/cli/common/layout.ts:16-21 | The kind pass keeps, at every depth, the name, title and order of children, and gives each node its `nodeKind`. |
| Fixed.KindedUnique | sharc/src/cli/common/layout.ts:16-21 | A tree has only one kind-resolved form, so `gatherKind`'s result is fully determined by the names, titles and kinds. |
| Fixed.CountDeepNames | sharc/src/cli/common/layout.ts:23 | `countDeep` of a node equals the number of names `getNames` lists for its subtree. |
| Fixed.DeepFromNames | sharc/src/cli/common/layout.ts:182-183 | A container's grid side is the number of names in the subtrees of its children. |
| Fixed.Seed | sharc/src/cli/common/layout.ts:205 | The starting grid has `width` rows. Row 0 holds exactly the children, one cell each and in order; every later row is `width` `undefined` cells; no row has off-grid entries. |
| Fixed.SeedHeld | sharc/src/cli/common/layout.ts:205 | The seed grid holds only the container's direct children. |
| Fixed.LayLoop | sharc/src/cli/common/layout.ts:222-231 | With no tries left or no unlaid candidate, the loop stops and returns its input. On success it keeps the node set and the row count and never unlays a node; when tries remained and a node was unlaid, a sweep succeeded first. Every failure is one a sweep raises (a type error, a fixed-slot clash, or a full row or column). For any set of names its input grid holds, a successful loop changes only those records and its grid still holds no other record. |
| Fixed.KeepOccupied | sharc/src/cli/common/layout.ts:240-241 | Keeps exactly the rows that hold a record, and never adds rows. |
| Fixed.OccupiedRows | sharc/src/cli/common/layout.ts:240-241 | The reference for the filter's order: strictly increasing indices of rows from `y` on, each holding a truthy slot, missing none. |
| Fixed.KeepOccupiedOrder | sharc/src/cli/common/layout.ts:240-241 | The filter keeps order: its `i`-th row is the `i`-th row, counting from the top, that holds a truthy slot, for a strictly increasing choice of row indices that misses no such row. |
| Fixed.Fill | sharc/src/cli/common/layout.ts:242-250 | Every non-hole cell becomes a record. A real record is kept as is, and holes stay holes. |
| Fixed.Trim | sharc/src/cli/common/layout.ts:261-267 | The corrected right trim cuts each row to a prefix that keeps every record. |
| Fixed.AsWrittenTrimDropsRecords | sharc/src/cli/common/layout.ts:265-267 | For rows of 3 and 11 records, the trim as written cuts the second row to 3 cells. The corrected trim keeps all 11. |
| Fixed.FinishedCells | sharc/src/cli/common/layout.ts:240-267 | Every cell of a finished grid is a hole, a filler or a node that was in the placed grid. |
| Fixed.LayGrid | sharc/src/cli/common/layout.ts:222-267 | After a successful lay, no cell is an unlaid anchorless node or `undefined`, and every row holds a record. The finished rows hold exactly the records the placing loop left in the seed grid, all of them direct children of the container, and only those children's records can differ from the input arena. The lay fails exactly when the placing loop fails or leaves a candidate unlaid; in the latter case the error is `CouldNotLay` naming the first such candidate, and a `CouldNotLay` error arises only that way. |
| Fixed.Finished | sharc/src/cli/common/layout.ts:233-267 | Once no candidate is unlaid, the filtered, filled and trimmed rows hold no unlaid anchorless record and no `undefined`, and every row holds a record. |
| Fixed.FinishedRecords | sharc/src/cli/common/layout.ts:240-267 | Filtering empty rows, filling and trimming keep exactly the records of the placed grid. |
| Fixed.OwnAttrs | sharc/src/cli/common/layout.ts:213 | A node has location attributes exactly when the layout names it. |
| Fixed.Record | sharc/src/cli/common/layout.ts:207-219 | The record starts unlaid and unfixed. Its width and height are those of the finished grid, and its location comes from its layout entry. |
| Fixed.LayNodes | sharc/src/cli/common/layout.ts:204-277 | `layNodes` records exactly the names of the subtree and leaves every other record as it was. The subtree's root is recorded unlaid, with its finished grid, which holds only its direct children, and with the location attributes read for it at `(xPos, yPos)`: none without a layout entry, else their x, y and anchors. |
| Fixed.LayNodesGrid | sharc/src/cli/common/layout.ts:204-277 | The recorded grid is the one `LayGrid` finishes over the laid children. |
| Fixed.LayNodesDefaults | sharc/src/cli/common/layout.ts:143-144 | A node with a layout entry that omits `x` (or `y`) is recorded at `xPos` (or `yPos`). |
| Fixed.LayChildren | sharc/src/cli/common/layout.ts:205 | Laying the children records exactly the names of their subtrees and leaves every other record as it was. Child `k`'s record carries the location attributes read for it at its seed position `(k, 0)`, unless a later sibling's subtree reuses its name. |
| Fixed.ChildSeeded | sharc/src/cli/common/layout.ts:205 | Child `k`, when its layout entry omits `x` (or `y`), is recorded at `x = k` (or `y = 0`), unless a later sibling's subtree reuses its name. |
| Fixed.FixedPass | sharc/src/cli/common/layout.ts:171-287 | `fixedPass` records `root` and exactly the names of the architecture tree; the root's grid holds only top-level nodes. |
| Relative.FlatNodes | sharc/src/cli/common/layout.ts:289 | The pre-order starts with the node itself. It lists every node and filler of the node's grid, and each real item is a known node. |
| Relative.FindParent | sharc/src/cli/common/layout.ts:293-301 | A parent found is in the list and holds the name. "Not in the tree" happens exactly when no listed item holds it. Any other failure is the TypeError of a filler. |
| Relative.FindParentFirst | sharc/src/cli/common/layout.ts:294 | The parent found is the first holder in pre-order. |
| Relative.Waiting | sharc/src/cli/common/layout.ts:394-397 | The waiting nodes are exactly the listed unlaid nodes with an unresolved anchor. The filter throws exactly when a listed item lacks the properties it reads. |
| Relative.WaitingIndices | sharc/src/cli/common/layout.ts:394-396 | The reference for the filter's order: strictly increasing indices of the items from `k` on, each naming an unlaid node with an unresolved anchor, missing none. |
| Relative.WaitingOrder | sharc/src/cli/common/layout.ts:394-397 | A successful filter keeps the list order: its `i`-th name is that of the `i`-th waiting item, for a strictly increasing choice of item indices that misses no waiting item. |
| Relative.Survey | sharc/src/cli/common/layout.ts:398-407 | Each waiting node is paired with a parent that holds it. Its dependencies are exactly those its anchors give, one per anchor in order. |
| Relative.Ready | sharc/src/cli/common/layout.ts:416 | The dependencies kept are exactly those whose target is laid. |
| Relative.CanLay | sharc/src/cli/common/layout.ts:413-418 | Only nodes with a laid target remain, each with just those anchors. The list is empty exactly when no node has one. |
| Relative.Report | sharc/src/cli/common/layout.ts:421-426 | The circular report lists every waiting node, in order, with the `otherId` of each of its anchors. |
| Relative.Walk | sharc/src/cli/common/layout.ts:351-382 | The walk returns the first step whose cell, after growing the grid, is not fixed. Every earlier step was blocked. Only the grid and its size change, and the only failure is a TypeError. |
| Relative.LeftOfColumnZero | sharc/src/cli/common/layout.ts:355-366 | A `left` anchor on a node in column 0 prepends a column but keeps the target at column -1, so the node lands off-grid. |
| Relative.FindAnchor | sharc/src/cli/common/layout.ts:371 | Finds the first own anchor with the same direction and target, or -1 when there is none. |
| Relative.MarkResolved | sharc/src/cli/common/layout.ts:371-372 | Marking succeeds exactly when the node owns a matching anchor. Only the first matching anchor of that owner changes, and it becomes resolved; every other node and every other anchor is unchanged. |
| Relative.ApplyAnchor | sharc/src/cli/common/layout.ts:330-383 | Anchoring across parents fails. Otherwise the node sits in its parent's grid where the walk stopped, is laid and fixed, and its anchor is resolved. No other node becomes laid or fixed. |
| Relative.ApplyAll | sharc/src/cli/common/layout.ts:431 | Every node with a laid target ends laid and fixed. The node set is kept and nothing is unlaid. |
| Relative.UnlaidShrinks | sharc/src/cli/common/layout.ts:431-433 | Laying one more node, and unlaying none, shrinks the set of unlaid nodes. |
| Relative.CanLayIff | sharc/src/cli/common/layout.ts:413-420 | No waiting node keeps a ready anchor exactly when no anchor of any waiting node points at a laid node. |
| Relative.PassApplies | sharc/src/cli/common/layout.ts:413-431 | When nodes wait, some anchor is ready, and applying the ready anchors succeeds, the pass returns exactly the arena that application produces. |
| Relative.Pass | sharc/src/cli/common/layout.ts:388-442 | A pass stops exactly when nothing waits. Otherwise it lays at least one more node without unfixing any, or fails. It throws the circular error exactly when nodes wait and none of their anchors has a laid target. That error names the current pass and reports every waiting node with its anchors' targets. Any other failure comes from the waiting filter, the survey of anchors, or applying the ready anchors. |
| Relative.RelativePass | sharc/src/cli/common/layout.ts:385-448 | At the end nothing waits. The pass count grows by at most the number of nodes laid, and the circular error's pass number is bounded by the number of unlaid nodes. |
| AbsPos.DecodeRender | sharc/src/cli/common/layout.ts:456-457 | An address `0.c0.c1…` reads back as its chain of coordinates. |
| AbsPos.RenderInjective | sharc/src/cli/common/layout.ts:456-457 | Different chains give different addresses. |
| AbsPos.Visit | sharc/src/cli/common/layout.ts:452-479 | The walk lists the node first, with its parent's chains extended by its own coordinates. Every entry below extends them. |
| AbsPos.VisitAllLists | sharc/src/cli/common/layout.ts:470-479 | With depth left, the walk below a row lists every record present and every filler of that row, each with the parent's chains extended by the slot's own coordinate. |
| AbsPos.VisitLists | sharc/src/cli/common/layout.ts:452-479 | With depth left, the walk from a record lists every listed slot of its grid, below the record's own chains. |
| AbsPos.Collect | sharc/src/cli/common/layout.ts:482-485 | The reduce has a key exactly for every name in the walk. |
| AbsPos.CollectLastWins | sharc/src/cli/common/layout.ts:482-485 | A key's value is the address of the last entry with that name. |
| AbsPos.AbsPositions | sharc/src/cli/common/layout.ts:450-486 | The keys are exactly the names the walk lists, and they include every record and filler of the root's grid. `root` has addresses, and they are `0.x`/`0.y` for its own coordinates when no later record shares its name. Every address renders a chain that starts with the root's own coordinate. |
| AbsPos.AbsWalkShaped | sharc/src/cli/common/layout.ts:460-480 | The walk lists the root first. Every later entry belongs to a slot in the grid of a record listed before it, and its chains are that record's chains plus the slot's own coordinate. |
| AbsPos.AbsChild | sharc/src/cli/common/layout.ts:453-456 | When a record and a slot of its grid are each listed once, the slot's address is the record's address, a dot, and the slot's own coordinate: its `x`/`y`, 0 when missing, or a filler's position. |
| AbsPos.AbsListsTop | sharc/src/cli/common/layout.ts:450-486 | Every listed slot of the root's grid gets an address, and the walk holds its entry below the root's, so `AbsChild` applies to it. |
| Pipeline.Layout | sharc/src/cli/awsdac/generate.ts:15-16 | The renderer's pipeline keeps exactly the architecture's names plus `root` and leaves no node waiting. A `fixedPass` error propagates. |

## Findings

| source | as written | input that shows it | evidently intended | confidence | as-written member | corrected member |
|---|---|---|---|---|---|---|
| sharc/src/cli/common/layout.ts:265-267 | The right trim takes `.sort().slice(-1)[0]` of the last-record indices. The default `sort` compares decimal spellings, so index 2 sorts after index 10. | A container with two kept rows of 3 and 11 records: "10" < "2", so every row is cut to 3 cells and 8 records of the second row are dropped. | Cut after the numerically largest last-record index, keeping every record. | not executed | Fixed.AsWrittenTrimDropsRecords | Fixed.Trim |

## Left out

- Logging: `debug`, `stringNodes` and the "layout nodes without architecture counterparts" warning (`sharc/src/cli/common/layout.ts:187-196`) only print.
- Attrs.Coordinate: parses `x`/`y` strictly as an optional `-` and decimal digits. `parseInt` also accepts leading spaces, a `+`, trailing junk and other radixes, and it yields NaN instead of failing; here any such value is a `BadNumber` failure.
- Fixed.LayGrid: uses the corrected trim `Fixed.Trim` in place of the lexicographic one at `sharc/src/cli/common/layout.ts:265-267`, and so do `Fixed.LayNodes`, `Fixed.FixedPass` and `Pipeline`. The as-written trim is `Fixed.AsWrittenTrim`, with the records it drops shown by `Fixed.AsWrittenTrimDropsRecords`.
- Fixed.OwnAttrs: looks a name up in a map of the layout entries only. The source indexes a plain object (`sharc/src/cli/common/layout.ts:213`), so a node named after an `Object.prototype` property (`constructor`, `toString`, `__proto__`) with no entry gets a truthy value there and then default coordinates; the model gives it no location attributes.
- Fixed.OwnAttrs: coordinates are unbounded integers spelled in plain decimal. The source's `${xPos}` switches to exponent notation at 1e21 and up, and positions past 2^53 lose precision; neither is modelled.
- Attrs.ParseAnchor: requires a non-empty value, because its only caller filters out empty values. The regex engine is modelled only for this one pattern.
- Sparsely: `width` and `height` always return 0, so they are not modelled. `unorderedList` and `normalizedList` are the entry list and `from(toArray())`, which are modelled.
- Sparsely.Put: a falsy value other than `undefined` (`0`, `""`) is not distinguished from `undefined`. Both are `None`.
- Names are unique: the arena is keyed by name. The source never checks this, and it behaves differently on duplicate names.
- Relative.FlatNodes: descends at most as many levels as there are nodes. The grids hold only the nodes of a tree, so this never cuts a walk short on a well-formed arena.
- AbsPos.Visit: has the same level bound as `Relative.FlatNodes`.
- Relative.FindParent: looks a name up with `Real(name) in items`. A node literally named `undefined` would collide with the fillers there and in `absPositions`, and the model does not represent that collision.
- The "last pass could not lay any nodes" error (`sharc/src/cli/common/layout.ts:433-442`) is unreachable: `applyAnchor` either returns true or throws. The model has no error value for it.
- Fixed.LayNodes: does not promise that every child of a container occurs in its finished grid, only that the grid holds nothing but its children. A layout entry with a negative `x` sends `putNode`'s write to an off-array property of the row (`sharc/src/cli/common/layout.ts:28-54`), which `.flat()` and the row filter never see, so that child really does drop out of the grid.
- A grid cell naming a node that is absent from the arena is skipped by every walk. `fixedPass` never creates one.
- `sharc/src/cli/layout.ts` and `sharc/src/cli/generator.ts` are older copies of this engine and are not part of this model. Rendering (`html/generator.ts`, `awsdac/generate.ts`, CSS) is left out except for the call order of the three stages.
- Relative.RelativePass: bounds the pass number by the count of unlaid nodes, not by the number of nodes in the tree.
- Relative.Walk: the walk's termination uses the grid size as a measure. The source's `do … while (true)` relies on growing the grid until a free cell appears.
- Spread semantics: `{...n}` copies own properties. Only `laid`, `fixed`, `locationAttrs` and the anchor array's shared identity are modelled; `kind`, `title` and `foo` are carried but never read.

=== FILE: abspos.dfy ===
/**
 * `absPositions`: every record gets an absolute address per axis, its parent's address
 * followed by a dot and its own coordinate (0 when it has no `locationAttrs`). The root's
 * parent has no address, which counts as "0". The addresses are collected into one object
 * keyed by name; a later record overwrites an earlier one with the same name, and every
 * filler is keyed "undefined".
 */
module AbsPos {
  import opened Wrappers
  import opened Decimal
  import opened LayoutTypes
  import opened Place

  // ---------------------------------------------------------------- addresses

  /** The address of a chain of coordinates from the root down: `0.c0.c1…`. */
  function Render(path: seq<int>): (s: string)
    ensures |s| > 0
  {
    if |path| == 0 then "0"
    else Render(path[..|path| - 1]) + "." + IntToString(path[|path| - 1])
  }

  /** The index of the last `.` in `s`, or -1. */
  function LastDot(s: string): (i: int)
    ensures -1 <= i < |s|
  {
    if |s| == 0 then -1
    else if s[|s| - 1] == '.' then |s| - 1
    else LastDot(s[..|s| - 1])
  }

  /** A dot with no dot after it is the last one. */
  lemma {:induction false} LastDotAt(s: string, k: nat)
    requires k < |s| && s[k] == '.'
    requires forall j :: k < j < |s| ==> s[j] != '.'
    ensures LastDot(s) == k
    decreases |s|
  {
    if k < |s| - 1 {
      LastDotAt(s[..|s| - 1], k);
    }
  }

  /** Read an address back into its chain of coordinates. */
  function Decode(s: string): (r: Option<seq<int>>)
    decreases |s|
  {
    if s == "0" then Some([])
    else
      var i := LastDot(s);
      if i < 0 then None
      else
        match ParseInt(s[i + 1..])
        case None => None
        case Some(v) =>
          match Decode(s[..i])
          case None => None
          case Some(p) => Some(p + [v])
  }

  /** A decimal spelling holds no dot. */
  lemma NoDot(v: int)
    ensures forall k :: 0 <= k < |IntToString(v)| ==> IntToString(v)[k] != '.'
  {
  }

  /** Decoding `head.v` decodes `head` and appends `v`. */
  lemma DecodeSnoc(head: string, v: int)
    ensures Decode(head + "." + IntToString(v)) == if Decode(head).Some? then Some(Decode(head).value + [v]) else None
  {
    var tail := IntToString(v);
    var s := head + "." + tail;
    NoDot(v);
    assert forall k :: |head| < k < |s| ==> s[k] != '.' by {
      forall k | |head| < k < |s| ensures s[k] != '.' {
        assert s[k] == tail[k - |head| - 1];
      }
    }
    assert s != "0" by {
      assert |s| >= 2;
    }
    assert s[|head|] == '.';
    LastDotAt(s, |head|);
    assert s[|head| + 1..] == tail;
    assert s[..|head|] == head;
    ParseIntToString(v);
  }

  /** An address reads back as the chain it was made from. */
  lemma {:induction false} DecodeRender(path: seq<int>)
    ensures Decode(Render(path)) == Some(path)
    decreases |path|
  {
    if |path| > 0 {
      var init, v := path[..|path| - 1], path[|path| - 1];
      assert init + [v] == path;
      DecodeRender(init);
      DecodeStep(Render(path), Render(init), v, init);
    }
  }

  /** Appending `.v` to an address of `init` gives an address of `init + [v]`. */
  lemma DecodeStep(s: string, head: string, v: int, init: seq<int>)
    requires s == head + "." + IntToString(v)
    requires Decode(head) == Some(init)
    ensures Decode(s) == Some(init + [v])
  {
    DecodeSnoc(head, v);
  }

  /** Different chains get different addresses. */
  lemma RenderInjective(p: seq<int>, q: seq<int>)
    requires Render(p) == Render(q)
    ensures p == q
  {
    DecodeRender(p);
    DecodeRender(q);
  }

  // ---------------------------------------------------------------- the walk

  /** One `{name, abs}` record of `absLoc`, with the chains behind its two addresses. */
  datatype Entry = Entry(key: string, xs: seq<int>, ys: seq<int>)

  /** `node?.locationAttrs?.x ?? 0`. */
  function X(l: Option<Loc>): int {
    if l.Some? then l.value.x else 0
  }

  /** `node?.locationAttrs?.y ?? 0`. */
  function Y(l: Option<Loc>): int {
    if l.Some? then l.value.y else 0
  }

  /** The key the final `reduce` files a filler under: its `name` is `undefined`. */
  const FillerKey := "undefined"

  /**
   * `walkNodes` followed by `absLoc`: the node's entry, then depth first the entries of every
   * record in its grid. `px`/`py` are the parent's chains. At most `fuel` levels are visited.
   */
  function Visit(a: Arena, n: string, px: seq<int>, py: seq<int>, fuel: nat): (r: seq<Entry>)
    requires n in a
    ensures |r| > 0 && r[0] == Entry(n, px + [X(a[n].loc)], py + [Y(a[n].loc)])
    ensures forall i :: 0 <= i < |r| ==> |r[i].xs| > |px| && r[i].xs[..|px|] == px && |r[i].ys| > |py| && r[i].ys[..|py|] == py
    decreases fuel, 1
  {
    var xs := px + [X(a[n].loc)];
    var ys := py + [Y(a[n].loc)];
    var below := VisitAll(a, Flat(a[n].grid), xs, ys, fuel);
    assert forall i :: 0 <= i < |below| ==> below[i].xs[..|px|] == px by {
      forall i | 0 <= i < |below| ensures below[i].xs[..|px|] == px {
        assert below[i].xs[..|px|] == below[i].xs[..|xs|][..|px|];
      }
    }
    assert forall i :: 0 <= i < |below| ==> below[i].ys[..|py|] == py by {
      forall i | 0 <= i < |below| ensures below[i].ys[..|py|] == py {
        assert below[i].ys[..|py|] == below[i].ys[..|ys|][..|py|];
      }
    }
    [Entry(n, xs, ys)] + below
  }

  /** The entries below a row of cells; a filler's entry carries its own position. */
  function VisitAll(a: Arena, cs: seq<Cell>, px: seq<int>, py: seq<int>, fuel: nat): (r: seq<Entry>)
    ensures forall i :: 0 <= i < |r| ==> |r[i].xs| > |px| && r[i].xs[..|px|] == px && |r[i].ys| > |py| && r[i].ys[..|py|] == py
    decreases fuel, 0, |cs|
  {
    if fuel == 0 || |cs| == 0 then []
    else
      var here := match cs[0]
        case Occ(c) => if c in a then Visit(a, c, px, py, fuel - 1) else []
        case Filler(l) => [Entry(FillerKey, px + [l.x], py + [l.y])]
        case _ => [];
      here + VisitAll(a, cs[1..], px, py, fuel)
  }

  /** An `absPosition`: one address per axis. */
  datatype Abs = Abs(x: string, y: string)

  /** No entry after the `i`-th has its key. */
  predicate LastOfKey(es: seq<Entry>, i: int)
    requires 0 <= i < |es|
  {
    forall j :: i < j < |es| ==> es[j].key != es[i].key
  }

  /** The `reduce` into one object: every key gets the addresses of its last entry. */
  function Collect(es: seq<Entry>): (m: map<string, Abs>)
    ensures forall k :: k in m <==> exists i :: 0 <= i < |es| && es[i].key == k
  {
    if |es| == 0 then map[]
    else
      var last := es[|es| - 1];
      var m := Collect(es[..|es| - 1]);
      assert forall i :: 0 <= i < |es| - 1 ==> es[..|es| - 1][i] == es[i];
      m[last.key := Abs(Render(last.xs), Render(last.ys))]
  }

  /** A key's value in the collected object comes from the last entry with that key. */
  lemma {:induction false} CollectLastWins(es: seq<Entry>, i: nat)
    requires i < |es| && LastOfKey(es, i)
    ensures Collect(es)[es[i].key] == Abs(Render(es[i].xs), Render(es[i].ys))
    decreases |es|
  {
    if i < |es| - 1 {
      var init := es[..|es| - 1];
      assert init[i] == es[i];
      assert LastOfKey(init, i);
      CollectLastWins(init, i);
    }
  }

  /** Both addresses of `v` render chains that start with the coordinates of `root`. */
  ghost predicate Rooted(a: Arena, root: string, v: Abs)
    requires root in a
  {
    && (exists p :: |p| > 0 && p[0] == X(a[root].loc) && v.x == Render(p))
    && (exists q :: |q| > 0 && q[0] == Y(a[root].loc) && v.y == Render(q))
  }

  /** Both chains of `e` start with the coordinates `x0`, `y0`. */
  predicate StartsAt(e: Entry, x0: int, y0: int) {
    |e.xs| > 0 && e.xs[0] == x0 && |e.ys| > 0 && e.ys[0] == y0
  }

  /** The names the walk lists. */
  function KeysOf(es: seq<Entry>): set<string> {
    set i | 0 <= i < |es| :: es[i].key
  }

  /**
   * `absPositions(tree)`: the addresses of every walked record, keyed by name, each address
   * the rendering of a chain that starts with the root's own coordinate; the root, when no
   * later record shares its name, is at `0.x`/`0.y`.
   */
  function AbsPositions(a: Arena, root: string): (m: map<string, Abs>)
    requires root in a
    ensures m.Keys == KeysOf(Visit(a, root, [], [], |a|))
    ensures root in m
    ensures forall k :: k in m ==> Rooted(a, root, m[k])
    ensures LastOfKey(Visit(a, root, [], [], |a|), 0) ==>
      m[root] == Abs("0." + IntToString(X(a[root].loc)), "0." + IntToString(Y(a[root].loc)))
    ensures forall c :: c in Flat(a[root].grid) && Listed(a, c) ==> KeyOf(c) in m
  {
    var es := Visit(a, root, [], [], |a|);
    CollectKeys(es);
    TopKeys(a, root, es);
    AllRooted(a, root, es);
    RootAddress(es, root, X(a[root].loc), Y(a[root].loc));
    Collect(es)
  }

  /** Every listed slot of the root's grid has its key among the walked names. */
  lemma TopKeys(a: Arena, root: string, es: seq<Entry>)
    requires root in a && es == Visit(a, root, [], [], |a|)
    ensures forall c :: c in Flat(a[root].grid) && Listed(a, c) ==> KeyOf(c) in KeysOf(es)
  {
    forall c | c in Flat(a[root].grid) && Listed(a, c) ensures KeyOf(c) in KeysOf(es) {
      VisitLists(a, root, [], [], |a|, c);
      var i :| 0 <= i < |es| && es[i] == EntryFor(a, c, es[0].xs, es[0].ys);
    }
  }

  /** The collected object's keys are exactly the listed names. */
  lemma CollectKeys(es: seq<Entry>)
    ensures Collect(es).Keys == KeysOf(es)
  {
    forall k | k in KeysOf(es) ensures k in Collect(es) {
      var i :| 0 <= i < |es| && es[i].key == k;
    }
  }

  /** Every address collected from the walk starts with the root's own coordinates. */
  lemma AllRooted(a: Arena, root: string, es: seq<Entry>)
    requires root in a && es == Visit(a, root, [], [], |a|)
    ensures root in Collect(es)
    ensures forall k :: k in Collect(es) ==> Rooted(a, root, Collect(es)[k])
  {
    assert es[0].key == root;
    forall i | 0 <= i < |es| ensures StartsAt(es[i], X(a[root].loc), Y(a[root].loc)) {
      RootFirst(a, root, es, i);
    }
    forall k | k in Collect(es) ensures Rooted(a, root, Collect(es)[k]) {
      KeyRooted(a, root, es, k);
    }
  }

  /** The root's entry renders as `0.x`/`0.y` when no later entry shares its name. */
  lemma RootAddress(es: seq<Entry>, root: string, x: int, y: int)
    requires |es| > 0 && es[0] == Entry(root, [x], [y])
    ensures LastOfKey(es, 0) ==> root in Collect(es) && Collect(es)[root] == Abs("0." + IntToString(x), "0." + IntToString(y))
  {
    if LastOfKey(es, 0) {
      CollectLastWins(es, 0);
      RenderOne(x);
      RenderOne(y);
    }
  }

  /** A one-coordinate chain renders as `0.` and the coordinate. */
  lemma RenderOne(v: int)
    ensures Render([v]) == "0." + IntToString(v)
  {
    assert [v][..0] == [];
    assert Render([v]) == "0" + "." + IntToString(v);
  }

  /** When every entry starts at the root's coordinates, so does every collected address. */
  lemma KeyRooted(a: Arena, root: string, es: seq<Entry>, k: string)
    requires root in a && k in Collect(es)
    requires forall i :: 0 <= i < |es| ==> StartsAt(es[i], X(a[root].loc), Y(a[root].loc))
    ensures Rooted(a, root, Collect(es)[k])
  {
    var i := LastEntry(es, k);
    CollectLastWins(es, i);
    assert StartsAt(es[i], X(a[root].loc), Y(a[root].loc));
    var v := Collect(es)[k];
    assert v.x == Render(es[i].xs) && v.y == Render(es[i].ys);
  }

  /** The position of the last entry with key `k`. */
  lemma LastEntry(es: seq<Entry>, k: string) returns (i: nat)
    requires exists j :: 0 <= j < |es| && es[j].key == k
    ensures i < |es| && es[i].key == k && LastOfKey(es, i)
  {
    var j :| 0 <= j < |es| && es[j].key == k;
    i := j;
    while i + 1 < |es| && exists l :: i < l < |es| && es[l].key == k
      invariant j <= i < |es| && es[i].key == k
      decreases |es| - i
    {
      var l :| i < l < |es| && es[l].key == k;
      i := l;
    }
  }

  /** Every entry of the root's walk has a chain that starts with the root's coordinate. */
  lemma RootFirst(a: Arena, root: string, es: seq<Entry>, i: nat)
    requires root in a && es == Visit(a, root, [], [], |a|) && i < |es|
    ensures |es[i].xs| > 0 && es[i].xs[0] == X(a[root].loc)
    ensures |es[i].ys| > 0 && es[i].ys[0] == Y(a[root].loc)
  {
    var xs, ys := [X(a[root].loc)], [Y(a[root].loc)];
    if i > 0 {
      var below := VisitAll(a, Flat(a[root].grid), xs, ys, |a|);
      assert es[i] == below[i - 1];
      assert below[i - 1].xs[..1] == xs;
      assert below[i - 1].ys[..1] == ys;
    }
  }

  // ---------------------------------------------------------------- the shape of the walk

  /** A slot the walk lists: a record present in the arena, or a filler. */
  predicate Listed(a: Arena, c: Cell) {
    (c.Occ? && c.name in a) || c.Filler?
  }

  /** The key a listed slot is filed under. */
  function KeyOf(c: Cell): string
    requires c.Occ? || c.Filler?
  {
    if c.Occ? then c.name else FillerKey
  }

  /** A slot's own coordinates: a record's `locationAttrs` (0 when absent), a filler's position. */
  function OwnX(a: Arena, c: Cell): int
    requires Listed(a, c)
  {
    if c.Occ? then X(a[c.name].loc) else c.loc.x
  }

  function OwnY(a: Arena, c: Cell): int
    requires Listed(a, c)
  {
    if c.Occ? then Y(a[c.name].loc) else c.loc.y
  }

  /** The entry of slot `c` below a record whose chains are `px`, `py`. */
  function EntryFor(a: Arena, c: Cell, px: seq<int>, py: seq<int>): Entry
    requires Listed(a, c)
  {
    Entry(KeyOf(c), px + [OwnX(a, c)], py + [OwnY(a, c)])
  }

  /** `e` is the entry of a slot in the grid of the record `p` is the entry of. */
  ghost predicate ChildOf(a: Arena, p: Entry, e: Entry) {
    p.key in a && exists c :: c in Flat(a[p.key].grid) && Listed(a, c) && e == EntryFor(a, c, p.xs, p.ys)
  }

  /** Every entry after the first is the child of an earlier one. */
  ghost predicate Shaped(a: Arena, r: seq<Entry>) {
    forall i :: 0 < i < |r| ==> exists j :: 0 <= j < i && ChildOf(a, r[j], r[i])
  }

  /** Every entry is that of a slot of `cs` below `px`, `py`, or the child of an earlier one. */
  ghost predicate ShapedBelow(a: Arena, cs: seq<Cell>, px: seq<int>, py: seq<int>, r: seq<Entry>) {
    forall i :: 0 <= i < |r| ==> Placed(a, cs, px, py, r, i)
  }

  /** Entry `i` of `r` is that of a slot of `cs` below `px`, `py`, or the child of an earlier one. */
  ghost predicate Placed(a: Arena, cs: seq<Cell>, px: seq<int>, py: seq<int>, r: seq<Entry>, i: nat)
    requires i < |r|
  {
    || (exists c :: c in cs && Listed(a, c) && r[i] == EntryFor(a, c, px, py))
    || (exists j :: 0 <= j < i && ChildOf(a, r[j], r[i]))
  }

  /** The walk from a record lists it first, then only children of records listed before. */
  lemma {:induction false} VisitShaped(a: Arena, n: string, px: seq<int>, py: seq<int>, fuel: nat)
    requires n in a
    ensures Shaped(a, Visit(a, n, px, py, fuel))
    decreases fuel, 1
  {
    var r := Visit(a, n, px, py, fuel);
    var xs, ys := px + [X(a[n].loc)], py + [Y(a[n].loc)];
    var cs := Flat(a[n].grid);
    var below := VisitAll(a, cs, xs, ys, fuel);
    VisitAllShaped(a, cs, xs, ys, fuel);
    assert r == [Entry(n, xs, ys)] + below;
    forall i | 0 < i < |r| ensures exists j :: 0 <= j < i && ChildOf(a, r[j], r[i]) {
      assert r[i] == below[i - 1];
      assert Placed(a, cs, xs, ys, below, i - 1);
      if exists c :: c in cs && Listed(a, c) && below[i - 1] == EntryFor(a, c, xs, ys) {
        assert ChildOf(a, r[0], r[i]);
      } else {
        var j :| 0 <= j < i - 1 && ChildOf(a, below[j], below[i - 1]);
        assert r[j + 1] == below[j];
      }
    }
  }

  lemma {:induction false} VisitAllShaped(a: Arena, cs: seq<Cell>, px: seq<int>, py: seq<int>, fuel: nat)
    ensures ShapedBelow(a, cs, px, py, VisitAll(a, cs, px, py, fuel))
    decreases fuel, 0, |cs|
  {
    if fuel > 0 && |cs| > 0 {
      var here := match cs[0]
        case Occ(c) => if c in a then Visit(a, c, px, py, fuel - 1) else []
        case Filler(l) => [Entry(FillerKey, px + [l.x], py + [l.y])]
        case _ => [];
      var rest := VisitAll(a, cs[1..], px, py, fuel);
      VisitAllShaped(a, cs[1..], px, py, fuel);
      assert VisitAll(a, cs, px, py, fuel) == here + rest;
      if cs[0].Occ? && cs[0].name in a {
        VisitShaped(a, cs[0].name, px, py, fuel - 1);
      }
      HereShaped(a, cs, px, py, here);
      Concat(a, cs, px, py, here, rest);
    }
  }

  /** The entries of the first slot are its own, then children of earlier ones. */
  lemma HereShaped(a: Arena, cs: seq<Cell>, px: seq<int>, py: seq<int>, here: seq<Entry>)
    requires |cs| > 0
    requires |here| > 0 ==> Listed(a, cs[0]) && here[0] == EntryFor(a, cs[0], px, py) && Shaped(a, here)
    ensures ShapedBelow(a, cs, px, py, here)
  {
    if |here| > 0 {
      assert cs[0] in cs;
    }
  }

  /** Shaped runs concatenate: the second's earlier entries shift by the first's length. */
  lemma Concat(a: Arena, cs: seq<Cell>, px: seq<int>, py: seq<int>, here: seq<Entry>, rest: seq<Entry>)
    requires |cs| > 0 && ShapedBelow(a, cs, px, py, here) && ShapedBelow(a, cs[1..], px, py, rest)
    ensures ShapedBelow(a, cs, px, py, here + rest)
  {
    var r := here + rest;
    forall i | 0 <= i < |r| ensures Placed(a, cs, px, py, r, i) {
      if i < |here| {
        assert r[i] == here[i];
        assert Placed(a, cs, px, py, here, i);
        if !(exists c :: c in cs && Listed(a, c) && here[i] == EntryFor(a, c, px, py)) {
          var j :| 0 <= j < i && ChildOf(a, here[j], here[i]);
          assert r[j] == here[j];
        }
      } else {
        var i' := i - |here|;
        assert r[i] == rest[i'];
        assert Placed(a, cs[1..], px, py, rest, i');
        if exists c :: c in cs[1..] && Listed(a, c) && rest[i'] == EntryFor(a, c, px, py) {
          var c :| c in cs[1..] && Listed(a, c) && rest[i'] == EntryFor(a, c, px, py);
          assert c in cs;
        } else {
          var j :| 0 <= j < i' && ChildOf(a, rest[j], rest[i']);
          assert r[j + |here|] == rest[j];
        }
      }
    }
  }

  /**
   * A child's address: when a record and a slot of its grid are each listed once by the
   * walk, the slot's addresses are the record's followed by `.` and the slot's own coordinate.
   */
  lemma AbsChild(a: Arena, root: string, j: nat, i: nat, c: Cell)
    requires root in a
    requires var es := Visit(a, root, [], [], |a|);
      && j < |es| && i < |es| && es[j].key in a
      && c in Flat(a[es[j].key].grid) && Listed(a, c) && es[i] == EntryFor(a, c, es[j].xs, es[j].ys)
      && LastOfKey(es, i) && LastOfKey(es, j)
    ensures var m := AbsPositions(a, root);
      && KeyOf(c) in m && Visit(a, root, [], [], |a|)[j].key in m
      && m[KeyOf(c)].x == m[Visit(a, root, [], [], |a|)[j].key].x + "." + IntToString(OwnX(a, c))
      && m[KeyOf(c)].y == m[Visit(a, root, [], [], |a|)[j].key].y + "." + IntToString(OwnY(a, c))
  {
    var es := Visit(a, root, [], [], |a|);
    CollectLastWins(es, i);
    CollectLastWins(es, j);
    var p := es[j];
    assert (p.xs + [OwnX(a, c)])[..|p.xs|] == p.xs;
    assert (p.ys + [OwnY(a, c)])[..|p.ys|] == p.ys;
  }

  /** Every walked entry after the root's is the entry of a slot in an earlier record's grid. */
  lemma AbsWalkShaped(a: Arena, root: string)
    requires root in a
    ensures var es := Visit(a, root, [], [], |a|);
      && es[0] == Entry(root, [X(a[root].loc)], [Y(a[root].loc)])
      && Shaped(a, es)
  {
    VisitShaped(a, root, [], [], |a|);
  }

  /** With fuel left, the walk below a row lists every listed slot of it, with the slot's own entry. */
  lemma {:induction false} VisitAllLists(a: Arena, cs: seq<Cell>, px: seq<int>, py: seq<int>, fuel: nat, c: Cell)
    requires fuel > 0 && c in cs && Listed(a, c)
    ensures EntryFor(a, c, px, py) in VisitAll(a, cs, px, py, fuel)
    decreases |cs|
  {
    var rest := VisitAll(a, cs[1..], px, py, fuel);
    if cs[0] == c {
      match c
      case Occ(n) =>
        assert VisitAll(a, cs, px, py, fuel) == Visit(a, n, px, py, fuel - 1) + rest;
      case Filler(l) =>
        assert VisitAll(a, cs, px, py, fuel) == [Entry(FillerKey, px + [l.x], py + [l.y])] + rest;
    } else {
      VisitAllLists(a, cs[1..], px, py, fuel, c);
    }
  }

  /** With fuel left, the walk from a record lists every listed slot of its grid below the record's own chains. */
  lemma VisitLists(a: Arena, n: string, px: seq<int>, py: seq<int>, fuel: nat, c: Cell)
    requires n in a && fuel > 0 && c in Flat(a[n].grid) && Listed(a, c)
    ensures EntryFor(a, c, px + [X(a[n].loc)], py + [Y(a[n].loc)]) in Visit(a, n, px, py, fuel)
  {
    VisitAllLists(a, Flat(a[n].grid), px + [X(a[n].loc)], py + [Y(a[n].loc)], fuel, c);
  }

  /** Every listed slot of the root's grid gets an address, from an entry below the root's. */
  lemma AbsListsTop(a: Arena, root: string, c: Cell)
    requires root in a && c in Flat(a[root].grid) && Listed(a, c)
    ensures KeyOf(c) in AbsPositions(a, root)
    ensures var es := Visit(a, root, [], [], |a|);
      exists i :: 0 < i < |es| && es[i] == EntryFor(a, c, es[0].xs, es[0].ys)
  {
    var es := Visit(a, root, [], [], |a|);
    VisitLists(a, root, [], [], |a|, c);
    var e := EntryFor(a, c, es[0].xs, es[0].ys);
    var i :| 0 <= i < |es| && es[i] == e;
    assert |es[i].xs| == 2;
    CollectKeys(es);
  }
}

=== FILE: attrs.dfy ===
/**
 * Reading layout attributes: `nodeAttr`, `nodeKind`, the `anchor(ID:SIDE)` matcher of
 * `parseArchor`, and `getLocationAttrs`.
 */
module Attrs {
  import opened Wrappers
  import opened Decimal
  import opened LayoutTypes

  /** One `name: value` attribute. */
  datatype Attribute = Attribute(name: string, value: string)

  /** An architecture node as the parser hands it over. */
  datatype ArchNode = ArchNode(name: string, title: Option<string>, attrs: Option<seq<Attribute>>, nodes: seq<ArchNode>)

  /** One node entry of the layout section: the node's name and its attributes. */
  datatype LayoutEntry = LayoutEntry(name: string, attrs: seq<Attribute>)

  /** The position of the first attribute called `name`, or `|attrs|` when there is none. */
  function FirstNamed(attrs: seq<Attribute>, name: string): (i: nat)
    ensures i <= |attrs|
    ensures forall j :: 0 <= j < i ==> attrs[j].name != name
    ensures i < |attrs| ==> attrs[i].name == name
  {
    if |attrs| == 0 then 0
    else if attrs[0].name == name then 0
    else 1 + FirstNamed(attrs[1..], name)
  }

  /** `nodeAttr`: the value of the first attribute called `name`, else `def`. */
  function NodeAttr(name: string, attrs: seq<Attribute>, def: string): (r: string)
    ensures (forall i :: 0 <= i < |attrs| ==> attrs[i].name != name) ==> r == def
    ensures forall i :: 0 <= i < |attrs| && attrs[i].name == name && (forall j :: 0 <= j < i ==> attrs[j].name != name) ==> r == attrs[i].value
  {
    var i := FirstNamed(attrs, name);
    if i < |attrs| then attrs[i].value else def
  }

  /** `nodeKind`: the `kind` attribute, defaulting to the node's own name. */
  function NodeKind(node: ArchNode): (r: string)
    ensures node.attrs.None? ==> r == node.name
    ensures node.attrs.Some? ==> r == NodeAttr("kind", node.attrs.value, node.name)
  {
    NodeAttr("kind", node.attrs.GetOr([]), node.name)
  }

  /** The attribute that declares an anchor on each side. */
  function SideName(s: Side): string {
    match s
    case Left => "left"
    case Right => "right"
    case Top => "top"
    case Bottom => "bottom"
  }

  predicate NoColon(s: string) {
    forall i :: 0 <= i < |s| ==> s[i] != ':'
  }

  /** The text `anchor(ID:SIDE)`. */
  function Spelled(id: string, side: string): string {
    "anchor(" + id + ":" + side + ")"
  }

  /** `anchor(ID:SIDE)` with non-empty, colon-free `ID` and `SIDE` occurs in `s` at `p`. */
  ghost predicate Shape(s: string, p: nat, id: string, side: string) {
    && |id| > 0 && |side| > 0 && NoColon(id) && NoColon(side)
    && p + |Spelled(id, side)| <= |s|
    && s[p..p + |Spelled(id, side)|] == Spelled(id, side)
  }

  /** The end of the colon-free run of `s` that starts at `i`. */
  function RunEnd(s: string, i: nat): (j: nat)
    requires i <= |s|
    ensures i <= j <= |s| && NoColon(s[i..j])
    ensures j < |s| ==> s[j] == ':'
    decreases |s| - i
  {
    if i == |s| || s[i] == ':' then i else RunEnd(s, i + 1)
  }

  /** The last `)` in `s[lo..hi]`. */
  function LastParen(s: string, lo: nat, hi: nat): (q: Option<nat>)
    requires lo <= hi <= |s|
    ensures q.Some? ==> lo <= q.value < hi && s[q.value] == ')' && forall k :: q.value < k < hi ==> s[k] != ')'
    ensures q.None? ==> forall k :: lo <= k < hi ==> s[k] != ')'
    decreases hi - lo
  {
    if lo == hi then None
    else if s[hi - 1] == ')' then Some(hi - 1)
    else LastParen(s, lo, hi - 1)
  }

  /**
   * The regular expression `anchor\((?<otherId>[^:]+):(?<otherSide>[^:]+)\)` tried at `p`:
   * the id is the whole colon-free run after `anchor(`, which must be followed by `:`, and
   * the greedy side runs up to the last `)` before the next colon.
   */
  function MatchAt(s: string, p: nat): Option<(string, string)> {
    if p + 7 <= |s| && s[p..p + 7] == "anchor(" then
      var j := RunEnd(s, p + 7);
      if j > p + 7 && j < |s| then
        var m := RunEnd(s, j + 1);
        if m >= j + 2 then
          match LastParen(s, j + 2, m)
          case Some(q) => Some((s[p + 7..j], s[j + 1..q]))
          case None => None
        else None
      else None
    else None
  }

  lemma SpelledParts(id: string, side: string)
    ensures var t := Spelled(id, side);
      && |t| == 7 + |id| + 1 + |side| + 1
      && t[..7] == "anchor("
      && t[7..7 + |id|] == id
      && t[7 + |id|] == ':'
      && t[8 + |id|..8 + |id| + |side|] == side
      && t[|t| - 1] == ')'
  {
  }

  lemma MatchAtSound(s: string, p: nat)
    requires MatchAt(s, p).Some?
    ensures Shape(s, p, MatchAt(s, p).value.0, MatchAt(s, p).value.1)
  {
    var j := RunEnd(s, p + 7);
    var m := RunEnd(s, j + 1);
    var q := LastParen(s, j + 2, m).value;
    var id, side := s[p + 7..j], s[j + 1..q];
    NoColonWithin(s, j + 1, q, m);
    SpelledAt(s, p, j, q);
    assert MatchAt(s, p).value == (id, side);
    assert |id| > 0 && |side| > 0 && NoColon(id) && NoColon(side);
    ShapeOf(s, p, id, side, q);
  }

  /** A spelled anchor that ends at `q` inside `s` is an occurrence. */
  lemma ShapeOf(s: string, p: nat, id: string, side: string, q: nat)
    requires |id| > 0 && |side| > 0 && NoColon(id) && NoColon(side)
    requires q < |s| && p + |Spelled(id, side)| == q + 1 && s[p..q + 1] == Spelled(id, side)
    ensures Shape(s, p, id, side)
  {
  }

  /** A slice that ends inside a colon-free slice is colon-free. */
  lemma NoColonWithin(s: string, i: nat, q: nat, m: nat)
    requires i <= q <= m <= |s| && NoColon(s[i..m])
    ensures NoColon(s[i..q])
  {
    forall k | 0 <= k < q - i ensures s[i..q][k] != ':' {
      assert s[i..q][k] == s[i..m][k];
    }
  }

  /** `anchor(`, a run, `:`, a run and `)` at `p`, `j` and `q` spell the two runs. */
  lemma SpelledAt(s: string, p: nat, j: nat, q: nat)
    requires p + 7 <= j < q < |s| && s[p..p + 7] == "anchor(" && s[j] == ':' && s[q] == ')'
    ensures p + |Spelled(s[p + 7..j], s[j + 1..q])| == q + 1
    ensures s[p..q + 1] == Spelled(s[p + 7..j], s[j + 1..q])
  {
    assert s[p..q + 1] == s[p..p + 7] + s[p + 7..j] + [s[j]] + s[j + 1..q] + [s[q]];
  }

  /** Any occurrence at `p` is found at `p`, with the same id and the longest side. */
  lemma MatchAtComplete(s: string, p: nat, id: string, side: string)
    requires Shape(s, p, id, side)
    ensures MatchAt(s, p).Some?
    ensures MatchAt(s, p).value.0 == id && |side| <= |MatchAt(s, p).value.1|
  {
    ShapeChars(s, p, id, side);
    var j := RunEnd(s, p + 7);
    RunEndAt(s, p + 7, p + 7 + |id|);
    assert j == p + 7 + |id|;
    assert s[p + 7..j] == id;
    var m := RunEnd(s, j + 1);
    RunEndPast(s, j + 1, j + 1 + |side|);
    var lp := LastParen(s, j + 2, m);
    assert lp.Some? && lp.value >= j + 1 + |side|;
  }

  /** The characters of an occurrence, position by position. */
  lemma ShapeChars(s: string, p: nat, id: string, side: string)
    requires Shape(s, p, id, side)
    ensures p + 9 + |id| + |side| <= |s| && s[p..p + 7] == "anchor("
    ensures forall k :: p + 7 <= k < p + 7 + |id| ==> s[k] == id[k - p - 7] && s[k] != ':'
    ensures s[p + 7 + |id|] == ':'
    ensures forall k :: p + 8 + |id| <= k < p + 8 + |id| + |side| ==> s[k] == side[k - p - 8 - |id|] && s[k] != ':'
    ensures s[p + 8 + |id| + |side|] == ')'
  {
    var t := Spelled(id, side);
    SpelledParts(id, side);
    assert s[p..p + |t|] == t;
    assert s[p..p + 7] == t[..7];
    forall k | p + 7 <= k < p + 7 + |id| ensures s[k] == id[k - p - 7] {
      assert s[k] == t[k - p];
    }
    assert s[p + 7 + |id|] == t[7 + |id|];
    forall k | p + 8 + |id| <= k < p + 8 + |id| + |side| ensures s[k] == side[k - p - 8 - |id|] {
      assert s[k] == t[k - p];
    }
    assert s[p + 8 + |id| + |side|] == t[|t| - 1];
  }

  lemma RunEndAt(s: string, i: nat, k: nat)
    requires i <= k < |s| && s[k] == ':'
    requires forall l :: i <= l < k ==> s[l] != ':'
    ensures RunEnd(s, i) == k
    decreases k - i
  {
    if i < k {
      RunEndAt(s, i + 1, k);
    }
  }

  lemma RunEndPast(s: string, i: nat, k: nat)
    requires i <= k <= |s|
    requires forall l :: i <= l < k ==> s[l] != ':'
    ensures RunEnd(s, i) >= k
    decreases k - i
  {
    if i < k {
      RunEndPast(s, i + 1, k);
    }
  }

  /** `RegExp.prototype.exec`: the leftmost position from `p` on where the pattern matches. */
  function Search(s: string, p: nat): (r: Option<(nat, string, string)>)
    ensures r.Some? ==> p <= r.value.0 && MatchAt(s, r.value.0) == Some((r.value.1, r.value.2))
    ensures r.Some? ==> forall p' :: p <= p' < r.value.0 ==> MatchAt(s, p').None?
    ensures r.None? ==> forall p' :: p <= p' ==> MatchAt(s, p').None?
    decreases |s| - p
  {
    if p + 7 > |s| then None
    else match MatchAt(s, p)
      case Some(m) => Some((p, m.0, m.1))
      case None => Search(s, p + 1)
  }

  /**
   * `parseArchor`. The caller only passes non-empty values; a value with no match is an
   * error. The anchor is unresolved and points away from the attribute's own side.
   */
  function ParseAnchor(dir: Side, val: string): (r: Result<Anchor, Error>)
    requires val != ""
    ensures r.Failure? ==> r.error == BadAnchor(val)
    ensures r.Success? ==> r.value.ownDirection == dir && !r.value.resolved
  {
    match Search(val, 0)
    case None => Failure(BadAnchor(val))
    case Some((_, id, side)) => Success(Anchor(id, dir, side, false))
  }

  /** A value parses exactly when `anchor(ID:SIDE)` occurs in it. */
  lemma ParseAnchorIff(dir: Side, val: string)
    requires val != ""
    ensures ParseAnchor(dir, val).Success? <==> exists p, id, side :: Shape(val, p, id, side)
  {
    var r := Search(val, 0);
    if r.Some? {
      MatchAtSound(val, r.value.0);
    } else {
      forall p: nat, id, side | Shape(val, p, id, side) ensures false {
        MatchAtComplete(val, p, id, side);
      }
    }
  }

  /** The match found is the leftmost occurrence, and at that position the longest side. */
  lemma ParseAnchorLeftmost(dir: Side, val: string)
    requires val != "" && ParseAnchor(dir, val).Success?
    ensures var a := ParseAnchor(dir, val).value;
      exists p :: && Shape(val, p, a.otherId, a.otherSide)
                  && (forall p', id, side :: p' < p && Shape(val, p', id, side) ==> false)
                  && (forall side :: Shape(val, p, a.otherId, side) ==> |side| <= |a.otherSide|)
  {
    var p := Search(val, 0).value.0;
    var a := ParseAnchor(dir, val).value;
    MatchAtSound(val, p);
    forall p', id, side | p' < p && Shape(val, p', id, side) ensures false {
      MatchAtComplete(val, p', id, side);
    }
    forall side | Shape(val, p, a.otherId, side) ensures |side| <= |a.otherSide| {
      MatchAtComplete(val, p, a.otherId, side);
    }
  }

  /** `anchor(ID:SIDE)` on its own parses back to `ID` and `SIDE`. */
  lemma ParseAnchorSpelled(dir: Side, id: string, side: string)
    requires |id| > 0 && |side| > 0 && NoColon(id) && NoColon(side)
    ensures ParseAnchor(dir, Spelled(id, side)) == Success(Anchor(id, dir, side, false))
  {
    var s := Spelled(id, side);
    SpelledParts(id, side);
    assert Shape(s, 0, id, side) by {
      assert s[0..|s|] == s;
    }
    MatchAtComplete(s, 0, id, side);
    MatchAtSound(s, 0);
    var side' := MatchAt(s, 0).value.1;
    assert |side'| <= |side| by {
      assert Shape(s, 0, id, side');
      SpelledParts(id, side');
    }
    assert side' == s[8 + |id|..8 + |id| + |side'|];
  }

  /** The value of a side's attribute, `""` when the attribute is missing. */
  function SideValue(attrs: seq<Attribute>, s: Side): string {
    NodeAttr(SideName(s), attrs, "")
  }

  /** A side's place in the order `getLocationAttrs` lists them: left, right, top, bottom. */
  function SideRank(s: Side): nat {
    match s
    case Left => 0
    case Right => 1
    case Top => 2
    case Bottom => 3
  }

  /** The sides of `ss` follow one another in strictly increasing rank (so none repeats). */
  predicate Ascending(ss: seq<Side>) {
    forall i, j :: 0 <= i < j < |ss| ==> SideRank(ss[i]) < SideRank(ss[j])
  }

  /** The four sides in the order `getLocationAttrs` tries them. */
  const AllSides: seq<Side> := [Left, Right, Top, Bottom]

  lemma EverySide()
    ensures forall s: Side :: s in AllSides
    ensures Ascending(AllSides)
  {
    forall s: Side ensures s in AllSides {
      match s
      case Left => assert AllSides[0] == s;
      case Right => assert AllSides[1] == s;
      case Top => assert AllSides[2] == s;
      case Bottom => assert AllSides[3] == s;
    }
  }

  /**
   * The sides whose attribute holds a non-empty value: exactly those, each once, in the order
   * left, right, top, bottom.
   */
  function AnchorSides(attrs: seq<Attribute>): (r: seq<Side>)
    ensures forall i :: 0 <= i < |r| ==> SideValue(attrs, r[i]) != ""
    ensures forall s :: s in r <==> SideValue(attrs, s) != ""
    ensures Ascending(r)
  {
    EverySide();
    Declared(attrs, AllSides)
  }

  /** `.filter(anchor => !!anchor.val)`: the sides of `sides` with a non-empty value, order kept. */
  function Declared(attrs: seq<Attribute>, sides: seq<Side>): (r: seq<Side>)
    ensures forall i :: 0 <= i < |r| ==> SideValue(attrs, r[i]) != ""
    ensures forall s :: s in sides && SideValue(attrs, s) != "" ==> s in r
    ensures forall s :: s in r ==> s in sides
    ensures Ascending(sides) ==> Ascending(r)
  {
    if |sides| == 0 then []
    else
      var rest := Declared(attrs, sides[1..]);
      if SideValue(attrs, sides[0]) != "" then
        AscendingCons(sides, rest);
        [sides[0]] + rest
      else rest
  }

  /** A side that precedes, in an ascending list, the sides drawn from the rest stays ascending. */
  lemma AscendingCons(sides: seq<Side>, rest: seq<Side>)
    requires |sides| > 0
    requires forall s :: s in rest ==> s in sides[1..]
    ensures Ascending(sides) ==> Ascending(sides[1..])
    ensures Ascending(sides) && Ascending(rest) ==> Ascending([sides[0]] + rest)
  {
    if Ascending(sides) {
      forall s | s in rest ensures SideRank(sides[0]) < SideRank(s) {
        var k :| 0 <= k < |sides[1..]| && sides[1..][k] == s;
        assert sides[k + 1] == s;
      }
    }
  }

  /** The anchor a declared side's value parses to. */
  function SideAnchor(attrs: seq<Attribute>, s: Side): (r: Result<Anchor, Error>)
    requires SideValue(attrs, s) != ""
    ensures r.Success? ==> r.value.ownDirection == s && !r.value.resolved
  {
    ParseAnchor(s, SideValue(attrs, s))
  }

  /** Every side is declared. */
  predicate AllDeclared(attrs: seq<Attribute>, sides: seq<Side>) {
    forall i :: 0 <= i < |sides| ==> SideValue(attrs, sides[i]) != ""
  }

  /** Some declared side's value does not parse. */
  predicate SomeBad(attrs: seq<Attribute>, sides: seq<Side>)
    requires AllDeclared(attrs, sides)
  {
    exists i :: 0 <= i < |sides| && SideAnchor(attrs, sides[i]).Failure?
  }

  /** Every declared side parses to the anchor at the same position of `anchors`. */
  predicate AllParse(attrs: seq<Attribute>, sides: seq<Side>, anchors: seq<Anchor>)
    requires AllDeclared(attrs, sides)
  {
    |anchors| == |sides| && forall i :: 0 <= i < |sides| ==> SideAnchor(attrs, sides[i]) == Success(anchors[i])
  }

  /** `.map(parseArchor)` over the declared sides; the first malformed value is the error. */
  function ParseAnchors(attrs: seq<Attribute>, sides: seq<Side>): (r: Result<seq<Anchor>, Error>)
    requires AllDeclared(attrs, sides)
    ensures r.Success? ==> AllParse(attrs, sides, r.value)
    ensures r.Failure? <==> SomeBad(attrs, sides)
  {
    if |sides| == 0 then Success([])
    else
      var tail := sides[1..];
      DeclaredCons(attrs, sides);
      match SideAnchor(attrs, sides[0])
      case Failure(e) =>
        assert SomeBad(attrs, sides) by { assert SideAnchor(attrs, sides[0]).Failure?; }
        Failure(e)
      case Success(a) =>
        ConsCases(attrs, sides);
        match ParseAnchors(attrs, tail)
        case Failure(e) => Failure(e)
        case Success(rest) =>
          ParseCons(attrs, sides, a, rest);
          Success([a] + rest)
  }

  lemma DeclaredCons(attrs: seq<Attribute>, sides: seq<Side>)
    requires |sides| > 0 && AllDeclared(attrs, sides)
    ensures SideValue(attrs, sides[0]) != "" && AllDeclared(attrs, sides[1..])
  {
    assert forall i :: 0 <= i < |sides| - 1 ==> sides[1..][i] == sides[i + 1];
  }

  /** With a good first side, some side is bad exactly when some later side is. */
  lemma ConsCases(attrs: seq<Attribute>, sides: seq<Side>)
    requires |sides| > 0 && AllDeclared(attrs, sides)
    requires SideAnchor(attrs, sides[0]).Success?
    ensures AllDeclared(attrs, sides[1..])
    ensures SomeBad(attrs, sides) <==> SomeBad(attrs, sides[1..])
  {
    DeclaredCons(attrs, sides);
    var tail := sides[1..];
    if SomeBad(attrs, sides) {
      var i :| 0 <= i < |sides| && SideAnchor(attrs, sides[i]).Failure?;
      BadInTail(attrs, sides, i);
    }
    if SomeBad(attrs, tail) {
      var i :| 0 <= i < |tail| && SideAnchor(attrs, tail[i]).Failure?;
      BadFromTail(attrs, sides, i);
    }
  }

  lemma BadFromTail(attrs: seq<Attribute>, sides: seq<Side>, i: nat)
    requires 0 < |sides| && i < |sides| - 1 && AllDeclared(attrs, sides) && AllDeclared(attrs, sides[1..])
    requires SideAnchor(attrs, sides[1..][i]).Failure?
    ensures SomeBad(attrs, sides)
  {
    assert sides[i + 1] == sides[1..][i];
    assert SideAnchor(attrs, sides[i + 1]).Failure?;
  }

  lemma BadInTail(attrs: seq<Attribute>, sides: seq<Side>, i: nat)
    requires i < |sides| && AllDeclared(attrs, sides) && AllDeclared(attrs, sides[1..])
    requires SideAnchor(attrs, sides[0]).Success? && SideAnchor(attrs, sides[i]).Failure?
    ensures SomeBad(attrs, sides[1..])
  {
    assert i > 0;
    assert sides[1..][i - 1] == sides[i];
    assert SideAnchor(attrs, sides[1..][i - 1]).Failure?;
  }

  lemma ParseCons(attrs: seq<Attribute>, sides: seq<Side>, a: Anchor, rest: seq<Anchor>)
    requires |sides| > 0 && AllDeclared(attrs, sides)
    requires SideAnchor(attrs, sides[0]) == Success(a)
    requires AllDeclared(attrs, sides[1..]) && AllParse(attrs, sides[1..], rest)
    ensures AllParse(attrs, sides, [a] + rest)
  {
    var tail := sides[1..];
    var all := [a] + rest;
    assert |all| == |sides|;
    forall i | 0 <= i < |sides| ensures SideAnchor(attrs, sides[i]) == Success(all[i]) {
      if i > 0 {
        assert sides[i] == tail[i - 1] && all[i] == rest[i - 1];
        assert SideAnchor(attrs, tail[i - 1]) == Success(rest[i - 1]);
      }
    }
  }

  /** What `getLocationAttrs` computes for a node with a layout entry. */
  datatype LocAttrs = LocAttrs(x: int, y: int, anchors: seq<Anchor>)

  /** A coordinate attribute read as an integer, with the default written out as a number. */
  function Coordinate(name: string, attrs: seq<Attribute>, def: int): (r: Result<int, Error>)
    ensures (forall i :: 0 <= i < |attrs| ==> attrs[i].name != name) ==> r == Success(def)
    ensures r.Success? <==> ParseInt(NodeAttr(name, attrs, IntToString(def))).Some?
    ensures r.Success? ==> r.value == ParseInt(NodeAttr(name, attrs, IntToString(def))).value
    ensures r.Failure? ==> r.error == BadNumber(NodeAttr(name, attrs, IntToString(def)))
  {
    ParseIntToString(def);
    var s := NodeAttr(name, attrs, IntToString(def));
    match ParseInt(s)
    case Some(v) => Success(v)
    case None => Failure(BadNumber(s))
  }

  /**
   * `getLocationAttrs`: nothing for a node without a layout entry; otherwise `x` and `y`
   * (defaulting to the node's seed position) and the anchors of the non-empty side attributes.
   */
  function GetLocationAttrs(entry: Option<LayoutEntry>, xPos: int, yPos: int): (r: Result<Option<LocAttrs>, Error>)
    ensures entry.None? ==> r == Success(None)
    ensures entry.Some? && r.Success? ==> r.value.Some?
    ensures entry.Some? ==> (r.Success? <==>
      && Coordinate("x", entry.value.attrs, xPos).Success?
      && Coordinate("y", entry.value.attrs, yPos).Success?
      && ParseAnchors(entry.value.attrs, AnchorSides(entry.value.attrs)).Success?)
    ensures entry.Some? && r.Success? ==>
      var l := r.value.value;
      && l.x == Coordinate("x", entry.value.attrs, xPos).value
      && l.y == Coordinate("y", entry.value.attrs, yPos).value
      && l.anchors == ParseAnchors(entry.value.attrs, AnchorSides(entry.value.attrs)).value
      && |l.anchors| == |AnchorSides(entry.value.attrs)|
      && forall i :: 0 <= i < |l.anchors| ==> l.anchors[i].ownDirection == AnchorSides(entry.value.attrs)[i] && !l.anchors[i].resolved
  {
    match entry
    case None => Success(None)
    case Some(e) =>
      var x :- Coordinate("x", e.attrs, xPos);
      var y :- Coordinate("y", e.attrs, yPos);
      var anchors :- ParseAnchors(e.attrs, AnchorSides(e.attrs));
      Success(Some(LocAttrs(x, y, anchors)))
  }

  /** `layoutAttributes`: entries by name, a later entry with the same name replacing an earlier one. */
  function LayoutAttributes(entries: seq<LayoutEntry>): (m: map<string, LayoutEntry>)
    ensures forall i :: 0 <= i < |entries| ==> entries[i].name in m
    ensures forall n :: n in m ==> m[n].name == n && m[n] in entries
  {
    if |entries| == 0 then map[]
    else
      var last := entries[|entries| - 1];
      LayoutAttributes(entries[..|entries| - 1])[last.name := last]
  }

  /** The entry kept for a name is the last one carrying it. */
  lemma {:induction false} LayoutAttributesLastWins(entries: seq<LayoutEntry>, i: nat)
    requires i < |entries|
    requires forall j :: i < j < |entries| ==> entries[j].name != entries[i].name
    ensures LayoutAttributes(entries)[entries[i].name] == entries[i]
  {
    if i < |entries| - 1 {
      LayoutAttributesLastWins(entries[..|entries| - 1], i);
    }
  }
}

=== FILE: decimal.dfy ===
/**
 * Decimal rendering and reading of integers.
 *
 * JavaScript renders an integer-valued number in a template literal as its
 * shortest decimal form, with a leading '-' for negatives. The layout uses
 * that rendering in three places: the `"x:y"` cell address of `Sparse2D`, the
 * default value of the `x`/`y` attributes before `parseInt`, and the dotted
 * absolute addresses. `ParseInt` is a strict reader for such strings.
 */
module Decimal {
  import opened Wrappers

  predicate IsDigit(c: char) {
    '0' <= c <= '9'
  }

  predicate AllDigits(s: string) {
    forall i :: 0 <= i < |s| ==> IsDigit(s[i])
  }

  function DigitChar(d: nat): (c: char)
    requires d < 10
    ensures IsDigit(c)
  {
    ('0' as int + d) as char
  }

  function DigitValue(c: char): (d: nat)
    requires IsDigit(c)
    ensures d < 10
  {
    c as int - '0' as int
  }

  /** The shortest decimal rendering of `n`. */
  function NatToString(n: nat): (s: string)
    ensures |s| > 0 && AllDigits(s)
    ensures n >= 10 <==> |s| > 1
    decreases n
  {
    if n < 10 then [DigitChar(n)] else NatToString(n / 10) + [DigitChar(n % 10)]
  }

  /** `${i}` for an integer-valued JavaScript number. */
  function IntToString(i: int): (s: string)
    ensures |s| > 0
    ensures forall k :: 0 <= k < |s| ==> IsDigit(s[k]) || (k == 0 && s[k] == '-')
    ensures i < 0 <==> s[0] == '-'
  {
    if i < 0 then "-" + NatToString(-i) else NatToString(i)
  }

  /** The value of a non-empty run of decimal digits, leading zeros allowed. */
  function ParseNat(s: string): nat
    requires AllDigits(s)
  {
    if |s| == 0 then 0 else ParseNat(s[..|s| - 1]) * 10 + DigitValue(s[|s| - 1])
  }

  /** An optional '-' followed by at least one digit; anything else is `None`. */
  function ParseInt(s: string): (r: Option<int>)
    ensures r.Some? <==> (|s| > 0 && (if s[0] == '-' then |s| > 1 && AllDigits(s[1..]) else AllDigits(s)))
  {
    if |s| == 0 then None
    else if s[0] == '-' then
      if |s| > 1 && AllDigits(s[1..]) then Some(0 - ParseNat(s[1..]) as int) else None
    else if AllDigits(s) then Some(ParseNat(s))
    else None
  }

  lemma {:induction false} ParseNatToString(n: nat)
    ensures ParseNat(NatToString(n)) == n
    decreases n
  {
    if n >= 10 {
      var prefix := NatToString(n / 10);
      var s := prefix + [DigitChar(n % 10)];
      assert s[..|s| - 1] == prefix;
      ParseNatToString(n / 10);
    }
  }

  /** Reading back a rendered integer gives the integer. */
  lemma ParseIntToString(i: int)
    ensures ParseInt(IntToString(i)) == Some(i)
  {
    var s := IntToString(i);
    if i < 0 {
      assert s[1..] == NatToString(-i);
      ParseNatToString(-i);
    } else {
      ParseNatToString(i);
    }
  }

  /** Distinct integers render differently. */
  lemma IntToStringInjective(i: int, j: int)
    requires IntToString(i) == IntToString(j)
    ensures i == j
  {
    ParseIntToString(i);
    ParseIntToString(j);
  }
}

=== FILE: fixed.dfy ===
/**
 * `fixedPass`: every container lays out its children on a seeded grid, places the ones with
 * coordinates, pins the rest, then drops empty rows, fills gaps with filler records and
 * trims the rows.
 */
module Fixed {
  import opened Wrappers
  import opened Decimal
  import opened LayoutTypes
  import opened Attrs
  import opened Grids
  import opened Place

  /** A `KindPass` node: an architecture node with its kind resolved. */
  datatype Tree = Tree(name: string, kind: string, title: Option<string>, nodes: seq<Tree>)

  /**
   * `t` is `n` with every kind resolved: at every depth the same name and title, the kind
   * `nodeKind` gives, and the children in the same order.
   */
  ghost predicate Kinded(n: ArchNode, t: Tree)
    decreases n
  {
    && t.name == n.name && t.kind == NodeKind(n) && t.title == n.title
    && |t.nodes| == |n.nodes|
    && forall i :: 0 <= i < |n.nodes| ==> Kinded(n.nodes[i], t.nodes[i])
  }

  /** `gatherKind`: the whole tree with every kind resolved. */
  function GatherKind(n: ArchNode): (t: Tree)
    ensures t.name == n.name && t.kind == NodeKind(n) && t.title == n.title && |t.nodes| == |n.nodes|
    ensures Kinded(n, t)
    decreases n
  {
    Tree(n.name, NodeKind(n), n.title, seq(|n.nodes|, i requires 0 <= i < |n.nodes| => GatherKind(n.nodes[i])))
  }

  /** A tree has only one kind-resolved form, so `gatherKind` is it. */
  lemma {:induction false} KindedUnique(n: ArchNode, t: Tree, u: Tree)
    requires Kinded(n, t) && Kinded(n, u)
    ensures t == u
    decreases n
  {
    forall i | 0 <= i < |n.nodes| ensures t.nodes[i] == u.nodes[i] {
      KindedUnique(n.nodes[i], t.nodes[i], u.nodes[i]);
    }
  }

  /** `getNames`: the names of a subtree in pre-order. */
  function GetNames(n: ArchNode): seq<string>
    decreases n, 1
  {
    [n.name] + NamesFrom(n, 0)
  }

  function NamesFrom(n: ArchNode, i: nat): seq<string>
    decreases n, 0, |n.nodes| - i
  {
    if i >= |n.nodes| then [] else GetNames(n.nodes[i]) + NamesFrom(n, i + 1)
  }

  /** `countDeep`: one for the node, plus the counts of its children. */
  function CountDeep(t: Tree): (r: nat)
    ensures r >= 1
    decreases t, 1
  {
    1 + DeepFrom(t, 0)
  }

  /** The counts of the children of `t` from the `i`-th on, summed. */
  function DeepFrom(t: Tree, i: nat): (r: nat)
    ensures i < |t.nodes| ==> r >= |t.nodes| - i
    decreases t, 0, |t.nodes| - i
  {
    if i >= |t.nodes| then 0 else CountDeep(t.nodes[i]) + DeepFrom(t, i + 1)
  }

  /** `countDeep` counts exactly the names `getNames` lists. */
  lemma {:induction false} CountDeepNames(n: ArchNode)
    ensures CountDeep(GatherKind(n)) == |GetNames(n)|
    decreases n, 1
  {
    DeepFromNames(n, 0);
  }

  lemma {:induction false} DeepFromNames(n: ArchNode, i: nat)
    ensures DeepFrom(GatherKind(n), i) == |NamesFrom(n, i)|
    decreases n, 0, |n.nodes| - i
  {
    if i < |n.nodes| {
      CountDeepNames(n.nodes[i]);
      DeepFromNames(n, i + 1);
      assert GatherKind(n).nodes[i] == GatherKind(n.nodes[i]);
    }
  }

  /** The names in a subtree. */
  function Names(t: Tree): set<string>
    decreases t, 1
  {
    {t.name} + NamesOf(t, 0)
  }

  function NamesOf(t: Tree, i: nat): set<string>
    decreases t, 0, |t.nodes| - i
  {
    if i >= |t.nodes| then {} else Names(t.nodes[i]) + NamesOf(t, i + 1)
  }

  /**
   * The seed grid of `layNodes`: `width` rows; the first holds the children in order, the
   * others `width` empty cells each.
   */
  function Seed(t: Tree, width: nat): (g: Grid)
    ensures |g| == width
    ensures width > 0 ==> |g[0].cells| == |t.nodes| && forall i :: 0 <= i < |t.nodes| ==> g[0].cells[i] == Occ(t.nodes[i].name)
    ensures forall y :: 1 <= y < width ==> g[y].cells == Vacants(width)
    ensures forall y :: 0 <= y < width ==> g[y].off == map[]
  {
    if width == 0 then []
    else [Row(seq(|t.nodes|, i requires 0 <= i < |t.nodes| => Occ(t.nodes[i].name)), map[])] + seq(width - 1, _ => Row(Vacants(width), map[]))
  }

  /** The `while` loop of `layNodes`: place until nothing is left for `firstUnlaid` or the tries run out. */
  function LayLoop(a: Arena, g: Grid, tries: nat): (r: Result<(Arena, Grid), Error>)
    ensures r.Success? ==> r.value.0.Keys == a.Keys && |r.value.1| == |g|
    ensures r.Success? ==> forall n :: n in a && a[n].laid ==> r.value.0[n].laid
    ensures r.Success? && tries > 0 && FirstUnlaid(a, g).Some? ==> exists a', g' :: PlaceOneFixed(a, g) == Success((a', g'))
    ensures tries == 0 || FirstUnlaid(a, g).None? ==> r == Success((a, g))
    ensures r.Failure? ==> SweepError(r.error)
    ensures r.Success? ==> forall s :: HeldIn(g, s) ==> HeldIn(r.value.1, s) && FramedBy(a, r.value.0, s)
    decreases tries
  {
    if tries > 0 && FirstUnlaid(a, g).Some? then
      var (a', g') :- PlaceOneFixed(a, g);
      var r := LayLoop(a', g', tries - 1);
      if r.Success? then
        forall s | HeldIn(g, s) ensures HeldIn(r.value.1, s) && FramedBy(a, r.value.0, s) {
          PlaceHeld(a, g, s, a', g');
          FramedTrans(a, a', r.value.0, s);
        }
        r
      else r
    else Success((a, g))
  }

  predicate HasTruthy(r: Row) {
    exists i :: 0 <= i < |r.cells| && Truthy(r.cells[i])
  }

  /** `nodes.filter(row => row.some(n => !!n))`. */
  function KeepOccupied(g: Grid): (r: Grid)
    ensures |r| <= |g|
    ensures forall row :: row in r <==> row in g && HasTruthy(row)
  {
    if |g| == 0 then []
    else if HasTruthy(g[0]) then [g[0]] + KeepOccupied(g[1..])
    else KeepOccupied(g[1..])
  }

  /** The indices, from `y` on, of the rows holding a truthy slot, in increasing order. */
  function OccupiedRows(g: Grid, y: nat): (idx: seq<nat>)
    ensures Increasing(idx)
    ensures forall i :: 0 <= i < |idx| ==> y <= idx[i] < |g| && HasTruthy(g[idx[i]])
    ensures forall k: nat :: y <= k < |g| && HasTruthy(g[k]) ==> k in idx
    decreases |g| - y
  {
    if y >= |g| then []
    else if HasTruthy(g[y]) then [y] + OccupiedRows(g, y + 1)
    else OccupiedRows(g, y + 1)
  }

  /** `keepOccupied` keeps the occupied rows in their order: its `i`-th row is the `i`-th occupied row of the input. */
  lemma {:induction false} KeepOccupiedOrder(g: Grid, y: nat)
    requires y <= |g|
    ensures Picks(KeepOccupied(g[y..]), g, OccupiedRows(g, y))
    decreases |g| - y
  {
    if y < |g| {
      KeepOccupiedOrder(g, y + 1);
      assert g[y..][1..] == g[y + 1..];
      if HasTruthy(g[y]) {
        assert KeepOccupied(g[y..]) == [g[y]] + KeepOccupied(g[y + 1..]);
        PicksCons(g[y], KeepOccupied(g[y + 1..]), g, y, OccupiedRows(g, y + 1));
      } else {
        assert KeepOccupied(g[y..]) == KeepOccupied(g[y + 1..]);
      }
    }
  }

  /** What the final `map` makes of one slot: a filler record for `undefined`, the same record otherwise. */
  function FillCell(c: Cell, x: int, y: int): (r: Cell)
    ensures c.Hole? <==> r.Hole?
    ensures !c.Hole? ==> Truthy(r)
    ensures Truthy(c) ==> r == c
  {
    if c.Vacant? then Filler(Loc(x, y, Fresh)) else c
  }

  /** `.map((row, y) => row.map((n, x) => ({laid: true, fixed: n?.fixed, locationAttrs: {anchors: [], x, y}, ...n})))`. */
  function Fill(g: Grid): (r: Grid)
    ensures |r| == |g|
    ensures forall y :: 0 <= y < |g| ==> |r[y].cells| == |g[y].cells| && r[y].off == map[]
    ensures forall y, x :: 0 <= y < |g| && 0 <= x < |g[y].cells| ==> r[y].cells[x] == FillCell(g[y].cells[x], x, y)
  {
    seq(|g|, y requires 0 <= y < |g| =>
      Row(seq(|g[y].cells|, x requires 0 <= x < |g[y].cells| => FillCell(g[y].cells[x], x, y)), map[]))
  }

  /** `findLastIndex(n => !!n)`. */
  function LastTruthy(cells: seq<Cell>): (r: int)
    ensures -1 <= r < |cells|
    ensures r >= 0 ==> Truthy(cells[r])
    ensures forall i :: r < i < |cells| ==> !Truthy(cells[i])
  {
    if |cells| == 0 then -1
    else if Truthy(cells[|cells| - 1]) then |cells| - 1
    else LastTruthy(cells[..|cells| - 1])
  }

  /** The largest `LastTruthy` over the rows, -1 for none. */
  function MaxLast(g: Grid): (m: int)
    ensures m >= -1
    ensures forall y :: 0 <= y < |g| ==> LastTruthy(g[y].cells) <= m
  {
    if |g| == 0 then -1
    else
      var rest := MaxLast(g[1..]);
      var here := LastTruthy(g[0].cells);
      if here > rest then here else rest
  }

  /** `row.slice(0, end)` for `end >= 0`. */
  function Prefix(cells: seq<Cell>, end: nat): (r: seq<Cell>)
    ensures r == cells[..if end < |cells| then end else |cells|]
  {
    cells[..if end < |cells| then end else |cells|]
  }

  /**
   * The right trim with a numeric maximum: every row cut after the last column that holds a
   * record in any row.
   */
  function Trim(g: Grid): (r: Grid)
    ensures |r| == |g|
    ensures forall y :: 0 <= y < |g| ==> r[y].off == map[] && r[y].cells <= g[y].cells
    ensures forall y, x :: 0 <= y < |g| && 0 <= x < |g[y].cells| && Truthy(g[y].cells[x]) ==> x < |r[y].cells|
  {
    var m := MaxLast(g);
    seq(|g|, y requires 0 <= y < |g| => Row(Prefix(g[y].cells, m + 1), map[]))
  }

  /** The numeric trim never drops a record. */
  lemma TrimKeepsRecords(g: Grid, y: nat, x: nat)
    requires y < |g| && x < |g[y].cells| && Truthy(g[y].cells[x])
    ensures x < |Trim(g)[y].cells| && Trim(g)[y].cells[x] == g[y].cells[x]
  {
  }

  /** `(a, b)` are in lexicographic order as strings, the order of `Array.prototype.sort()`. */
  predicate LexLe(a: string, b: string) {
    |a| == 0 || (|b| > 0 && (a[0] < b[0] || (a[0] == b[0] && LexLe(a[1..], b[1..]))))
  }

  /** `xs.sort()[0]`: the least element by decimal spelling. */
  function LexMin(xs: seq<int>): (r: int)
    requires |xs| > 0
    ensures r in xs
  {
    if |xs| == 1 then xs[0]
    else
      var rest := LexMin(xs[1..]);
      if LexLe(IntToString(xs[0]), IntToString(rest)) then xs[0] else rest
  }

  /** `xs.sort().slice(-1)[0]`: the greatest element by decimal spelling. */
  function LexMax(xs: seq<int>): (r: int)
    requires |xs| > 0
    ensures r in xs
  {
    if |xs| == 1 then xs[0]
    else
      var rest := LexMax(xs[1..]);
      if LexLe(IntToString(xs[0]), IntToString(rest)) then rest else xs[0]
  }

  /** `findIndex(n => !!n)`. */
  function FirstTruthy(cells: seq<Cell>): (r: int)
    ensures -1 <= r < |cells|
    ensures r >= 0 ==> Truthy(cells[r]) && forall i :: 0 <= i < r ==> !Truthy(cells[i])
    ensures r == -1 ==> forall i :: 0 <= i < |cells| ==> !Truthy(cells[i])
  {
    if |cells| == 0 then -1
    else if Truthy(cells[0]) then 0
    else var r := FirstTruthy(cells[1..]); if r == -1 then -1 else r + 1
  }

  /** `Array.prototype.slice(start, end)`: negative bounds count from the end, bounds are clamped. */
  function Slice(cells: seq<Cell>, start: int, end: int): (r: seq<Cell>)
    ensures |r| <= |cells|
  {
    var n := |cells|;
    var s := if start < 0 then (if n + start < 0 then 0 else n + start) else (if start > n then n else start);
    var e := if end < 0 then (if n + end < 0 then 0 else n + end) else (if end > n then n else end);
    if e <= s then [] else cells[s..e]
  }

  /**
   * The trim as written: the left offset and the right end are chosen with the default,
   * lexicographic `sort()`, the right end is measured on the left-trimmed rows but applied to
   * the untrimmed ones.
   */
  function AsWrittenTrim(g: Grid): (r: Grid)
    ensures |r| == |g|
  {
    if |g| == 0 then []
    else
      var left := LexMin(seq(|g|, y requires 0 <= y < |g| => FirstTruthy(g[y].cells)));
      var lt := seq(|g|, y requires 0 <= y < |g| => Slice(g[y].cells, left, |g[y].cells|));
      var right := LexMax(seq(|g|, y requires 0 <= y < |g| => LastTruthy(lt[y])));
      seq(|g|, y requires 0 <= y < |g| => Row(Slice(g[y].cells, 0, right + 1), map[]))
  }

  /** Rows of 3 and of 11 records: the second row loses its last eight, since "10" sorts before "2". */
  lemma AsWrittenTrimDropsRecords()
    ensures var g := [Row(seq(3, _ => Occ("c")), map[]), Row(seq(11, _ => Occ("d")), map[])];
      && Truthy(g[1].cells[10])
      && |AsWrittenTrim(g)[1].cells| == 3
      && |Trim(g)[1].cells| == 11
  {
    var g := [Row(seq(3, _ => Occ("c")), map[]), Row(seq(11, _ => Occ("d")), map[])];
    assert FirstTruthy(g[0].cells) == 0 && FirstTruthy(g[1].cells) == 0;
    var firsts := seq(|g|, y requires 0 <= y < |g| => FirstTruthy(g[y].cells));
    assert firsts == [0, 0];
    assert LexMin(firsts) == 0;
    var lt := seq(|g|, y requires 0 <= y < |g| => Slice(g[y].cells, 0, |g[y].cells|));
    assert lt[0] == g[0].cells && lt[1] == g[1].cells;
    assert LastTruthy(lt[0]) == 2 && LastTruthy(lt[1]) == 10;
    var lasts := seq(|g|, y requires 0 <= y < |g| => LastTruthy(lt[y]));
    assert lasts == [2, 10];
    assert IntToString(2) == "2";
    assert IntToString(10) == "10" by {
      assert NatToString(10) == NatToString(1) + [DigitChar(0)];
    }
    assert LexMax(lasts) == 2;
  }

  /** `layoutAttributes[name]`. */
  function EntryOf(layout: map<string, LayoutEntry>, name: string): Option<LayoutEntry> {
    if name in layout then Some(layout[name]) else None
  }

  /** Every record of the finished grid came from the placed grid or is a filler. */
  lemma FinishedCells(g: Grid, c: Cell)
    requires c in Flat(Trim(Fill(KeepOccupied(g))))
    ensures c.Filler? || (c.Occ? && c in Flat(g)) || c.Hole?
  {
    var k := KeepOccupied(g);
    var f := Fill(k);
    var t := Trim(f);
    InFlat(t, c);
    var y, x :| 0 <= y < |t| && 0 <= x < |t[y].cells| && t[y].cells[x] == c;
    assert f[y].cells[x] == c;
    assert k[y] in k;
    var y' :| 0 <= y' < |g| && g[y'] == k[y];
    if c.Occ? {
      assert k[y].cells[x] == c;
      InFlat(g, c);
    }
  }

  /**
   * The grid `layNodes` builds once the children are laid: seeded, placed until nothing is
   * left for `firstUnlaid`, then filtered, filled and trimmed. An unplaceable child is an error.
   */
  function LayGrid(t: Tree, width: nat, a: Arena): (r: Result<(Arena, Grid), Error>)
    ensures r.Success? ==> r.value.0.Keys == a.Keys
    ensures r.Success? ==> forall n :: n in a && a[n].laid ==> r.value.0[n].laid
    ensures r.Success? ==> Settled(r.value.0, r.value.1) && AllOccupied(r.value.1)
    ensures var l := LayLoop(a, Seed(t, width), width * width);
      r.Success? ==> l.Success? && forall n :: Occ(n) in Flat(r.value.1) <==> Occ(n) in Flat(l.value.1)
    ensures r.Success? ==> forall n :: Occ(n) in Flat(r.value.1) ==> n in ChildNames(t)
    ensures r.Success? ==> FramedBy(a, r.value.0, ChildNames(t))
    ensures var l := LayLoop(a, Seed(t, width), width * width);
      r.Failure? <==> l.Failure? || FirstUnlaid(l.value.0, l.value.1).Some?
    ensures var l := LayLoop(a, Seed(t, width), width * width);
      l.Success? && FirstUnlaid(l.value.0, l.value.1).Some? ==> r == Failure(CouldNotLay(FirstUnlaid(l.value.0, l.value.1).value))
    ensures var l := LayLoop(a, Seed(t, width), width * width);
      r.Failure? && r.error.CouldNotLay? ==> l.Success? && FirstUnlaid(l.value.0, l.value.1).Some?
  {
    var (a', g) :- LayLoop(a, Seed(t, width), width * width);
    match FirstUnlaid(a', g)
    case Some(n) => Failure(CouldNotLay(n))
    case None =>
      var rows := Trim(Fill(KeepOccupied(g)));
      Finished(a', g);
      SeedHeld(t, width);
      forall n ensures Occ(n) in Flat(rows) <==> Occ(n) in Flat(g) {
        FinishedRecords(g, n);
      }
      forall n | Occ(n) in Flat(rows) ensures n in ChildNames(t) {
        FlatHeld(g, ChildNames(t), n);
      }
      Success((a', rows))
  }

  /** No slot holds an unlaid anchorless record or `undefined`. */
  ghost predicate Settled(a: Arena, g: Grid) {
    forall c :: c in Flat(g) ==> !Candidate(a, c) && c != Vacant
  }

  /** Every row holds a truthy slot. */
  ghost predicate AllOccupied(g: Grid) {
    forall y :: 0 <= y < |g| ==> HasTruthy(g[y])
  }

  /** Once `firstUnlaid` finds nothing, the finished rows hold no candidate and no `undefined`, and each holds a record. */
  lemma Finished(a: Arena, g: Grid)
    requires FirstUnlaid(a, g).None?
    ensures Settled(a, Trim(Fill(KeepOccupied(g)))) && AllOccupied(Trim(Fill(KeepOccupied(g))))
  {
    var k := KeepOccupied(g);
    var rows := Trim(Fill(k));
    forall c | c in Flat(rows) ensures !Candidate(a, c) && c != Vacant {
      FinishedCells(g, c);
    }
    forall y | 0 <= y < |rows| ensures HasTruthy(rows[y]) {
      assert k[y] in k;
      var x :| 0 <= x < |k[y].cells| && Truthy(k[y].cells[x]);
      TrimKeepsRecords(Fill(k), y, x);
    }
  }

  /** The names of `t`'s direct children: the records the seed grid holds. */
  function ChildNames(t: Tree): set<string> {
    set i | 0 <= i < |t.nodes| :: t.nodes[i].name
  }

  /** The seed grid holds only `t`'s children. */
  lemma SeedHeld(t: Tree, width: nat)
    ensures HeldIn(Seed(t, width), ChildNames(t))
  {
    var g := Seed(t, width);
    forall y, x | Read(g, x, y).Success? && Read(g, x, y).value.Occ? ensures Read(g, x, y).value.name in ChildNames(t) {
      assert 0 < y || 0 <= x < |t.nodes|;
      if y == 0 {
        assert Read(g, x, y).value == Occ(t.nodes[x].name);
      }
    }
  }

  /** Frames over the same names compose. */
  lemma FramedTrans(a: Arena, b: Arena, c: Arena, s: set<string>)
    requires FramedBy(a, b, s) && FramedBy(b, c, s)
    ensures FramedBy(a, c, s)
  {
  }

  /** A record in a grid's slots is one the grid holds. */
  lemma FlatHeld(g: Grid, s: set<string>, n: string)
    requires HeldIn(g, s) && Occ(n) in Flat(g)
    ensures n in s
  {
    InFlat(g, Occ(n));
    var y, x :| 0 <= y < |g| && 0 <= x < |g[y].cells| && g[y].cells[x] == Occ(n);
    assert Read(g, x, y) == Success(Occ(n));
  }

  /** Filtering, filling and trimming keep exactly the records of the placed grid. */
  lemma FinishedRecords(g: Grid, n: string)
    ensures Occ(n) in Flat(Trim(Fill(KeepOccupied(g)))) <==> Occ(n) in Flat(g)
  {
    var k := KeepOccupied(g);
    var f := Fill(k);
    if Occ(n) in Flat(Trim(f)) {
      FinishedCells(g, Occ(n));
    }
    if Occ(n) in Flat(g) {
      InFlat(g, Occ(n));
      var y, x :| 0 <= y < |g| && 0 <= x < |g[y].cells| && g[y].cells[x] == Occ(n);
      assert HasTruthy(g[y]);
      assert g[y] in k;
      var y' :| 0 <= y' < |k| && k[y'] == g[y];
      assert f[y'].cells[x] == Occ(n);
      TrimKeepsRecords(f, y', x);
      InFlat(Trim(f), Occ(n));
    }
  }

  /** `getLocationAttrs(layoutAttributes[name], xPos, yPos)`: absent exactly when the node has no entry. */
  function OwnAttrs(layout: map<string, LayoutEntry>, name: string, xPos: int, yPos: int): (r: Result<Option<LocAttrs>, Error>)
    ensures r.Success? ==> (name in layout <==> r.value.Some?)
  {
    GetLocationAttrs(EntryOf(layout, name), xPos, yPos)
  }

  /** `n` is what `layNodes` records for `t`: not laid, not fixed, sized by its grid of non-empty rows, located iff `t` has a layout entry. */
  ghost predicate Recorded(n: Node, t: Tree, hasEntry: bool) {
    && n.name == t.name && !n.laid && !n.fixed
    && n.height == |n.grid| && n.width == (if |n.grid| > 0 then |n.grid[0].cells| else 0)
    && (forall y :: 0 <= y < |n.grid| ==> HasTruthy(n.grid[y]))
    && (hasEntry <==> n.loc.Some?)
  }

  /** The record `layNodes` returns for `t`: not laid, not fixed, sized by its finished grid. */
  function Record(t: Tree, attrs: Option<LocAttrs>, rows: Grid): (n: Node)
    ensures n.name == t.name && !n.laid && !n.fixed && n.grid == rows
    ensures n.height == |rows| && n.width == (if |rows| > 0 then |rows[0].cells| else 0)
    ensures attrs.None? <==> n.loc.None?
    ensures attrs.Some? ==> n.loc == Some(Loc(attrs.value.x, attrs.value.y, Owned(t.name))) && n.own == attrs.value.anchors
  {
    var loc := if attrs.Some? then Some(Loc(attrs.value.x, attrs.value.y, Owned(t.name))) else None;
    var own := if attrs.Some? then attrs.value.anchors else [];
    Node(t.name, t.kind, t.title, false, false, loc, own, if |rows| > 0 then |rows[0].cells| else 0, |rows|, rows)
  }

  /**
   * `layNodes`: lay the children (each seeded at its sibling index in row 0), read the node's
   * own location attributes, lay the grid, and record the node as not yet laid, with
   * `width`/`height` taken from the finished grid.
   */
  function LayNodes(t: Tree, width: nat, xPos: int, yPos: int, layout: map<string, LayoutEntry>, a: Arena): (r: Result<Arena, Error>)
    ensures r.Success? ==> r.value.Keys == a.Keys + Names(t)
    ensures r.Success? ==> t.name in r.value && Recorded(r.value[t.name], t, t.name in layout)
    ensures r.Success? ==> OwnAttrs(layout, t.name, xPos, yPos).Success? && Located(r.value[t.name], t.name, OwnAttrs(layout, t.name, xPos, yPos).value)
    ensures r.Success? ==> forall n :: Occ(n) in Flat(r.value[t.name].grid) ==> n in ChildNames(t)
    ensures r.Success? ==> FramedBy(a, r.value, Names(t))
    decreases t, 1
  {
    match LayChildren(t, 0, layout, a)
    case Failure(e) => Failure(e)
    case Success(a1) =>
      match OwnAttrs(layout, t.name, xPos, yPos)
      case Failure(e) => Failure(e)
      case Success(attrs) =>
        match LayGrid(t, width, a1)
        case Failure(e) => Failure(e)
        case Success(res) =>
          var n := Record(t, attrs, res.1);
          RecordedOf(t, layout, xPos, yPos, attrs, res.1);
          KeysAfter(t, a, a1, res.0, n);
          ChildrenNamed(t, 0);
          Success(res.0[t.name := n])
  }

  /** `n` carries the location attributes `attrs` read for `name`: none without them, else their x, y and anchors. */
  ghost predicate Located(n: Node, name: string, attrs: Option<LocAttrs>) {
    && (attrs.None? <==> n.loc.None?)
    && (attrs.Some? ==> n.loc == Some(Loc(attrs.value.x, attrs.value.y, Owned(name))) && n.own == attrs.value.anchors)
  }

  /**
   * The `k`-th child, unless a later sibling's subtree reuses its name, keeps the location
   * attributes read for it at its seed position `(k, 0)`.
   */
  ghost predicate ChildLocated(t: Tree, k: nat, layout: map<string, LayoutEntry>, a: Arena)
    requires k < |t.nodes|
  {
    t.nodes[k].name !in NamesOf(t, k + 1) ==>
      && OwnAttrs(layout, t.nodes[k].name, k, 0).Success? && t.nodes[k].name in a
      && Located(a[t.nodes[k].name], t.nodes[k].name, OwnAttrs(layout, t.nodes[k].name, k, 0).value)
  }

  /** The children from the `i`-th on are among the names below them. */
  lemma {:induction false} ChildrenNamed(t: Tree, i: nat)
    ensures forall k :: i <= k < |t.nodes| ==> t.nodes[k].name in NamesOf(t, i)
    ensures i == 0 ==> ChildNames(t) <= NamesOf(t, 0)
    decreases |t.nodes| - i
  {
    if i < |t.nodes| {
      ChildrenNamed(t, i + 1);
      assert t.nodes[i].name in Names(t.nodes[i]);
    }
  }

  /**
   * The record `layNodes` makes for `t` holds the finished grid that `LayGrid` builds over the
   * laid children, and so, by `LayGrid`, exactly the records the placing loop left in the seed grid.
   */
  lemma LayNodesGrid(t: Tree, width: nat, xPos: int, yPos: int, layout: map<string, LayoutEntry>, a: Arena)
    requires LayNodes(t, width, xPos, yPos, layout, a).Success?
    ensures LayChildren(t, 0, layout, a).Success?
    ensures LayGrid(t, width, LayChildren(t, 0, layout, a).value).Success?
    ensures t.name in LayNodes(t, width, xPos, yPos, layout, a).value
    ensures LayNodes(t, width, xPos, yPos, layout, a).value[t.name].grid == LayGrid(t, width, LayChildren(t, 0, layout, a).value).value.1
  {
  }

  /** Every child from the `i`-th on keeps the location attributes read at its seed position. */
  ghost predicate ChildrenLocated(t: Tree, i: nat, layout: map<string, LayoutEntry>, a: Arena) {
    forall k :: i <= k < |t.nodes| ==> ChildLocated(t, k, layout, a)
  }

  /** Child `i` and the children after it. */
  lemma LocatedCons(t: Tree, i: nat, layout: map<string, LayoutEntry>, a: Arena)
    requires i < |t.nodes| && ChildLocated(t, i, layout, a) && ChildrenLocated(t, i + 1, layout, a)
    ensures ChildrenLocated(t, i, layout, a)
  {
  }

  /** A node with a layout entry that omits `x` (or `y`) is recorded at `xPos` (or `yPos`). */
  lemma LayNodesDefaults(t: Tree, width: nat, xPos: int, yPos: int, layout: map<string, LayoutEntry>, a: Arena)
    requires LayNodes(t, width, xPos, yPos, layout, a).Success? && t.name in layout
    ensures t.name in LayNodes(t, width, xPos, yPos, layout, a).value
    ensures var n := LayNodes(t, width, xPos, yPos, layout, a).value[t.name];
      && n.loc.Some?
      && ((forall i :: 0 <= i < |layout[t.name].attrs| ==> layout[t.name].attrs[i].name != "x") ==> n.loc.value.x == xPos)
      && ((forall i :: 0 <= i < |layout[t.name].attrs| ==> layout[t.name].attrs[i].name != "y") ==> n.loc.value.y == yPos)
  {
    var attrs := OwnAttrs(layout, t.name, xPos, yPos);
    assert EntryOf(layout, t.name) == Some(layout[t.name]);
  }

  /**
   * Child `k`, seeded in row 0 at column `k`, is recorded at `x = k` when its layout entry omits
   * `x` and at `y = 0` when it omits `y`, unless a later sibling's subtree reuses its name.
   */
  lemma ChildSeeded(t: Tree, layout: map<string, LayoutEntry>, a: Arena, k: nat)
    requires LayChildren(t, 0, layout, a).Success? && k < |t.nodes|
    requires t.nodes[k].name !in NamesOf(t, k + 1) && t.nodes[k].name in layout
    ensures t.nodes[k].name in LayChildren(t, 0, layout, a).value
    ensures var n := LayChildren(t, 0, layout, a).value[t.nodes[k].name];
      var e := layout[t.nodes[k].name];
      && n.loc.Some?
      && ((forall i :: 0 <= i < |e.attrs| ==> e.attrs[i].name != "x") ==> n.loc.value.x == k)
      && ((forall i :: 0 <= i < |e.attrs| ==> e.attrs[i].name != "y") ==> n.loc.value.y == 0)
  {
    var fin := LayChildren(t, 0, layout, a).value;
    assert ChildLocated(t, k, layout, fin);
    assert EntryOf(layout, t.nodes[k].name) == Some(layout[t.nodes[k].name]);
  }

  /** The record of a laid grid is `Recorded`. */
  lemma RecordedOf(t: Tree, layout: map<string, LayoutEntry>, xPos: int, yPos: int, attrs: Option<LocAttrs>, rows: Grid)
    requires OwnAttrs(layout, t.name, xPos, yPos) == Success(attrs)
    requires forall y :: 0 <= y < |rows| ==> HasTruthy(rows[y])
    ensures Recorded(Record(t, attrs, rows), t, t.name in layout)
  {
  }

  /** Adding `t`'s record to an arena holding its descendants adds exactly `Names(t)`. */
  lemma KeysAfter(t: Tree, a: Arena, a1: Arena, a2: Arena, n: Node)
    requires a1.Keys == a.Keys + NamesOf(t, 0) && a2.Keys == a1.Keys
    ensures a2[t.name := n].Keys == a.Keys + Names(t)
  {
  }

  /** The row-0 `map` of `layNodes`: lay the children from the `i`-th on, child `x` seeded at `(x, 0)`. */
  function LayChildren(t: Tree, i: nat, layout: map<string, LayoutEntry>, a: Arena): (r: Result<Arena, Error>)
    ensures r.Success? ==> r.value.Keys == a.Keys + NamesOf(t, i)
    ensures r.Success? ==> FramedBy(a, r.value, NamesOf(t, i))
    ensures r.Success? ==> ChildrenLocated(t, i, layout, r.value)
    decreases t, 0, |t.nodes| - i
  {
    if i >= |t.nodes| then Success(a)
    else
      var a' :- LayNodes(t.nodes[i], DeepFrom(t.nodes[i], 0), i, 0, layout, a);
      var r :- LayChildren(t, i + 1, layout, a');
      ChildrenStep(t, i, layout, a, a', r);
      Success(r)
  }

  /** Laying child `i` and then the children after it keeps the facts `LayChildren` states. */
  lemma ChildrenStep(t: Tree, i: nat, layout: map<string, LayoutEntry>, a: Arena, a': Arena, r: Arena)
    requires i < |t.nodes|
    requires a'.Keys == a.Keys + Names(t.nodes[i]) && FramedBy(a, a', Names(t.nodes[i]))
    requires OwnAttrs(layout, t.nodes[i].name, i, 0).Success? && t.nodes[i].name in a'
    requires Located(a'[t.nodes[i].name], t.nodes[i].name, OwnAttrs(layout, t.nodes[i].name, i, 0).value)
    requires r.Keys == a'.Keys + NamesOf(t, i + 1) && FramedBy(a', r, NamesOf(t, i + 1))
    requires ChildrenLocated(t, i + 1, layout, r)
    ensures r.Keys == a.Keys + NamesOf(t, i) && FramedBy(a, r, NamesOf(t, i))
    ensures ChildrenLocated(t, i, layout, r)
  {
    assert NamesOf(t, i) == Names(t.nodes[i]) + NamesOf(t, i + 1);
    assert ChildLocated(t, i, layout, r);
    LocatedCons(t, i, layout, r);
  }

  /** The container `fixedPass` lays: `root`, one column per top-level node. */
  function Root(arch: seq<ArchNode>): (t: Tree)
    ensures t.name == "root" && |t.nodes| == |arch|
  {
    Tree("root", "root", None, seq(|arch|, i requires 0 <= i < |arch| => GatherKind(arch[i])))
  }

  /**
   * `fixedPass`: lay the root container, whose grid is as wide as there are top-level nodes;
   * every other container's grid is as wide as its descendants are many.
   */
  function FixedPass(arch: seq<ArchNode>, entries: seq<LayoutEntry>): (r: Result<Arena, Error>)
    ensures r.Success? ==> r.value.Keys == Names(Root(arch)) && "root" in r.value
    ensures r.Success? ==> forall n :: Occ(n) in Flat(r.value["root"].grid) ==> n in ChildNames(Root(arch))
  {
    var root := Root(arch);
    LayNodes(root, |root.nodes|, 0, 0, LayoutAttributes(entries), map[])
  }
}

=== FILE: grid.dfy ===
/**
 * Grids as JavaScript arrays of rows: reading and writing `nodes[y][x]`, and
 * `resizeAsNeeded`.
 */
module Grids {
  import opened Wrappers
  import opened LayoutTypes

  /** What reading a slot yields: a hole reads as `undefined`. */
  function Value(c: Cell): Cell {
    if c.Hole? then Vacant else c
  }

  /** `nodes[y][x]`. A missing row is a TypeError; a missing column reads `undefined`. */
  function Read(g: Grid, x: int, y: int): (r: Result<Cell, Error>)
    ensures r.Failure? <==> !(0 <= y < |g|)
    ensures r.Failure? ==> r.error == TypeError
    ensures r.Success? ==> !r.value.Hole?
  {
    if !(0 <= y < |g|) then Failure(TypeError)
    else if x < 0 then Success(if x in g[y].off then Value(g[y].off[x]) else Vacant)
    else if x < |g[y].cells| then Success(Value(g[y].cells[x]))
    else Success(Vacant)
  }

  /** `n` holes. */
  function Holes(n: nat): (r: seq<Cell>)
    ensures |r| == n && forall i :: 0 <= i < n ==> r[i] == Hole
  {
    seq(n, _ => Hole)
  }

  /**
   * `nodes[y][x] = c`. A missing row is a TypeError; a negative column sets a property the
   * array methods do not see; a column past the end lengthens the row, leaving holes.
   */
  function Write(g: Grid, x: int, y: int, c: Cell): (r: Result<Grid, Error>)
    requires !c.Hole?
    ensures r.Failure? <==> !(0 <= y < |g|)
    ensures r.Failure? ==> r.error == TypeError
    ensures r.Success? ==> |r.value| == |g| && forall j :: 0 <= j < |g| && j != y ==> r.value[j] == g[j]
    ensures r.Success? && x < 0 ==> r.value[y].cells == g[y].cells
    ensures r.Success? && x >= 0 ==> r.value[y].off == g[y].off
  {
    if !(0 <= y < |g|) then Failure(TypeError)
    else
      var row := g[y];
      var row' :=
        if x < 0 then row.(off := row.off[x := c])
        else if x < |row.cells| then row.(cells := row.cells[x := c])
        else row.(cells := row.cells + Holes(x - |row.cells|) + [c]);
      Success(g[y := row'])
  }

  /** A write is read back, and every other slot reads as before. */
  lemma ReadWrite(g: Grid, x: int, y: int, c: Cell, x': int, y': int)
    requires !c.Hole? && Write(g, x, y, c).Success?
    ensures Read(Write(g, x, y, c).value, x', y') == if x' == x && y' == y then Success(c) else Read(g, x', y')
  {
    var r := Write(g, x, y, c).value;
    if y' == y && 0 <= x && |g[y].cells| <= x' && x' != x {
      if x' < |r[y].cells| {
        assert r[y].cells[x'] == Hole;
      }
    }
  }

  /** A row with every hole read as `undefined`: what `[...row]` produces. */
  function Spread(cells: seq<Cell>): (r: seq<Cell>)
    ensures |r| == |cells| && forall i :: 0 <= i < |r| ==> r[i] == Value(cells[i])
  {
    seq(|cells|, i requires 0 <= i < |cells| => Value(cells[i]))
  }

  /** `Array.from(new Array(n))`. */
  function Vacants(n: nat): (r: seq<Cell>)
    ensures |r| == n && forall i :: 0 <= i < n ==> r[i] == Vacant
  {
    seq(n, _ => Vacant)
  }

  /**
   * `resizeAsNeeded`: prepend or append one empty column, or failing that one empty row,
   * when `(x, y)` is outside the node's recorded `width` and `height`. The column test comes
   * first, and the coordinate is not shifted. Only `nodes`, `width` and `height` change.
   */
  function Resize(p: Node, x: int, y: int): (r: Node)
    ensures r == p.(grid := r.grid, width := r.width, height := r.height)
    ensures 0 <= x < p.width && 0 <= y < p.height ==> r == p
    ensures x < 0 || x >= p.width ==> r.width == p.width + 1 && r.height == p.height && |r.grid| == |p.grid|
    ensures 0 <= x < p.width && (y < 0 || y >= p.height) ==> r.height == p.height + 1 && r.width == p.width && |r.grid| == |p.grid| + 1
    ensures x < 0 ==> (forall i, j {:trigger Read(r.grid, i, j)} :: Read(r.grid, i, j) == if i <= 0 then (if 0 <= j < |p.grid| then Success(Vacant) else Failure(TypeError)) else Read(p.grid, i - 1, j))
    ensures 0 <= x && x >= p.width ==> (forall i, j {:trigger Read(r.grid, i, j)} :: Read(r.grid, i, j) == if i < 0 then (if 0 <= j < |p.grid| then Success(Vacant) else Failure(TypeError)) else Read(p.grid, i, j))
    ensures 0 <= x < p.width && y < 0 ==> (forall i, j {:trigger Read(r.grid, i, j)} :: Read(r.grid, i, j) == if j == 0 then Success(Vacant) else Read(p.grid, i, j - 1))
    ensures 0 <= x < p.width && 0 <= y && y >= p.height ==> (forall i, j {:trigger Read(r.grid, i, j)} :: Read(r.grid, i, j) == if j == |p.grid| then Success(Vacant) else Read(p.grid, i, j))
  {
    if x < 0 then
      p.(grid := seq(|p.grid|, j requires 0 <= j < |p.grid| => Row([Vacant] + Spread(p.grid[j].cells), map[])), width := p.width + 1)
    else if x >= p.width then
      p.(grid := seq(|p.grid|, j requires 0 <= j < |p.grid| => Row(Spread(p.grid[j].cells) + [Vacant], map[])), width := p.width + 1)
    else if y < 0 then
      p.(grid := [Row(Vacants(p.width), map[])] + p.grid, height := p.height + 1)
    else if y >= p.height then
      p.(grid := p.grid + [Row(Vacants(p.width), map[])], height := p.height + 1)
    else p
  }
}

=== FILE: pipeline.dfy ===
/**
 * What the renderers run: `relativePass(fixedPass(model))`, then `absPositions` of the tree.
 */
module Pipeline {
  import opened Wrappers
  import opened LayoutTypes
  import opened Attrs
  import opened Fixed
  import opened Relative
  import opened AbsPos

  /**
   * Lay out an architecture: the fixed pass, the relative pass from pass 1, and the
   * addresses of every record reachable from the root.
   */
  function Layout(arch: seq<ArchNode>, entries: seq<LayoutEntry>): (r: Result<(Arena, map<string, Abs>), Error>)
    ensures r.Success? ==> r.value.0.Keys == Names(Root(arch)) && "root" in r.value.1
    ensures r.Success? ==> Waiting(r.value.0, Items(r.value.0, "root")) == Success([])
    ensures FixedPass(arch, entries).Failure? ==> r == Failure(FixedPass(arch, entries).error)
  {
    var a :- FixedPass(arch, entries);
    var laid :- RelativePass(a, "root", 1);
    Success((laid.0, AbsPositions(laid.0, "root")))
  }
}

=== FILE: place.dfy ===
/**
 * Fixed placement inside one container: `isLaid`/`isFixed`, `putNode`, `placeOneFixed`
 * and `firstUnlaid`.
 */
module Place {
  import opened Wrappers
  import opened LayoutTypes
  import opened Grids

  /** `isLaid`: fillers are laid; a missing record is not. */
  predicate CellLaid(a: Arena, c: Cell) {
    match c
    case Filler(_) => true
    case Occ(n) => n in a && a[n].laid
    case _ => false
  }

  /** `isFixed`: a filler's `fixed` is `undefined`. */
  predicate CellFixed(a: Arena, c: Cell) {
    c.Occ? && c.name in a && a[c.name].fixed
  }

  /** The anchor array a reference denotes, `None` when the property is absent. */
  function AnchorList(a: Arena, r: AnchorRef): Option<seq<Anchor>> {
    match r
    case Missing => None
    case Fresh => Some([])
    case Owned(o) => Some(if o in a then a[o].own else [])
  }

  /** `{...base, ...over}` on location records: `over`'s position, and its anchors if it has the property. */
  function Merge(base: Option<Loc>, over: Loc): (r: Loc)
    ensures r.x == over.x && r.y == over.y
    ensures !over.anchors.Missing? ==> r.anchors == over.anchors
    ensures over.anchors.Missing? ==> r.anchors == if base.Some? then base.value.anchors else Missing
  {
    Loc(over.x, over.y, if over.anchors.Missing? && base.Some? then base.value.anchors else over.anchors)
  }

  /** The record `putNode` writes back at the vacated position: the prev occupant, moved. */
  function Displaced(prev: Cell, oldPos: Loc): Cell {
    if prev.Filler? then Filler(Merge(Some(prev.loc), oldPos)) else prev
  }

  /**
   * `putNode`: swap `node` into `(newX, newY)` and the occupant there back to `oldPos`.
   * `oldPos` is spread into the occupant's `locationAttrs`, so its `anchors` property, when
   * present, is carried over too.
   */
  function PutNode(a: Arena, node: string, oldPos: Loc, newX: int, newY: int, g: Grid): (r: Result<(Arena, Grid), Error>)
    requires node in a
    ensures r.Failure? <==>
      || !(0 <= newY < |g|)
      || (CellLaid(a, Read(g, newX, newY).value) && CellFixed(a, Read(g, newX, newY).value))
      || !(0 <= oldPos.y < |g|)
    ensures r.Failure? ==> r.error == TypeError || r.error == AlreadyFixed(node, newX, newY)
    ensures r.Success? ==> r.value.0.Keys == a.Keys && |r.value.1| == |g|
  {
    var prev :- Read(g, newX, newY);
    if CellLaid(a, prev) && CellFixed(a, prev) then Failure(AlreadyFixed(node, newX, newY))
    else
      var g1 :- Write(g, oldPos.x, oldPos.y, Displaced(prev, oldPos));
      var g2 := Write(g1, newX, newY, Occ(node)).value;
      var n := a[node];
      var a1 := a[node := n.(fixed := true, laid := true, loc := Some(Merge(n.loc, Loc(newX, newY, Missing))))];
      var a2 := if prev.Occ? && prev.name in a1 then a1[prev.name := a1[prev.name].(loc := Some(Merge(a1[prev.name].loc, oldPos)))] else a1;
      Success((a2, g2))
  }

  /** After `putNode` the node sits at the target, the prev occupant at the vacated cell, and nothing else moved. */
  lemma PutNodeGrid(a: Arena, node: string, oldPos: Loc, newX: int, newY: int, g: Grid, x: int, y: int)
    requires node in a && PutNode(a, node, oldPos, newX, newY, g).Success?
    ensures var g' := PutNode(a, node, oldPos, newX, newY, g).value.1;
      var prev := Read(g, newX, newY).value;
      Read(g', x, y) ==
        if x == newX && y == newY then Success(Occ(node))
        else if x == oldPos.x && y == oldPos.y then Success(Displaced(prev, oldPos))
        else Read(g, x, y)
  {
    var prev := Read(g, newX, newY).value;
    var g1 := Write(g, oldPos.x, oldPos.y, Displaced(prev, oldPos)).value;
    ReadWrite(g, oldPos.x, oldPos.y, Displaced(prev, oldPos), x, y);
    ReadWrite(g1, newX, newY, Occ(node), x, y);
  }

  /**
   * After `putNode` the node is laid and fixed, at the target unless it displaced itself; a
   * displaced real occupant records the vacated position; every other record is unchanged, and
   * no flag but the node's changes.
   */
  lemma PutNodeArena(a: Arena, node: string, oldPos: Loc, newX: int, newY: int, g: Grid)
    requires node in a && PutNode(a, node, oldPos, newX, newY, g).Success?
    ensures var a' := PutNode(a, node, oldPos, newX, newY, g).value.0;
      var prev := Read(g, newX, newY).value;
      && a'[node].laid && a'[node].fixed
      && (prev != Occ(node) ==> a'[node].loc == Some(Merge(a[node].loc, Loc(newX, newY, Missing))))
      && (prev.Occ? && prev.name in a && prev.name != node ==> a'[prev.name] == a[prev.name].(loc := Some(Merge(a[prev.name].loc, oldPos))))
      && (forall m :: m in a && m != node && prev != Occ(m) ==> a'[m] == a[m])
      && (forall m :: m in a ==> a'[m].laid == (a[m].laid || m == node))
      && (forall m :: m in a ==> a'[m].fixed == (a[m].fixed || m == node))
  {
  }

  /** `nodes.map(n => n[x]).findIndex(n => !isLaid(n))`, or -1. */
  function FreeInColumn(a: Arena, g: Grid, x: nat, j: nat): (r: int)
    requires j <= |g|
    ensures r == -1 || j <= r < |g|
    ensures r == -1 ==> forall k :: j <= k < |g| ==> CellLaid(a, Read(g, x, k).value)
    ensures r != -1 ==> !CellLaid(a, Read(g, x, r).value) && forall k :: j <= k < r ==> CellLaid(a, Read(g, x, k).value)
    decreases |g| - j
  {
    if j == |g| then -1
    else if !CellLaid(a, Read(g, x, j).value) then j
    else FreeInColumn(a, g, x, j + 1)
  }

  /** `row.findIndex(n => !isLaid(n))`, or -1; a hole reads as `undefined`. */
  function FreeInRow(a: Arena, cells: seq<Cell>, i: nat): (r: int)
    requires i <= |cells|
    ensures r == -1 || i <= r < |cells|
    ensures r == -1 ==> forall k :: i <= k < |cells| ==> CellLaid(a, Value(cells[k]))
    ensures r != -1 ==> !CellLaid(a, Value(cells[r])) && forall k :: i <= k < r ==> CellLaid(a, Value(cells[k]))
    decreases |cells| - i
  {
    if i == |cells| then -1
    else if !CellLaid(a, Value(cells[i])) then i
    else FreeInRow(a, cells, i + 1)
  }

  /** The position `placeOneFixed` read for a record: its `x`/`y`, or -1 when it has no location. */
  function Px(n: Node): int {
    if n.loc.Some? then n.loc.value.x else -1
  }

  function Py(n: Node): int {
    if n.loc.Some? then n.loc.value.y else -1
  }

  /** `(locationAttrs?.anchors ?? []).length`. */
  function AnchorCount(a: Arena, n: Node): nat {
    if n.loc.Some? && AnchorList(a, n.loc.value.anchors).Some? then |AnchorList(a, n.loc.value.anchors).value| else 0
  }

  /** The record a pin leaves behind: laid, not fixed, at its own cell, keeping its anchor array. */
  function Pinned(n: Node, x: int, y: int): Node {
    var anchors := if n.loc.Some? && !n.loc.value.anchors.Missing? then n.loc.value.anchors else Fresh;
    n.(fixed := false, laid := true, loc := Some(Loc(x, y, anchors)))
  }

  /** A record `placeOneFixed` moves: unlaid, with at least one coordinate. */
  predicate Mover(a: Arena, c: Cell) {
    c.Occ? && c.name in a && !a[c.name].laid && (Px(a[c.name]) != -1 || Py(a[c.name]) != -1)
  }

  /** A record `placeOneFixed` pins where it stands: unlaid, with no coordinate and no anchors. */
  predicate Pinnable(a: Arena, c: Cell) {
    && c.Occ? && c.name in a && !a[c.name].laid
    && Px(a[c.name]) == -1 && Py(a[c.name]) == -1 && AnchorCount(a, a[c.name]) == 0
  }

  /** The slot at `(x, y)`, a hole reading as `undefined`. */
  function At(g: Grid, y: nat, x: nat): Cell
    requires y < |g| && x < |g[y].cells|
  {
    Value(g[y].cells[x])
  }

  /** `(y, x)` is a slot of `g` at or after `(y0, x0)` and before `(y1, x1)` in row-major order. */
  predicate Within(g: Grid, y0: nat, x0: nat, y: nat, x: nat, y1: nat, x1: nat) {
    && y < |g| && x < |g[y].cells|
    && (y0 < y || (y0 == y && x0 <= x))
    && (y < y1 || (y == y1 && x < x1))
  }

  /** No slot in the row-major range holds a mover. */
  ghost predicate NoMoverIn(a: Arena, g: Grid, y0: nat, x0: nat, y1: nat, x1: nat) {
    forall y: nat, x: nat :: Within(g, y0, x0, y, x, y1, x1) ==> !Mover(a, At(g, y, x))
  }

  /** Every record `a` would pin in the row-major range is laid in `a'`. */
  ghost predicate PinsIn(a: Arena, a': Arena, g: Grid, y0: nat, x0: nat, y1: nat, x1: nat) {
    forall y: nat, x: nat :: Within(g, y0, x0, y, x, y1, x1) && Pinnable(a, At(g, y, x)) ==>
      At(g, y, x).name in a' && a'[At(g, y, x).name].laid
  }

  /** The position of the first mover at or after `(y, x)` in row-major order. */
  function FirstMover(a: Arena, g: Grid, y: nat, x: nat): (r: Option<(nat, nat)>)
    ensures r.Some? ==> Within(g, y, x, r.value.0, r.value.1, |g|, 0) && Mover(a, At(g, r.value.0, r.value.1))
    ensures r.Some? ==> NoMoverIn(a, g, y, x, r.value.0, r.value.1)
    ensures r.None? ==> NoMoverIn(a, g, y, x, |g|, 0)
    decreases |g| - y, if y < |g| && x <= |g[y].cells| then |g[y].cells| - x else 0
  {
    if y >= |g| then None
    else if x >= |g[y].cells| then
      var r := FirstMover(a, g, y + 1, 0);
      assert forall yy: nat, xx: nat :: Within(g, y, x, yy, xx, |g|, 0) ==> Within(g, y + 1, 0, yy, xx, |g|, 0);
      r
    else if Mover(a, At(g, y, x)) then Some((y, x))
    else
      var r := FirstMover(a, g, y, x + 1);
      assert forall yy: nat, xx: nat :: Within(g, y, x, yy, xx, |g|, 0) && (yy, xx) != (y, x) ==> Within(g, y, x + 1, yy, xx, |g|, 0);
      r
  }

  /**
   * Where `placeOneFixed` sends a mover standing in column `fx`, with the records of `a`:
   * both coordinates given, to `(x, y)`; only `x`, to the first unlaid row of column `fx`
   * (the column it stands in); only `y`, to the first unlaid slot of row `y`.
   */
  function Target(a: Arena, g: Grid, n: string, fx: nat): (r: Result<(int, int), Error>)
    requires n in a && (Px(a[n]) != -1 || Py(a[n]) != -1)
    ensures r.Failure? <==>
      || (Py(a[n]) == -1 && FreeInColumn(a, g, fx, 0) == -1)
      || (Px(a[n]) == -1 && !(0 <= Py(a[n]) < |g|))
      || (Px(a[n]) == -1 && 0 <= Py(a[n]) < |g| && FreeInRow(a, g[Py(a[n])].cells, 0) == -1)
    ensures r.Failure? ==> r.error == (if Py(a[n]) == -1 then ColumnFull(n, Px(a[n])) else if 0 <= Py(a[n]) < |g| then RowFull(n, Py(a[n])) else TypeError)
    ensures r.Success? && Px(a[n]) != -1 ==> r.value.0 == Px(a[n])
    ensures r.Success? && Py(a[n]) != -1 ==> r.value.1 == Py(a[n])
    ensures r.Success? && Py(a[n]) == -1 ==> 0 <= r.value.1 < |g| && !CellLaid(a, Read(g, fx, r.value.1).value)
    ensures r.Success? && Px(a[n]) == -1 ==> 0 <= Py(a[n]) < |g| && 0 <= r.value.0 < |g[Py(a[n])].cells|
    ensures r.Success? && Px(a[n]) == -1 && 0 <= Py(a[n]) < |g| && 0 <= r.value.0 < |g[Py(a[n])].cells| ==>
      !CellLaid(a, Value(g[Py(a[n])].cells[r.value.0]))
  {
    var px, py := Px(a[n]), Py(a[n]);
    if px != -1 && py != -1 then Success((px, py))
    else if px != -1 then
      var ny := FreeInColumn(a, g, fx, 0);
      if ny == -1 then Failure(ColumnFull(n, px)) else Success((px, ny))
    else if !(0 <= py < |g|) then Failure(TypeError)
    else
      var nx := FreeInRow(a, g[py].cells, 0);
      if nx == -1 then Failure(RowFull(n, py)) else Success((nx, py))
  }

  /** Every record `a'` changes from `a` now stands, by its new location, in the row-major range. */
  ghost predicate ChangedIn(a: Arena, a': Arena, g: Grid, y0: nat, x0: nat, y1: nat, x1: nat) {
    forall n :: n in a && n in a' && a'[n] != a[n] ==>
      && a'[n].loc.Some? && 0 <= a'[n].loc.value.x && 0 <= a'[n].loc.value.y
      && Within(g, y0, x0, a'[n].loc.value.y, a'[n].loc.value.x, y1, x1)
  }

  /** What a `placeOneFixed` sweep ends with: no mover, or the first mover and where it goes. */
  datatype Found = NoMove(arena: Arena) | Move(arena: Arena, name: string, from: Loc, target: Result<(int, int), Error>)

  /** A scan changes a record only by pinning it where it stands. */
  ghost predicate PinsOnly(a: Arena, a': Arena, g: Grid) {
    && a'.Keys == a.Keys
    && (forall n :: n in a && a[n].laid ==> a'[n] == a[n])
    && (forall n :: n in a && a'[n] != a[n] ==>
          && a'[n].laid && !a'[n].fixed && a'[n].loc.Some?
          && Read(g, a'[n].loc.value.x, a'[n].loc.value.y) == Success(Occ(n))
          && Px(a[n]) == -1 && Py(a[n]) == -1 && AnchorCount(a, a[n]) == 0
          && a'[n] == Pinned(a[n], a'[n].loc.value.x, a'[n].loc.value.y))
  }

  /**
   * `r` is what the sweep from `(x, y)` must end with: only pins; no move exactly when no
   * mover is left; otherwise the first mover, unchanged, where it stands and with its target;
   * every pinnable record before the end of the sweep pinned, and no record at or after the
   * mover changed.
   */
  ghost predicate Swept(a: Arena, g: Grid, y: nat, x: nat, r: Found) {
    && PinsOnly(a, r.arena, g)
    && (r.NoMove? <==> FirstMover(a, g, y, x).None?)
    && (r.NoMove? ==> PinsIn(a, r.arena, g, y, x, |g|, 0) && ChangedIn(a, r.arena, g, y, x, |g|, 0))
    && (r.Move? ==>
      && FirstMover(a, g, y, x).Some?
      && var (fy, fx) := FirstMover(a, g, y, x).value;
      && At(g, fy, fx) == Occ(r.name) && r.from == Loc(fx, fy, Missing)
      && r.name in a && r.arena[r.name] == a[r.name]
      && r.target == Target(r.arena, g, r.name, fx)
      && PinsIn(a, r.arena, g, y, x, fy, fx)
      && ChangedIn(a, r.arena, g, y, x, fy, fx))
  }

  /**
   * The loops of `placeOneFixed` from `(x, y)` on, in row-major order. Empty and laid slots
   * are skipped. The first mover ends the sweep; a record with no coordinate is skipped when
   * it has anchors and pinned where it stands otherwise.
   */
  function Scan(a: Arena, g: Grid, y: nat, x: nat): (r: Found)
    ensures Swept(a, g, y, x, r)
    decreases |g| - y, if y < |g| && x <= |g[y].cells| then |g[y].cells| - x else 0
  {
    if y >= |g| then NoMove(a)
    else if x >= |g[y].cells| then
      var r := Scan(a, g, y + 1, 0);
      NextRow(a, g, y, x, r);
      r
    else
      var c := At(g, y, x);
      if !c.Occ? || c.name !in a || a[c.name].laid then
        var r := Scan(a, g, y, x + 1);
        Skip(a, g, y, x, r);
        r
      else
        var name := c.name;
        var n := a[name];
        if Px(n) != -1 || Py(n) != -1 then
          var r := Move(a, name, Loc(x, y, Missing), Target(a, g, name, x));
          MoveHere(a, g, y, x, r);
          r
        else if AnchorCount(a, n) > 0 then
          var r := Scan(a, g, y, x + 1);
          Skip(a, g, y, x, r);
          r
        else
          var a' := a[name := Pinned(n, x, y)];
          var r := Scan(a', g, y, x + 1);
          AfterPin(a, a', g, name, y, x, r);
          r
  }

  /** Past the end of a row the sweep goes on at the start of the next one. */
  lemma NextRow(a: Arena, g: Grid, y: nat, x: nat, r: Found)
    requires y < |g| && x >= |g[y].cells| && Swept(a, g, y + 1, 0, r)
    ensures Swept(a, g, y, x, r)
  {
    assert FirstMover(a, g, y, x) == FirstMover(a, g, y + 1, 0);
    var y1, x1 := |g|, 0;
    if r.Move? {
      y1, x1 := FirstMover(a, g, y, x).value.0, FirstMover(a, g, y, x).value.1;
    }
    assert PinsIn(a, r.arena, g, y + 1, 0, y1, x1);
    assert forall yy: nat, xx: nat :: Within(g, y, x, yy, xx, y1, x1) ==> Within(g, y + 1, 0, yy, xx, y1, x1);
    ChangedWiden(a, r.arena, g, y + 1, 0, y, x, y1, x1);
  }

  /** A slot that neither moves nor pins is passed over. */
  lemma Skip(a: Arena, g: Grid, y: nat, x: nat, r: Found)
    requires y < |g| && x < |g[y].cells| && !Mover(a, At(g, y, x)) && !Pinnable(a, At(g, y, x))
    requires Swept(a, g, y, x + 1, r)
    ensures Swept(a, g, y, x, r)
  {
    assert FirstMover(a, g, y, x) == FirstMover(a, g, y, x + 1);
    var y1, x1 := |g|, 0;
    if r.Move? {
      y1, x1 := FirstMover(a, g, y, x).value.0, FirstMover(a, g, y, x).value.1;
    }
    assert PinsIn(a, r.arena, g, y, x + 1, y1, x1);
    assert forall yy: nat, xx: nat :: Within(g, y, x, yy, xx, y1, x1) && (yy, xx) != (y, x) ==> Within(g, y, x + 1, yy, xx, y1, x1);
    ChangedWiden(a, r.arena, g, y, x + 1, y, x, y1, x1);
  }

  /** A mover ends the sweep where it stands. */
  lemma MoverHereFirst(a: Arena, g: Grid, y: nat, x: nat)
    requires y < |g| && x < |g[y].cells| && Mover(a, At(g, y, x))
    ensures FirstMover(a, g, y, x) == Some((y, x))
  {
  }

  lemma MoveHere(a: Arena, g: Grid, y: nat, x: nat, r: Found)
    requires y < |g| && x < |g[y].cells| && Mover(a, At(g, y, x))
    requires r == Move(a, At(g, y, x).name, Loc(x, y, Missing), Target(a, g, At(g, y, x).name, x))
    ensures Swept(a, g, y, x, r)
  {
    MoverHereFirst(a, g, y, x);
    assert forall yy: nat, xx: nat :: !Within(g, y, x, yy, xx, y, x);
  }

  /** Pins change no mover: a pinned record had no coordinate before and is laid after. */
  lemma MoverSame(a: Arena, a': Arena, g: Grid, c: Cell)
    requires PinsOnly(a, a', g)
    ensures Mover(a, c) == Mover(a', c)
  {
  }

  /** Pins leave the first mover where it was. */
  lemma {:induction false} FirstMoverSame(a: Arena, a': Arena, g: Grid, y: nat, x: nat)
    requires PinsOnly(a, a', g)
    ensures FirstMover(a, g, y, x) == FirstMover(a', g, y, x)
    decreases |g| - y, if y < |g| && x <= |g[y].cells| then |g[y].cells| - x else 0
  {
    if y < |g| {
      if x >= |g[y].cells| {
        FirstMoverSame(a, a', g, y + 1, 0);
      } else {
        MoverSame(a, a', g, At(g, y, x));
        FirstMoverSame(a, a', g, y, x + 1);
      }
    }
  }

  /** What the sweep after a pin at `(x, y)` promises carries over to the sweep from `(x, y)`. */
  lemma AfterPin(a: Arena, a': Arena, g: Grid, name: string, y: nat, x: nat, r: Found)
    requires y < |g| && x < |g[y].cells| && At(g, y, x) == Occ(name)
    requires Pinnable(a, At(g, y, x)) && a' == a[name := Pinned(a[name], x, y)]
    requires Swept(a', g, y, x + 1, r)
    ensures Swept(a, g, y, x, r)
  {
    PinOne(a, g, name, x, y);
    PinsOnlyTrans(a, a', r.arena, g);
    FirstMoverSame(a, a', g, y, x + 1);
    assert !Mover(a, At(g, y, x));
    assert FirstMover(a, g, y, x) == FirstMover(a, g, y, x + 1);
    var y1, x1 := |g|, 0;
    if r.Move? {
      y1, x1 := FirstMover(a, g, y, x).value.0, FirstMover(a, g, y, x).value.1;
      assert Mover(a', At(g, y1, x1));
      assert r.name != name;
    }
    PinsCarry(a, a', g, name, y, x, y1, x1, r.arena);
    ChangedCarry(a, a', g, name, y, x, y1, x1, r.arena);
  }

  /** A range that starts earlier holds whatever a later-starting one does. */
  lemma ChangedWiden(a: Arena, a': Arena, g: Grid, y0: nat, x0: nat, y: nat, x: nat, y1: nat, x1: nat)
    requires y < y0 || (y == y0 && x <= x0)
    requires ChangedIn(a, a', g, y0, x0, y1, x1)
    ensures ChangedIn(a, a', g, y, x, y1, x1)
  {
  }

  /** The pin at `(x, y)`, then changes after it, are changes from `(x, y)` on. */
  lemma ChangedCarry(a: Arena, a': Arena, g: Grid, name: string, y: nat, x: nat, y1: nat, x1: nat, a2: Arena)
    requires y < |g| && x < |g[y].cells| && At(g, y, x) == Occ(name)
    requires Pinnable(a, At(g, y, x)) && a' == a[name := Pinned(a[name], x, y)]
    requires y < y1 || (y == y1 && x < x1)
    requires PinsOnly(a', a2, g) && ChangedIn(a', a2, g, y, x + 1, y1, x1)
    ensures ChangedIn(a, a2, g, y, x, y1, x1)
  {
    forall n | n in a && n in a2 && a2[n] != a[n]
      ensures && a2[n].loc.Some? && 0 <= a2[n].loc.value.x && 0 <= a2[n].loc.value.y
              && Within(g, y, x, a2[n].loc.value.y, a2[n].loc.value.x, y1, x1)
    {
      if n == name {
        assert a2[n] == a'[n];
      } else {
        assert a'[n] == a[n];
      }
    }
  }

  /** The pins promised after a pin at `(x, y)`, with that pin, are the pins promised from `(x, y)`. */
  lemma PinsCarry(a: Arena, a': Arena, g: Grid, name: string, y: nat, x: nat, y1: nat, x1: nat, a2: Arena)
    requires y < |g| && x < |g[y].cells| && At(g, y, x) == Occ(name)
    requires Pinnable(a, At(g, y, x)) && a' == a[name := Pinned(a[name], x, y)]
    requires PinsOnly(a', a2, g) && PinsIn(a', a2, g, y, x + 1, y1, x1)
    ensures PinsIn(a, a2, g, y, x, y1, x1)
  {
    forall yy: nat, xx: nat | Within(g, y, x, yy, xx, y1, x1) && Pinnable(a, At(g, yy, xx))
      ensures At(g, yy, xx).name in a2 && a2[At(g, yy, xx).name].laid
    {
      var m := At(g, yy, xx).name;
      if m == name {
        assert a'[name].laid;
      } else {
        assert a'[m] == a[m];
        assert a[m].loc.None? || AnchorList(a', a[m].loc.value.anchors) == AnchorList(a, a[m].loc.value.anchors);
        assert Pinnable(a', At(g, yy, xx));
        assert Within(g, y, x + 1, yy, xx, y1, x1);
      }
    }
  }

  /** Pinning one unlaid, coordinate-less, anchor-free node where it stands is a pin. */
  lemma PinOne(a: Arena, g: Grid, name: string, x: nat, y: nat)
    requires name in a && !a[name].laid
    requires Px(a[name]) == -1 && Py(a[name]) == -1 && AnchorCount(a, a[name]) == 0
    requires y < |g| && x < |g[y].cells| && Value(g[y].cells[x]) == Occ(name)
    ensures PinsOnly(a, a[name := Pinned(a[name], x, y)], g)
  {
  }

  /** Two rounds of pins are pins: a pinned record is laid and no longer changes. */
  lemma PinsOnlyTrans(a: Arena, a1: Arena, a2: Arena, g: Grid)
    requires PinsOnly(a, a1, g) && PinsOnly(a1, a2, g)
    ensures PinsOnly(a, a2, g)
  {
    forall o | o in a ensures a1[o].own == a[o].own {
    }
    forall n | n in a && a2[n] != a[n]
      ensures && a2[n].laid && !a2[n].fixed && a2[n].loc.Some?
              && Read(g, a2[n].loc.value.x, a2[n].loc.value.y) == Success(Occ(n))
              && Px(a[n]) == -1 && Py(a[n]) == -1 && AnchorCount(a, a[n]) == 0
              && a2[n] == Pinned(a[n], a2[n].loc.value.x, a2[n].loc.value.y)
    {
      if a1[n] == a[n] && a[n].loc.Some? {
        assert AnchorList(a1, a[n].loc.value.anchors) == AnchorList(a, a[n].loc.value.anchors);
      }
    }
  }

  /** The errors a sweep can throw: a bad row, a fixed occupant, or a full column or row. */
  predicate SweepError(e: Error) {
    e.TypeError? || e.AlreadyFixed? || e.ColumnFull? || e.RowFull?
  }

  /**
   * `placeOneFixed`: the sweep's pins, then the `putNode` of the first mover, if any. Without
   * a mover, nothing moves, nothing becomes fixed and every pinnable record is pinned.
   */
  function PlaceOneFixed(a: Arena, g: Grid): (r: Result<(Arena, Grid), Error>)
    ensures r.Failure? ==> SweepError(r.error)
    ensures r.Success? ==> r.value.0.Keys == a.Keys && |r.value.1| == |g|
    ensures r.Success? ==> forall n :: n in a && a[n].laid ==> r.value.0[n].laid
    ensures var s := Scan(a, g, 0, 0);
      s.Move? ==> r == if s.target.Success? then PutNode(s.arena, s.name, s.from, s.target.value.0, s.target.value.1, g) else Failure(s.target.error)
    ensures FirstMover(a, g, 0, 0).None? ==>
      && r.Success? && r.value.1 == g
      && (forall n :: n in a && r.value.0[n].fixed ==> a[n].fixed)
      && PinsIn(a, r.value.0, g, 0, 0, |g|, 0)
    ensures r.Success? && FirstMover(a, g, 0, 0).Some? ==>
      var (fy, fx) := FirstMover(a, g, 0, 0).value;
      var n := At(g, fy, fx).name;
      r.value.0[n].laid && r.value.0[n].fixed
  {
    match Scan(a, g, 0, 0)
    case NoMove(a') =>
      Success((a', g))
    case Move(a', name, from, target) =>
      if target.Failure? then Failure(target.error)
      else
        var r := PutNode(a', name, from, target.value.0, target.value.1, g);
        if r.Success? then
          PutNodeArena(a', name, from, target.value.0, target.value.1, g);
          r
        else r
  }

  /** Every record `g` holds, in a slot or in an off-array property, is named in `s`. */
  ghost predicate HeldIn(g: Grid, s: set<string>) {
    forall y, x :: Read(g, x, y).Success? && Read(g, x, y).value.Occ? ==> Read(g, x, y).value.name in s
  }

  /** Outside `s`, `a'` keeps every record of `a` as it was. */
  ghost predicate FramedBy(a: Arena, a': Arena, s: set<string>) {
    forall n :: n in a && n !in s ==> n in a' && a'[n] == a[n]
  }

  /** A sweep's pins change only records the grid holds. */
  lemma PinsHeld(a: Arena, a': Arena, g: Grid, s: set<string>)
    requires HeldIn(g, s) && PinsOnly(a, a', g)
    ensures FramedBy(a, a', s)
  {
  }

  /**
   * `placeOneFixed` changes only records its grid holds, and its grid afterwards holds no
   * record the grid did not hold before: it pins and swaps records, and brings none in.
   */
  lemma PlaceHeld(a: Arena, g: Grid, s: set<string>, a': Arena, g': Grid)
    requires HeldIn(g, s) && PlaceOneFixed(a, g) == Success((a', g'))
    ensures HeldIn(g', s) && FramedBy(a, a', s)
  {
    var sc := Scan(a, g, 0, 0);
    PinsHeld(a, sc.arena, g, s);
    if sc.Move? {
      var (fy, fx) := FirstMover(a, g, 0, 0).value;
      assert Read(g, fx, fy) == Success(Occ(sc.name));
      var (tx, ty) := sc.target.value;
      PutNodeArena(sc.arena, sc.name, sc.from, tx, ty, g);
      assert Read(g, tx, ty).Success?;
      forall n | n in a && n !in s ensures n in a' && a'[n] == a[n] {
        assert n != sc.name && Read(g, tx, ty).value != Occ(n);
      }
      forall y, x | Read(g', x, y).Success? && Read(g', x, y).value.Occ? ensures Read(g', x, y).value.name in s {
        PutNodeGrid(sc.arena, sc.name, sc.from, tx, ty, g, x, y);
      }
    }
  }

  /** `nodes.flat()` before holes are dropped: the rows' cells, in row-major order. */
  function Flat(g: Grid): (r: seq<Cell>)
    ensures |g| == 0 ==> r == []
  {
    if |g| == 0 then [] else g[0].cells + Flat(g[1..])
  }

  /** A cell is in the flattened grid exactly when it sits at some position of some row. */
  lemma {:induction false} InFlat(g: Grid, c: Cell)
    ensures c in Flat(g) <==> exists y, x :: 0 <= y < |g| && 0 <= x < |g[y].cells| && g[y].cells[x] == c
  {
    if |g| > 0 {
      InFlat(g[1..], c);
      if c in Flat(g[1..]) {
        var y, x :| 0 <= y < |g[1..]| && 0 <= x < |g[1..][y].cells| && g[1..][y].cells[x] == c;
        assert g[y + 1].cells[x] == c;
      }
      if exists y, x :: 0 <= y < |g| && 0 <= x < |g[y].cells| && g[y].cells[x] == c {
        var y, x :| 0 <= y < |g| && 0 <= x < |g[y].cells| && g[y].cells[x] == c;
        if y > 0 {
          assert g[1..][y - 1].cells[x] == c;
        }
      }
    }
  }

  /** What `firstUnlaid` looks for: a real record with a location, an empty anchor array, not laid. */
  predicate Candidate(a: Arena, c: Cell) {
    && c.Occ? && c.name in a && !a[c.name].laid && a[c.name].loc.Some?
    && AnchorList(a, a[c.name].loc.value.anchors) == Some([])
  }

  /** The first candidate of a sequence of cells. */
  function FirstCandidate(a: Arena, cs: seq<Cell>): (r: Option<string>)
    ensures r.None? <==> forall i :: 0 <= i < |cs| ==> !Candidate(a, cs[i])
    ensures r.Some? ==> Occ(r.value) in cs && Candidate(a, Occ(r.value))
  {
    if |cs| == 0 then None
    else if Candidate(a, cs[0]) then Some(cs[0].name)
    else FirstCandidate(a, cs[1..])
  }

  /**
   * `firstUnlaid`: the first record, in row-major order, that has a location and an empty
   * anchor array and is not laid yet.
   */
  function FirstUnlaid(a: Arena, g: Grid): (r: Option<string>)
    ensures r.None? <==> forall c :: c in Flat(g) ==> !Candidate(a, c)
    ensures r.Some? ==> Occ(r.value) in Flat(g) && Candidate(a, Occ(r.value))
  {
    FirstCandidate(a, Flat(g))
  }
}

=== FILE: relative.dfy ===
/**
 * `relativePass`: nodes that name an anchor (`left: anchor(ID:side)` and so on) are placed,
 * pass after pass, next to the node they refer to once that node is laid. `applyAnchor`
 * walks away from the other node, one slot per step, stretching the parent's grid when a
 * step leaves it, until it reaches a slot that does not hold a fixed node.
 */
module Relative {
  import opened Wrappers
  import opened LayoutTypes
  import opened Grids
  import opened Place

  // ---------------------------------------------------------------- walking the tree

  /** A record `flatNodes` reaches: a real node, or one of the anonymous fillers. */
  datatype Item = Real(name: string) | Anon

  /**
   * `flatNodes`: the record, then depth first every record in its grid (holes and
   * `undefined` skipped). A filler has no grid. The walk descends at most `fuel` levels.
   */
  function FlatNodes(a: Arena, n: string, fuel: nat): (r: seq<Item>)
    requires n in a
    ensures |r| > 0 && r[0] == Real(n)
    ensures forall i :: 0 <= i < |r| && r[i].Real? ==> r[i].name in a
    ensures fuel > 0 ==> forall c :: c in Flat(a[n].grid) && c.Occ? && c.name in a ==> Real(c.name) in r
    ensures fuel > 0 ==> forall c :: c in Flat(a[n].grid) && c.Filler? ==> Anon in r
    decreases fuel, 1
  {
    [Real(n)] + Below(a, Flat(a[n].grid), fuel)
  }

  /** The records below a row of cells, each followed by its own subtree. */
  function Below(a: Arena, cs: seq<Cell>, fuel: nat): (r: seq<Item>)
    ensures forall i :: 0 <= i < |r| && r[i].Real? ==> r[i].name in a
    ensures fuel > 0 ==> forall c :: c in cs && c.Occ? && c.name in a ==> Real(c.name) in r
    ensures fuel > 0 ==> forall c :: c in cs && c.Filler? ==> Anon in r
    decreases fuel, 0, |cs|
  {
    if fuel == 0 || |cs| == 0 then []
    else
      var here := match cs[0]
        case Occ(c) => if c in a then FlatNodes(a, c, fuel - 1) else []
        case Filler(_) => [Anon]
        case _ => [];
      here + Below(a, cs[1..], fuel)
  }

  /** `p`'s grid holds the node `name`. */
  predicate Holds(a: Arena, p: string, name: string) {
    p in a && Occ(name) in Flat(a[p].grid)
  }

  /**
   * `findParent`: the first record whose grid holds `name`. Asking a filler for its grid is a
   * TypeError, so the search fails when it meets a filler first.
   */
  function FindParent(a: Arena, name: string, items: seq<Item>): (r: Result<string, Error>)
    ensures r.Success? ==> Real(r.value) in items && Holds(a, r.value, name)
    ensures r == Failure(NotInTree(name)) <==> forall i :: 0 <= i < |items| ==> items[i].Real? && !Holds(a, items[i].name, name)
    ensures r.Failure? ==> r.error == NotInTree(name) || (r.error == TypeError && Anon in items)
  {
    if |items| == 0 then Failure(NotInTree(name))
    else match items[0]
      case Anon => Failure(TypeError)
      case Real(p) => if Holds(a, p, name) then Success(p) else FindParent(a, name, items[1..])
  }

  /** The search answers with the first real record holding `name`, when no filler comes before it. */
  lemma {:induction false} FindParentFirst(a: Arena, name: string, items: seq<Item>, i: nat)
    requires i < |items| && items[i].Real? && Holds(a, items[i].name, name)
    requires forall j :: 0 <= j < i ==> items[j].Real? && !Holds(a, items[j].name, name)
    ensures FindParent(a, name, items) == Success(items[i].name)
    decreases i
  {
    if i > 0 {
      assert items[0].Real? && !Holds(a, items[0].name, name);
      FindParentFirst(a, name, items[1..], i - 1);
    }
  }

  // ---------------------------------------------------------------- the nodes waiting

  /** The anchor array of a node, empty when it has none. */
  function Anchors(a: Arena, n: string): seq<Anchor> {
    if n in a && a[n].loc.Some? && AnchorList(a, a[n].loc.value.anchors).Some?
    then AnchorList(a, a[n].loc.value.anchors).value
    else []
  }

  predicate AllResolved(xs: seq<Anchor>) {
    forall k :: 0 <= k < |xs| ==> xs[k].resolved
  }

  /** The three filters of `relativePass`: not laid, anchored, with an anchor not resolved yet. */
  predicate Waits(a: Arena, n: string) {
    && n in a && !a[n].laid && a[n].loc.Some?
    && AnchorList(a, a[n].loc.value.anchors).Some?
    && !AllResolved(AnchorList(a, a[n].loc.value.anchors).value)
  }

  /** A record `isAnchored` cannot answer for: its `locationAttrs` has no `anchors` property. */
  predicate Broken(a: Arena, it: Item) {
    it.Real? && it.name in a && !a[it.name].laid && a[it.name].loc.Some? && a[it.name].loc.value.anchors.Missing?
  }

  /** The names that pass the three filters, in tree order; a TypeError if `isAnchored` trips. */
  function Waiting(a: Arena, items: seq<Item>): (r: Result<seq<string>, Error>)
    ensures r.Failure? <==> exists i :: 0 <= i < |items| && Broken(a, items[i])
    ensures r.Failure? ==> r.error == TypeError
    ensures r.Success? ==> forall n :: n in r.value <==> Real(n) in items && Waits(a, n)
  {
    if |items| == 0 then Success([])
    else
      var rest :- Waiting(a, items[1..]);
      assert forall n :: n in rest <==> Real(n) in items[1..] && Waits(a, n);
      match items[0]
      case Anon => Success(rest)
      case Real(n) =>
        if n !in a || a[n].laid || a[n].loc.None? then Success(rest)
        else match AnchorList(a, a[n].loc.value.anchors)
          case None => Failure(TypeError)
          case Some(xs) => if !AllResolved(xs) then Success([n] + rest) else Success(rest)
  }

  /** The indices, from `k` on, of the items naming a waiting node, in increasing order. */
  function WaitingIndices(a: Arena, items: seq<Item>, k: nat): (idx: seq<nat>)
    ensures Increasing(idx)
    ensures forall i :: 0 <= i < |idx| ==> k <= idx[i] < |items| && items[idx[i]].Real? && Waits(a, items[idx[i]].name)
    ensures forall j: nat :: k <= j < |items| && items[j].Real? && Waits(a, items[j].name) ==> j in idx
    decreases |items| - k
  {
    if k >= |items| then []
    else if items[k].Real? && Waits(a, items[k].name) then [k] + WaitingIndices(a, items, k + 1)
    else WaitingIndices(a, items, k + 1)
  }

  /** `ns` names the real items of `items` at the indices `idx`, one name per index. */
  ghost predicate NamesAt(ns: seq<string>, items: seq<Item>, idx: seq<nat>) {
    |ns| == |idx| && forall i :: 0 <= i < |idx| ==> idx[i] < |items| && items[idx[i]].Real? && ns[i] == items[idx[i]].name
  }

  /** Naming one more item in front. */
  lemma NamesAtCons(ns: seq<string>, items: seq<Item>, k: nat, idx: seq<nat>)
    requires k < |items| && items[k].Real? && NamesAt(ns, items, idx)
    ensures NamesAt([items[k].name] + ns, items, [k] + idx)
  {
  }

  /** A successful `Waiting` keeps the item order: its `i`-th name is that of the `i`-th waiting item. */
  lemma {:induction false} WaitingOrder(a: Arena, items: seq<Item>, k: nat)
    requires k <= |items|
    requires Waiting(a, items[k..]).Success?
    ensures NamesAt(Waiting(a, items[k..]).value, items, WaitingIndices(a, items, k))
    decreases |items| - k
  {
    if k < |items| {
      assert items[k..][1..] == items[k + 1..];
      assert items[k..][0] == items[k];
      WaitingOrder(a, items, k + 1);
      var rest := Waiting(a, items[k + 1..]).value;
      if items[k].Real? && Waits(a, items[k].name) {
        assert Waiting(a, items[k..]).value == [items[k].name] + rest;
        NamesAtCons(rest, items, k, WaitingIndices(a, items, k + 1));
      } else {
        assert Waiting(a, items[k..]).value == rest;
      }
    }
  }

  /** An anchor with what the pass learnt about its other node at the start of the pass. */
  datatype Dep = Dep(anchor: Anchor, otherParent: string, canLay: bool)

  /** A waiting node with its parent and its anchors. */
  datatype Pending = Pending(name: string, parent: string, deps: seq<Dep>)

  /** The anchors of one waiting node, each with its other node's parent and `laid`. */
  function Deps(a: Arena, items: seq<Item>, xs: seq<Anchor>): (r: Result<seq<Dep>, Error>)
    ensures r.Failure? ==> !r.error.Circular?
    ensures r.Success? ==> |r.value| == |xs|
    ensures r.Success? ==> forall k :: 0 <= k < |xs| ==>
      && r.value[k].anchor == xs[k]
      && FindParent(a, xs[k].otherId, items) == Success(r.value[k].otherParent)
      && r.value[k].canLay == (xs[k].otherId in a && a[xs[k].otherId].laid)
  {
    if |xs| == 0 then Success([])
    else
      var op :- FindParent(a, xs[0].otherId, items);
      if Real(xs[0].otherId) !in items || xs[0].otherId !in a then Failure(TypeError)
      else
        var rest :- Deps(a, items, xs[1..]);
        Success([Dep(xs[0], op, a[xs[0].otherId].laid)] + rest)
  }

  /** The `map` of `relativePass` over the waiting nodes: each one's parent, then its anchors. */
  function Survey(a: Arena, items: seq<Item>, ns: seq<string>): (r: Result<seq<Pending>, Error>)
    ensures r.Failure? ==> !r.error.Circular?
    ensures r.Success? ==> |r.value| == |ns|
    ensures r.Success? ==> Surveyed(a, items, ns, r.value)
  {
    if |ns| == 0 then Success([])
    else
      var parent :- FindParent(a, ns[0], items);
      var deps :- Deps(a, items, Anchors(a, ns[0]));
      var rest :- Survey(a, items, ns[1..]);
      SurveyedCons(a, items, ns, parent, deps, rest);
      Success([Pending(ns[0], parent, deps)] + rest)
  }

  /** Entry `i` of `ps` names `ns[i]`, its parent, and the surveyed anchors of `ns[i]`, for every `i`. */
  ghost predicate Surveyed(a: Arena, items: seq<Item>, ns: seq<string>, ps: seq<Pending>)
    requires |ps| == |ns|
  {
    forall i :: 0 <= i < |ns| ==>
      && ps[i].name == ns[i] && Holds(a, ps[i].parent, ns[i])
      && Deps(a, items, Anchors(a, ns[i])) == Success(ps[i].deps)
  }

  /** Surveying one more node in front. */
  lemma SurveyedCons(a: Arena, items: seq<Item>, ns: seq<string>, parent: string, deps: seq<Dep>, rest: seq<Pending>)
    requires |ns| > 0 && |rest| == |ns| - 1 && Surveyed(a, items, ns[1..], rest)
    requires Holds(a, parent, ns[0]) && Deps(a, items, Anchors(a, ns[0])) == Success(deps)
    ensures Surveyed(a, items, ns, [Pending(ns[0], parent, deps)] + rest)
  {
    var ps := [Pending(ns[0], parent, deps)] + rest;
    forall i | 1 <= i < |ns|
      ensures ps[i].name == ns[i] && Holds(a, ps[i].parent, ns[i]) && Deps(a, items, Anchors(a, ns[i])) == Success(ps[i].deps)
    {
      assert ps[i] == rest[i - 1] && ns[1..][i - 1] == ns[i];
    }
  }

  /** The anchors whose other node was laid at the start of the pass. */
  function Ready(ds: seq<Dep>): (r: seq<Dep>)
    ensures forall d :: d in r <==> d in ds && d.canLay
  {
    if |ds| == 0 then []
    else (if ds[0].canLay then [ds[0]] else []) + Ready(ds[1..])
  }

  /** `canLay`: the waiting nodes that have a ready anchor, keeping only those anchors. */
  function CanLay(ps: seq<Pending>): (r: seq<Pending>)
    ensures forall q :: q in r ==> |q.deps| > 0 && exists p :: p in ps && q == p.(deps := Ready(p.deps))
    ensures r == [] <==> forall p :: p in ps ==> Ready(p.deps) == []
  {
    if |ps| == 0 then []
    else
      var here := if Ready(ps[0].deps) != [] then [ps[0].(deps := Ready(ps[0].deps))] else [];
      here + CanLay(ps[1..])
  }

  /** The error message's list: each waiting node and the ids it depends on. */
  function Report(ps: seq<Pending>): (r: seq<(string, seq<string>)>)
    ensures |r| == |ps|
    ensures forall i :: 0 <= i < |ps| ==> r[i].0 == ps[i].name && |r[i].1| == |ps[i].deps|
    ensures forall i, k :: 0 <= i < |ps| && 0 <= k < |ps[i].deps| ==> r[i].1[k] == ps[i].deps[k].anchor.otherId
  {
    seq(|ps|, i requires 0 <= i < |ps| =>
      (ps[i].name, seq(|ps[i].deps|, k requires 0 <= k < |ps[i].deps| => ps[i].deps[k].anchor.otherId)))
  }

  // ---------------------------------------------------------------- applyAnchor

  /** Column of the `k`-th slot from `x` towards `s`. */
  function RayX(x: int, s: Side, k: int): int {
    match s
    case Left => x - k
    case Right => x + k
    case _ => x
  }

  /** Row of the `k`-th slot from `y` towards `s`. */
  function RayY(y: int, s: Side, k: int): int {
    match s
    case Top => y - k
    case Bottom => y + k
    case _ => y
  }

  predicate Horizontal(s: Side) {
    s.Left? || s.Right?
  }

  /** The slot reads a fixed node. */
  predicate Blocked(a: Arena, g: Grid, x: int, y: int) {
    Read(g, x, y).Success? && CellFixed(a, Read(g, x, y).value)
  }

  /** The slot can be read and does not hold a fixed node. */
  predicate Free(a: Arena, g: Grid, x: int, y: int) {
    Read(g, x, y).Success? && !CellFixed(a, Read(g, x, y).value)
  }

  /**
   * What the walk keeps: along its line, the stretched grid reads as the grid it started
   * from at every slot the walk can still continue past; past the bottom of the starting
   * grid there is only `undefined`.
   */
  ghost predicate Tracks(g: Grid, g0: Grid, x: int, y: int, s: Side) {
    if Horizontal(s) then forall i :: i >= 0 ==> Read(g, i, y) == Read(g0, i, y)
    else
      && |g| >= |g0|
      && (forall j :: 0 <= j < |g0| ==> Read(g, x, j) == Read(g0, x, j))
      && (forall j :: j >= |g0| ==> Read(g, x, j).Failure? || Read(g, x, j) == Success(Vacant))
  }

  /**
   * How many more steps the walk can take: a step left or up past index 0 lands in a fresh
   * column or fails on a missing row; a step right or down past the starting grid reads
   * `undefined` or fails.
   */
  function Budget(g0: Grid, x: int, y: int, s: Side, step: int): int {
    match s
    case Left => x - step + 1
    case Top => y - step + 1
    case Right => (if 0 <= y < |g0| then |g0[y].cells| else 0) - (x + step)
    case Bottom => |g0| - (y + step)
  }

  /** A step that meets a fixed node keeps `Tracks` and has budget left. */
  lemma StepTracks(a: Arena, p: Node, x: int, y: int, s: Side, step: nat, g0: Grid)
    requires step >= 1 && Tracks(p.grid, g0, x, y, s)
    requires Blocked(a, Resize(p, RayX(x, s, step), RayY(y, s, step)).grid, RayX(x, s, step), RayY(y, s, step))
    ensures Tracks(Resize(p, RayX(x, s, step), RayY(y, s, step)).grid, g0, x, y, s)
    ensures Blocked(a, g0, RayX(x, s, step), RayY(y, s, step))
    ensures Budget(g0, x, y, s, step) >= 1
  {
    var nx, ny := RayX(x, s, step), RayY(y, s, step);
    var g' := Resize(p, nx, ny).grid;
    assert Read(g', nx, ny).value.Occ?;
    if Horizontal(s) {
      assert nx >= 0;
      assert ny == y;
      if ny >= p.height && 0 <= nx < p.width {
        assert ny != |p.grid|;
      }
      assert forall i :: i >= 0 ==> Read(g', i, y) == Read(p.grid, i, y);
      assert Read(g0, nx, y) == Read(g', nx, y);
      if s.Right? {
        assert 0 <= y < |g0| && nx < |g0[y].cells|;
      }
    } else {
      assert nx == x && x >= 0;
      if 0 <= x < p.width && ny >= p.height {
        assert forall j :: j != |p.grid| ==> Read(g', x, j) == Read(p.grid, x, j);
      }
      assert 0 <= ny < |g0|;
    }
  }

  /**
   * The `do … while` of `applyAnchor`: from the other node at `(x, y)`, try the slot `step`
   * away towards `s`, stretching the parent when the slot is outside its `width`/`height`,
   * and stop at the first slot that does not hold a fixed node. The answer is the stretched
   * parent and the number of steps.
   */
  function Walk(a: Arena, p: Node, x: int, y: int, s: Side, step: nat, g0: Grid): (r: Result<(Node, nat), Error>)
    requires step >= 1 && Tracks(p.grid, g0, x, y, s)
    ensures r.Failure? ==> !r.error.Circular?
    ensures r.Failure? ==> r.error == TypeError
    ensures r.Success? ==> r.value.0 == p.(grid := r.value.0.grid, width := r.value.0.width, height := r.value.0.height)
    ensures r.Success? ==> r.value.1 >= step && Free(a, r.value.0.grid, RayX(x, s, r.value.1), RayY(y, s, r.value.1))
    ensures r.Success? ==> forall k :: step <= k < r.value.1 ==> Blocked(a, g0, RayX(x, s, k), RayY(y, s, k))
    decreases Budget(g0, x, y, s, step)
  {
    var nx, ny := RayX(x, s, step), RayY(y, s, step);
    var p' := Resize(p, nx, ny);
    match Read(p'.grid, nx, ny)
    case Failure(e) => Failure(e)
    case Success(c) =>
      if !CellFixed(a, c) then Success((p', step))
      else
        StepTracks(a, p, x, y, s, step, g0);
        Walk(a, p', x, y, s, step + 1, g0)
  }

  /**
   * Stepping left of a node in column 0 stretches the parent by a column but aims at column
   * -1, not at the new column 0: the write then lands on a property the grid's rows do not list.
   */
  lemma LeftOfColumnZero(a: Arena, p: Node, y: int)
    requires 0 <= y < |p.grid|
    ensures Walk(a, p, 0, y, Left, 1, p.grid) == Success((Resize(p, -1, y), 1))
  {
    assert Read(Resize(p, -1, y).grid, -1, y) == Success(Vacant);
  }

  /** Stepping up from a node in row 0 reads row -1, which does not exist. */
  lemma AboveRowZero(a: Arena, p: Node, x: int)
    requires Tracks(p.grid, p.grid, x, 0, Top)
    ensures Walk(a, p, x, 0, Top, 1, p.grid) == Failure(TypeError)
  {
  }

  /** `anchors.find(a => a.ownDirection === d && a.otherId === id)`, as an index or -1. */
  function FindAnchor(xs: seq<Anchor>, d: Side, id: string): (k: int)
    ensures -1 <= k < |xs|
    ensures k >= 0 ==> xs[k].ownDirection == d && xs[k].otherId == id
    ensures forall j :: 0 <= j < |xs| && (k == -1 || j < k) ==> !(xs[j].ownDirection == d && xs[j].otherId == id)
  {
    if |xs| == 0 then -1
    else if xs[0].ownDirection == d && xs[0].otherId == id then 0
    else
      var k := FindAnchor(xs[1..], d, id);
      if k == -1 then -1 else k + 1
  }

  /** The node's anchor array holds a resolved anchor towards `anc`'s direction and node. */
  ghost predicate Resolved(a: Arena, node: string, anc: Anchor) {
    && node in a && a[node].loc.Some? && a[node].loc.value.anchors.Owned?
    && var o := a[node].loc.value.anchors.owner;
    && o in a
    && exists k :: 0 <= k < |a[o].own| && a[o].own[k] == anc.(resolved := true, otherSide := a[o].own[k].otherSide)
  }

  /**
   * `selfAnchor!.resolved = true`: mark the first matching anchor in the array the node's
   * `locationAttrs` refers to. An absent array, or no match, is a TypeError.
   */
  function MarkResolved(a: Arena, node: string, anc: Anchor): (r: Result<Arena, Error>)
    requires node in a
    ensures r.Failure? ==> !r.error.Circular?
    ensures r.Success? <==>
      && a[node].loc.Some? && a[node].loc.value.anchors.Owned? && a[node].loc.value.anchors.owner in a
      && FindAnchor(a[a[node].loc.value.anchors.owner].own, anc.ownDirection, anc.otherId) >= 0
    ensures r.Failure? ==> r.error == TypeError
    ensures r.Success? ==> r.value.Keys == a.Keys && forall n :: n in a ==> r.value[n] == a[n].(own := r.value[n].own)
    ensures r.Success? ==> Resolved(r.value, node, anc)
    ensures r.Success? ==>
      var o := a[node].loc.value.anchors.owner;
      var k := FindAnchor(a[o].own, anc.ownDirection, anc.otherId);
      && (forall n :: n in a && n != o ==> r.value[n] == a[n])
      && |r.value[o].own| == |a[o].own|
      && r.value[o].own[k] == a[o].own[k].(resolved := true)
      && (forall j :: 0 <= j < |a[o].own| && j != k ==> r.value[o].own[j] == a[o].own[j])
  {
    match a[node].loc
    case None => Failure(TypeError)
    case Some(l) =>
      match l.anchors
      case Owned(o) =>
        if o !in a then Failure(TypeError)
        else
          var k := FindAnchor(a[o].own, anc.ownDirection, anc.otherId);
          if k < 0 then Failure(TypeError)
          else
            var own := a[o].own[k := a[o].own[k].(resolved := true)];
            var r := a[o := a[o].(own := own)];
            assert own[k] == anc.(resolved := true, otherSide := own[k].otherSide);
            Success(r)
      case _ => Failure(TypeError)
  }

  /**
   * In `a'`, the parent's grid holds the node where the walk from the other node's position
   * in `a` stopped.
   */
  ghost predicate Landed(a: Arena, a': Arena, node: string, parent: string, anc: Anchor)
    requires parent in a && parent in a'
  {
    && anc.otherId in a && a[anc.otherId].loc.Some?
    && var o := a[anc.otherId].loc.value;
    && var w := Walk(a, a[parent], o.x, o.y, anc.ownDirection, 1, a[parent].grid);
    && w.Success?
    && Read(a'[parent].grid, RayX(o.x, anc.ownDirection, w.value.1), RayY(o.y, anc.ownDirection, w.value.1)) == Success(Occ(node))
  }

  /**
   * `applyAnchor`: both nodes must share a parent; walk from the other node's position,
   * `putNode` the node into the slot found (swapping out what was there), keep the
   * stretched grid in the parent and mark the anchor resolved.
   */
  function ApplyAnchor(a: Arena, node: string, parent: string, otherParent: string, anc: Anchor): (r: Result<Arena, Error>)
    requires node in a && parent in a
    ensures r.Failure? ==> !r.error.Circular?
    ensures parent != otherParent ==> r == Failure(CrossParent(node))
    ensures r.Success? ==> r.value.Keys == a.Keys
    ensures r.Success? ==> forall n :: n in a ==> r.value[n].laid == (a[n].laid || n == node) && r.value[n].fixed == (a[n].fixed || n == node)
    ensures r.Success? ==> Resolved(r.value, node, anc)
    ensures r.Success? ==> Landed(a, r.value, node, parent, anc)
  {
    if parent != otherParent then Failure(CrossParent(node))
    else if anc.otherId !in a || a[anc.otherId].loc.None? then Failure(TypeError)
    else
      var o := a[anc.otherId].loc.value;
      var w :- Walk(a, a[parent], o.x, o.y, anc.ownDirection, 1, a[parent].grid);
      Settle(a, node, parent, w.0, RayX(o.x, anc.ownDirection, w.1), RayY(o.y, anc.ownDirection, w.1), anc)
  }

  /** The end of `applyAnchor`: the walk found `(tx, ty)` in the stretched parent `p`. */
  function Settle(a: Arena, node: string, parent: string, p: Node, tx: int, ty: int, anc: Anchor): (r: Result<Arena, Error>)
    requires node in a && parent in a && p == a[parent].(grid := p.grid, width := p.width, height := p.height)
    ensures r.Failure? ==> !r.error.Circular?
    ensures r.Success? ==> r.value.Keys == a.Keys
    ensures r.Success? ==> forall n :: n in a ==> r.value[n].laid == (a[n].laid || n == node) && r.value[n].fixed == (a[n].fixed || n == node)
    ensures r.Success? ==> Resolved(r.value, node, anc)
    ensures r.Success? ==> Read(r.value[parent].grid, tx, ty) == Success(Occ(node))
  {
    var a2 :- PutInParent(a, node, parent, p, tx, ty);
    MarkResolved(a2, node, anc)
  }

  /** `putNode(node, node.locationAttrs!, {x: tx, y: ty}, parent.nodes)` on the stretched parent. */
  function PutInParent(a: Arena, node: string, parent: string, p: Node, tx: int, ty: int): (r: Result<Arena, Error>)
    requires node in a && parent in a && p == a[parent].(grid := p.grid, width := p.width, height := p.height)
    ensures r.Failure? ==> !r.error.Circular?
    ensures r.Success? ==> r.value.Keys == a.Keys
    ensures r.Success? ==> forall n :: n in a ==> r.value[n].laid == (a[n].laid || n == node) && r.value[n].fixed == (a[n].fixed || n == node)
    ensures r.Success? ==> Read(r.value[parent].grid, tx, ty) == Success(Occ(node))
  {
    var a1 := a[parent := p];
    if a1[node].loc.None? then Failure(TypeError)
    else
      var from := a1[node].loc.value;
      match PutNode(a1, node, from, tx, ty, p.grid)
      case Failure(e) => Failure(e)
      case Success(put) =>
        PutNodeGrid(a1, node, from, tx, ty, p.grid, tx, ty);
        var r := put.0[parent := put.0[parent].(grid := put.1)];
        PutFlags(a1, node, from, tx, ty, p.grid, parent, r);
        Success(r)
  }

  /** Putting a node and storing the parent's new grid marks only that node laid and fixed. */
  lemma PutFlags(a: Arena, node: string, from: Loc, tx: int, ty: int, g: Grid, parent: string, r: Arena)
    requires node in a && parent in a && PutNode(a, node, from, tx, ty, g).Success?
    requires var put := PutNode(a, node, from, tx, ty, g).value;
      r == put.0[parent := put.0[parent].(grid := put.1)]
    ensures r.Keys == a.Keys
    ensures forall n :: n in a ==> r[n].laid == (a[n].laid || n == node) && r[n].fixed == (a[n].fixed || n == node)
  {
    var a' := PutNode(a, node, from, tx, ty, g).value.0;
    PutNodeArena(a, node, from, tx, ty, g);
    assert r == a'[parent := a'[parent].(grid := PutNode(a, node, from, tx, ty, g).value.1)];
    forall n | n in a ensures r[n].laid == a'[n].laid && r[n].fixed == a'[n].fixed {
    }
  }

  // ---------------------------------------------------------------- the passes

  /** The nodes not laid yet. */
  function Unlaid(a: Arena): set<string> {
    set n | n in a && !a[n].laid
  }

  /** Apply every ready anchor of one node, in order. */
  function ApplyDeps(a: Arena, node: string, parent: string, ds: seq<Dep>): (r: Result<Arena, Error>)
    requires node in a && parent in a
    ensures r.Failure? ==> !r.error.Circular?
    ensures r.Success? ==> r.value.Keys == a.Keys
    ensures r.Success? ==> forall n :: n in a ==> r.value[n].laid == (a[n].laid || (n == node && |ds| > 0))
    ensures r.Success? ==> forall n :: n in a ==> r.value[n].fixed == (a[n].fixed || (n == node && |ds| > 0))
  {
    if |ds| == 0 then Success(a)
    else
      var a' :- ApplyAnchor(a, node, parent, ds[0].otherParent, ds[0].anchor);
      ApplyDeps(a', node, parent, ds[1..])
  }

  /** The `flatMap` of `relativePass`: apply the ready anchors of every node, in order. */
  function ApplyAll(a: Arena, ready: seq<Pending>): (r: Result<Arena, Error>)
    requires forall i :: 0 <= i < |ready| ==> ready[i].name in a && ready[i].parent in a
    ensures r.Failure? ==> !r.error.Circular?
    ensures r.Success? ==> r.value.Keys == a.Keys
    ensures r.Success? ==> forall n :: n in a && a[n].laid ==> r.value[n].laid
    ensures r.Success? ==> forall n :: n in a && a[n].fixed ==> r.value[n].fixed
    ensures r.Success? ==> forall i :: 0 <= i < |ready| && |ready[i].deps| > 0 ==> r.value[ready[i].name].laid && r.value[ready[i].name].fixed
  {
    if |ready| == 0 then Success(a)
    else
      var a' :- ApplyDeps(a, ready[0].name, ready[0].parent, ready[0].deps);
      ApplyAll(a', ready[1..])
  }

  /** The tree as `flatNodes(tree)` lists it; no tree is deeper than it has records. */
  function Items(a: Arena, root: string): seq<Item>
    requires root in a
  {
    FlatNodes(a, root, |a|)
  }

  /**
   * One round of the `relativePass` loop: `None` when nothing waits any more. Otherwise the
   * ready anchors are applied, or, when none is ready, the dependencies are circular.
   */
  function Pass(a: Arena, root: string, pass: nat): (r: Result<Option<Arena>, Error>)
    requires root in a
    ensures r == Success(None) <==> Waiting(a, Items(a, root)) == Success([])
    ensures r.Success? && r.value.Some? ==> r.value.value.Keys == a.Keys && Unlaid(r.value.value) < Unlaid(a)
    ensures r.Success? && r.value.Some? ==> forall n :: n in a && a[n].fixed ==> r.value.value[n].fixed
    ensures r.Failure? && r.error.Circular? ==>
      && Waiting(a, Items(a, root)).Success?
      && var ns := Waiting(a, Items(a, root)).value;
      && |ns| > 0 && !SomeReady(a, ns)
      && Survey(a, Items(a, root), ns).Success?
      && r.error == Circular(pass, Report(Survey(a, Items(a, root), ns).value))
    ensures Waiting(a, Items(a, root)).Success? ==>
      var ns := Waiting(a, Items(a, root)).value;
      && (SomeReady(a, ns) ==> !(r.Failure? && r.error.Circular?))
      && (|ns| > 0 && !SomeReady(a, ns) && Survey(a, Items(a, root), ns).Success? ==>
            r == Failure(Circular(pass, Report(Survey(a, Items(a, root), ns).value))))
    ensures r.Failure? && !r.error.Circular? ==>
      || Waiting(a, Items(a, root)).Failure?
      || Survey(a, Items(a, root), Waiting(a, Items(a, root)).value).Failure?
      || ApplyReady(a, root).Failure?
  {
    var items := Items(a, root);
    var ns :- Waiting(a, items);
    var pending :- Survey(a, items, ns);
    if |pending| == 0 then Success(None)
    else
      var ready := CanLay(pending);
      CanLayIff(a, items, ns, pending);
      if ready == [] then Failure(Circular(pass, Report(pending)))
      else
        ReadyWaits(a, ns, pending, ready);
        var a' :- ApplyAll(a, ready);
        UnlaidShrinks(a, a', ready[0].name);
        Success(Some(a'))
  }

  /** What applying every ready anchor of the pass gives, once the waiting nodes are surveyed. */
  function ApplyReady(a: Arena, root: string): Result<Arena, Error>
    requires root in a
    requires Waiting(a, Items(a, root)).Success?
    requires Survey(a, Items(a, root), Waiting(a, Items(a, root)).value).Success?
  {
    ReadyIn(a, root);
    ApplyAll(a, CanLay(Survey(a, Items(a, root), Waiting(a, Items(a, root)).value).value))
  }

  /** A pass with a ready anchor applies every ready anchor, and its result is the arena that gives. */
  lemma PassApplies(a: Arena, root: string, pass: nat)
    requires root in a
    requires Waiting(a, Items(a, root)).Success? && SomeReady(a, Waiting(a, Items(a, root)).value)
    requires Survey(a, Items(a, root), Waiting(a, Items(a, root)).value).Success?
    requires ApplyReady(a, root).Success?
    ensures Pass(a, root, pass) == Success(Some(ApplyReady(a, root).value))
  {
    var items := Items(a, root);
    var ns := Waiting(a, items).value;
    var pending := Survey(a, items, ns).value;
    CanLayIff(a, items, ns, pending);
  }

  lemma ReadyIn(a: Arena, root: string)
    requires root in a
    requires Waiting(a, Items(a, root)).Success?
    requires Survey(a, Items(a, root), Waiting(a, Items(a, root)).value).Success?
    ensures var ready := CanLay(Survey(a, Items(a, root), Waiting(a, Items(a, root)).value).value);
      forall i :: 0 <= i < |ready| ==> ready[i].name in a && ready[i].parent in a
  {
    var ns := Waiting(a, Items(a, root)).value;
    var pending := Survey(a, Items(a, root), ns).value;
    if CanLay(pending) != [] {
      ReadyWaits(a, ns, pending, CanLay(pending));
    }
  }

  /** The other node of `x` is laid. */
  predicate TargetLaid(a: Arena, x: Anchor) {
    x.otherId in a && a[x.otherId].laid
  }

  /** Some anchor of some node of `ns` points at a laid node. */
  predicate SomeReady(a: Arena, ns: seq<string>) {
    exists i, k :: 0 <= i < |ns| && 0 <= k < |Anchors(a, ns[i])| && TargetLaid(a, Anchors(a, ns[i])[k])
  }

  /** The surveyed nodes have no ready anchor exactly when no anchor of theirs points at a laid node. */
  lemma CanLayIff(a: Arena, items: seq<Item>, ns: seq<string>, ps: seq<Pending>)
    requires |ps| == |ns|
    requires forall i :: 0 <= i < |ns| ==> Deps(a, items, Anchors(a, ns[i])) == Success(ps[i].deps)
    ensures CanLay(ps) == [] <==> !SomeReady(a, ns)
  {
    if SomeReady(a, ns) {
      var i, k :| 0 <= i < |ns| && 0 <= k < |Anchors(a, ns[i])| && TargetLaid(a, Anchors(a, ns[i])[k]);
      DepCanLay(a, items, Anchors(a, ns[i]), ps[i].deps, k);
      ReadyHas(ps[i].deps, k);
      assert ps[i] in ps;
    } else {
      forall p | p in ps ensures Ready(p.deps) == [] {
        var i :| 0 <= i < |ps| && ps[i] == p;
        NoneReady(a, items, Anchors(a, ns[i]), p.deps);
      }
    }
  }

  /** The `k`-th dependency can be laid exactly when its other node is laid. */
  lemma DepCanLay(a: Arena, items: seq<Item>, xs: seq<Anchor>, ds: seq<Dep>, k: nat)
    requires Deps(a, items, xs) == Success(ds) && k < |xs|
    ensures k < |ds| && ds[k].canLay == TargetLaid(a, xs[k])
  {
  }

  /** A dependency that can be laid is kept by `Ready`. */
  lemma ReadyHas(ds: seq<Dep>, k: nat)
    requires k < |ds| && ds[k].canLay
    ensures Ready(ds) != []
  {
    assert ds[k] in ds;
    assert ds[k] in Ready(ds);
  }

  /** With no other node laid, nothing is ready. */
  lemma NoneReady(a: Arena, items: seq<Item>, xs: seq<Anchor>, ds: seq<Dep>)
    requires Deps(a, items, xs) == Success(ds)
    requires forall k :: 0 <= k < |xs| ==> !TargetLaid(a, xs[k])
    ensures Ready(ds) == []
  {
    forall d | d in ds ensures !d.canLay {
      var k :| 0 <= k < |ds| && ds[k] == d;
      DepCanLay(a, items, xs, ds, k);
    }
    if Ready(ds) != [] {
      assert Ready(ds)[0] in Ready(ds);
    }
  }

  /** Every node with a ready anchor was waiting, so it is unlaid and sits in a known parent. */
  lemma ReadyWaits(a: Arena, ns: seq<string>, pending: seq<Pending>, ready: seq<Pending>)
    requires forall n :: n in ns ==> Waits(a, n)
    requires |pending| == |ns|
    requires forall i :: 0 <= i < |ns| ==> pending[i].name == ns[i] && Holds(a, pending[i].parent, ns[i])
    requires ready == CanLay(pending) && ready != []
    ensures forall i :: 0 <= i < |ready| ==> ready[i].name in a && ready[i].parent in a
    ensures ready[0].name in Unlaid(a) && |ready[0].deps| > 0
  {
    forall i | 0 <= i < |ready| ensures ready[i].name in a && !a[ready[i].name].laid && ready[i].parent in a {
      assert ready[i] in ready;
      var p :| p in pending && ready[i] == p.(deps := Ready(p.deps));
      var j :| 0 <= j < |pending| && pending[j] == p;
      assert ns[j] in ns;
    }
    assert ready[0] in ready;
  }

  /** A proper subset is smaller. */
  lemma {:induction false} ProperSubsetSmaller<T>(A: set<T>, B: set<T>)
    requires A < B
    ensures |A| < |B|
    decreases |A|
  {
    assert exists z :: z in B && z !in A;
    var x :| x in B && x !in A;
    if A == {} {
      assert x in B;
    } else {
      var y :| y in A;
      assert x in B - {y} && x !in A - {y};
      assert A - {y} < B - {y};
      ProperSubsetSmaller(A - {y}, B - {y});
    }
  }

  /** A node becomes laid and none is unlaid again: fewer nodes are unlaid. */
  lemma UnlaidShrinks(a: Arena, a': Arena, n: string)
    requires a'.Keys == a.Keys && forall m :: m in a && a[m].laid ==> a'[m].laid
    requires n in Unlaid(a) && a'[n].laid
    ensures Unlaid(a') < Unlaid(a)
  {
    assert n !in Unlaid(a');
  }

  /**
   * `relativePass`, counting passes from `pass`: stop when no node waits for an anchor, and
   * answer the tree with the number of the pass that found nothing waiting. Every pass that
   * continues lays at least one more node, so the loop ends, or reports a circular
   * dependency, within as many passes as there are unlaid nodes.
   */
  function RelativePass(a: Arena, root: string, pass: nat): (r: Result<(Arena, nat), Error>)
    requires root in a
    ensures r.Success? ==> r.value.0.Keys == a.Keys && Unlaid(r.value.0) <= Unlaid(a)
    ensures r.Success? ==> forall n :: n in a && a[n].fixed ==> r.value.0[n].fixed
    ensures r.Success? ==> Waiting(r.value.0, Items(r.value.0, root)) == Success([])
    ensures r.Success? ==> pass <= r.value.1 <= pass + |Unlaid(a)| - |Unlaid(r.value.0)|
    ensures r.Failure? && r.error.Circular? ==> pass <= r.error.pass <= pass + |Unlaid(a)|
    decreases |Unlaid(a)|
  {
    match Pass(a, root, pass)
    case Failure(e) => Failure(e)
    case Success(None) => Success((a, pass))
    case Success(Some(a')) =>
      ProperSubsetSmaller(Unlaid(a'), Unlaid(a));
      RelativePass(a', root, pass + 1)
  }
}

=== FILE: sparsely.dfy ===
/**
 * `Sparse2D<T>`: a sparse grid from signed integer coordinates to values
 * (sharc/src/cli/common/sparsely.ts).
 *
 * The source keeps a JavaScript record from the address string `"x:y"` to the
 * pair `[pos, el]`. Because the addresses are never integer-like strings, the
 * record enumerates its entries in insertion order; the model keeps exactly
 * that: a sequence of entries, each carrying its address key. A JavaScript
 * falsy value stored through `put` is `None` here.
 */
module Sparsely {
  import opened Wrappers
  import Decimal

  datatype Pos = Pos(x: int, y: int)

  datatype Entry<T> = Entry(key: string, pos: Pos, el: T)

  datatype Sparse2D<T> = Sparse2D(elems: seq<Entry<T>>)

  /** The record key of cell `(x, y)`. */
  function Addr(x: int, y: int): string {
    Decimal.IntToString(x) + ":" + Decimal.IntToString(y)
  }

  /** The index of the first ':' in `s`, or `|s|` when there is none. */
  function ColonIndex(s: string): (k: nat)
    ensures k <= |s|
    ensures forall i :: 0 <= i < k ==> s[i] != ':'
    ensures k < |s| ==> s[k] == ':'
  {
    if |s| == 0 then 0 else if s[0] == ':' then 0 else 1 + ColonIndex(s[1..])
  }

  lemma {:induction false} ColonIndexOfJoin(a: string, b: string)
    requires forall i :: 0 <= i < |a| ==> a[i] != ':'
    ensures ColonIndex(a + ":" + b) == |a|
  {
    var s := a + ":" + b;
    assert forall i :: 0 <= i < |a| ==> s[i] == a[i];
    assert s[|a|] == ':';
  }

  /** Distinct cells have distinct addresses, so the record never conflates two cells. */
  lemma AddrInjective(x: int, y: int, x': int, y': int)
    requires Addr(x, y) == Addr(x', y')
    ensures x == x' && y == y'
  {
    var a, b := Decimal.IntToString(x), Decimal.IntToString(y);
    var a', b' := Decimal.IntToString(x'), Decimal.IntToString(y');
    var s := a + ":" + b;
    ColonIndexOfJoin(a, b);
    ColonIndexOfJoin(a', b');
    assert a == s[..|a|] == a';
    assert b == s[|a| + 1..] == b';
    Decimal.IntToStringInjective(x, x');
    Decimal.IntToStringInjective(y, y');
  }

  ghost predicate KeysAreAddrs<T>(elems: seq<Entry<T>>) {
    forall i :: 0 <= i < |elems| ==> elems[i].key == Addr(elems[i].pos.x, elems[i].pos.y)
  }

  ghost predicate PosDistinct<T>(elems: seq<Entry<T>>) {
    forall i, j :: 0 <= i < j < |elems| ==> elems[i].pos != elems[j].pos
  }

  /** Every key is its entry's address, and no cell is stored twice. */
  ghost predicate Valid<T>(g: Sparse2D<T>) {
    KeysAreAddrs(g.elems) && PosDistinct(g.elems)
  }

  /**
   * The cells a sequence of entries describes, as an abstract map. The first
   * entry at a position wins, as the record lookup `IndexOf` finds it first.
   */
  ghost function Cells<T>(elems: seq<Entry<T>>): map<Pos, T> {
    if |elems| == 0 then map[] else Cells(elems[1..])[elems[0].pos := elems[0].el]
  }

  ghost function View<T>(g: Sparse2D<T>): map<Pos, T> {
    Cells(g.elems)
  }

  lemma {:induction false} CellsDomain<T>(elems: seq<Entry<T>>, p: Pos)
    ensures p in Cells(elems) <==> exists i :: 0 <= i < |elems| && elems[i].pos == p
  {
    if |elems| > 0 {
      CellsDomain(elems[1..], p);
      if exists i :: 1 <= i < |elems| && elems[i].pos == p {
        var i :| 1 <= i < |elems| && elems[i].pos == p;
        assert elems[1..][i - 1].pos == p;
      }
    }
  }

  function Empty<T>(): (g: Sparse2D<T>)
    ensures Valid(g) && View(g) == map[]
  {
    Sparse2D([])
  }

  /** The index of the entry stored under `key`, if any. */
  function IndexOf<T>(elems: seq<Entry<T>>, key: string): (r: Option<nat>)
    ensures r.Some? ==> r.value < |elems| && elems[r.value].key == key
    ensures r.Some? ==> forall i :: 0 <= i < r.value ==> elems[i].key != key
    ensures r.None? ==> forall i :: 0 <= i < |elems| ==> elems[i].key != key
  {
    if |elems| == 0 then None
    else if elems[0].key == key then Some(0)
    else
      match IndexOf(elems[1..], key)
      case None => None
      case Some(i) => Some(i + 1)
  }

  /** `get(x, y)`: the occupant stored under the address of `(x, y)`. */
  function Get<T>(g: Sparse2D<T>, x: int, y: int): Option<T> {
    match IndexOf(g.elems, Addr(x, y))
    case Some(i) => Some(g.elems[i].el)
    case None => None
  }

  /** Reading through the address agrees with the abstract cell map. */
  lemma {:induction false} GetView<T>(g: Sparse2D<T>, x: int, y: int)
    requires KeysAreAddrs(g.elems)
    ensures Get(g, x, y) == if Pos(x, y) in View(g) then Some(View(g)[Pos(x, y)]) else None
    decreases |g.elems|
  {
    var e := g.elems;
    if |e| > 0 {
      if e[0].key == Addr(x, y) {
        AddrInjective(x, y, e[0].pos.x, e[0].pos.y);
      } else {
        var g' := Sparse2D(e[1..]);
        assert KeysAreAddrs(g'.elems) by {
          forall i | 0 <= i < |g'.elems| ensures g'.elems[i] == e[i + 1] { }
        }
        GetView(g', x, y);
        assert e[0].pos != Pos(x, y);
      }
    }
  }

  lemma {:induction false} CellsRemove<T>(e: seq<Entry<T>>, i: nat)
    requires PosDistinct(e) && i < |e|
    ensures Cells(e[..i] + e[i + 1..]) == Cells(e) - {e[i].pos}
    decreases i
  {
    var p := e[i].pos;
    if i == 0 {
      assert e[..i] + e[i + 1..] == e[1..];
      CellsDomain(e[1..], p);
      assert forall j :: 0 <= j < |e[1..]| ==> e[1..][j] == e[j + 1];
    } else {
      var t := e[1..];
      assert PosDistinct(t) by {
        forall a, b | 0 <= a < b < |t| ensures t[a].pos != t[b].pos {
          assert t[a] == e[a + 1] && t[b] == e[b + 1];
        }
      }
      assert t[i - 1] == e[i];
      assert e[0].pos != p;
      var rest := t[..i - 1] + t[i..];
      assert e[..i] + e[i + 1..] == [e[0]] + rest;
      CellsRemove(t, i - 1);
      CellsCons(e[0], rest);
      CellsCons(e[0], t);
      assert e == [e[0]] + t;
      UpdateRemove(Cells(t), e[0].pos, e[0].el, p);
    }
  }

  lemma CellsCons<T>(en: Entry<T>, rest: seq<Entry<T>>)
    ensures Cells([en] + rest) == Cells(rest)[en.pos := en.el]
  {
    assert ([en] + rest)[1..] == rest;
  }

  lemma UpdateRemove<K, V>(m: map<K, V>, k: K, v: V, p: K)
    requires k != p
    ensures (m - {p})[k := v] == m[k := v] - {p}
  {
  }

  lemma {:induction false} CellsReplace<T>(e: seq<Entry<T>>, i: nat, en: Entry<T>)
    requires i < |e| && en.pos == e[i].pos
    requires forall j :: 0 <= j < i ==> e[j].pos != e[i].pos
    ensures Cells(e[i := en]) == Cells(e)[en.pos := en.el]
    decreases i
  {
    if i > 0 {
      var t := e[1..];
      assert t[i - 1] == e[i];
      CellsReplace(t, i - 1, en);
      assert e[i := en] == [e[0]] + t[i - 1 := en];
      assert e[i := en][1..] == t[i - 1 := en];
    }
  }

  lemma {:induction false} CellsAppend<T>(e: seq<Entry<T>>, en: Entry<T>)
    requires en.pos !in Cells(e)
    ensures Cells(e + [en]) == Cells(e)[en.pos := en.el]
    decreases |e|
  {
    if |e| == 0 {
      assert e + [en] == [en];
    } else {
      assert (e + [en])[1..] == e[1..] + [en];
      assert en.pos !in Cells(e[1..]);
      CellsAppend(e[1..], en);
    }
  }

  /** `delete(x, y)`: empties the cell and returns its prior occupant. */
  function Delete<T>(g: Sparse2D<T>, x: int, y: int): (r: (Sparse2D<T>, Option<T>))
    requires Valid(g)
    ensures Valid(r.0)
    ensures r.1 == Get(g, x, y)
    ensures View(r.0) == View(g) - {Pos(x, y)}
    ensures forall x', y' {:trigger Get(r.0, x', y')} :: Get(r.0, x', y') == if x' == x && y' == y then None else Get(g, x', y')
  {
    var r := DeleteView(g, x, y);
    GetAfterUpdate(g, r.0, x, y, None);
    r
  }

  function DeleteView<T>(g: Sparse2D<T>, x: int, y: int): (r: (Sparse2D<T>, Option<T>))
    requires Valid(g)
    ensures Valid(r.0)
    ensures r.1 == Get(g, x, y)
    ensures View(r.0) == View(g) - {Pos(x, y)}
  {
    match IndexOf(g.elems, Addr(x, y))
    case None =>
      GetView(g, x, y);
      (g, None)
    case Some(i) =>
      AddrInjective(x, y, g.elems[i].pos.x, g.elems[i].pos.y);
      RemoveEntry(g, i);
      (Sparse2D(g.elems[..i] + g.elems[i + 1..]), Some(g.elems[i].el))
  }

  lemma RemoveEntry<T>(g: Sparse2D<T>, i: nat)
    requires Valid(g) && i < |g.elems|
    ensures Valid(Sparse2D(g.elems[..i] + g.elems[i + 1..]))
    ensures Cells(g.elems[..i] + g.elems[i + 1..]) == View(g) - {g.elems[i].pos}
  {
    var e := g.elems;
    var e' := e[..i] + e[i + 1..];
    CellsRemove(e, i);
    forall j | 0 <= j < |e'| ensures e'[j] == e[Skip(j, i)] {
      if j < i {
        assert e'[j] == e[..i][j];
      } else {
        assert e'[j] == e[i + 1..][j - i];
      }
    }
    forall a, b | 0 <= a < b < |e'| ensures e'[a].pos != e'[b].pos {
      assert Skip(a, i) < Skip(b, i);
    }
  }

  /** The index in the original sequence of element `j` after removing index `i`. */
  function Skip(j: nat, i: nat): nat {
    if j < i then j else j + 1
  }

  /**
   * `put(val, x, y)`: a falsy `val` deletes; otherwise `val` replaces the
   * occupant of `(x, y)`. Either way the prior occupant is returned.
   */
  function Put<T>(g: Sparse2D<T>, val: Option<T>, x: int, y: int): (r: (Sparse2D<T>, Option<T>))
    requires Valid(g)
    ensures Valid(r.0)
    ensures r.1 == Get(g, x, y)
    ensures val.None? ==> r == Delete(g, x, y)
    ensures val.Some? ==> View(r.0) == View(g)[Pos(x, y) := val.value]
    ensures forall x', y' {:trigger Get(r.0, x', y')} :: Get(r.0, x', y') == if x' == x && y' == y then val else Get(g, x', y')
  {
    if val.None? then Delete(g, x, y)
    else
      var r := PutView(g, val.value, x, y);
      GetAfterUpdate(g, r.0, x, y, val);
      r
  }

  function PutView<T>(g: Sparse2D<T>, v: T, x: int, y: int): (r: (Sparse2D<T>, Option<T>))
    requires Valid(g)
    ensures Valid(r.0)
    ensures r.1 == Get(g, x, y)
    ensures View(r.0) == View(g)[Pos(x, y) := v]
  {
    var e := g.elems;
    var en := Entry(Addr(x, y), Pos(x, y), v);
    match IndexOf(e, Addr(x, y))
    case Some(i) =>
      AddrInjective(x, y, e[i].pos.x, e[i].pos.y);
      forall j | 0 <= j < i ensures e[j].pos != e[i].pos {
        assert e[j].key != Addr(x, y);
      }
      CellsReplace(e, i, en);
      (Sparse2D(e[i := en]), Some(e[i].el))
    case None =>
      GetView(g, x, y);
      CellsAppend(e, en);
      forall j | 0 <= j < |e| ensures e[j].pos != en.pos {
        assert e[j].key != Addr(x, y);
      }
      (Sparse2D(e + [en]), None)
  }

  lemma GetAfterUpdate<T>(g: Sparse2D<T>, g': Sparse2D<T>, x: int, y: int, val: Option<T>)
    requires KeysAreAddrs(g.elems) && KeysAreAddrs(g'.elems)
    requires View(g') == if val.Some? then View(g)[Pos(x, y) := val.value] else View(g) - {Pos(x, y)}
    ensures forall x', y' {:trigger Get(g', x', y')} :: Get(g', x', y') == if x' == x && y' == y then val else Get(g, x', y')
  {
    forall x', y' ensures Get(g', x', y') == if x' == x && y' == y then val else Get(g, x', y') {
      GetView(g, x', y');
      GetView(g', x', y');
    }
  }

  /** A coordinate bound that may be one of the infinities `dims` starts from. */
  datatype Bound = NegInf | Fin(n: int) | PosInf

  /** `Math.min(bound, v)`. */
  function MinB(b: Bound, v: int): Bound {
    match b
    case PosInf => Fin(v)
    case NegInf => NegInf
    case Fin(m) => Fin(if v < m then v else m)
  }

  /** `Math.max(bound, v)`. */
  function MaxB(b: Bound, v: int): Bound {
    match b
    case NegInf => Fin(v)
    case PosInf => PosInf
    case Fin(m) => Fin(if v > m then v else m)
  }

  datatype Extent = Extent(minx: Bound, maxx: Bound, miny: Bound, maxy: Bound)

  /** What `dims` reports for a grid with no occupied cell. */
  const Degenerate: Extent := Extent(PosInf, NegInf, PosInf, NegInf)

  /** The `reduce` of `dims`, over the entries in record order. */
  function ExtentOf<T>(elems: seq<Entry<T>>): (d: Extent)
    ensures |elems| == 0 <==> d == Degenerate
    ensures |elems| > 0 ==> d.minx.Fin? && d.maxx.Fin? && d.miny.Fin? && d.maxy.Fin?
    ensures |elems| > 0 ==>
      && (forall i :: 0 <= i < |elems| ==> d.minx.n <= elems[i].pos.x <= d.maxx.n)
      && (forall i :: 0 <= i < |elems| ==> d.miny.n <= elems[i].pos.y <= d.maxy.n)
  {
    if |elems| == 0 then Degenerate
    else
      var d := ExtentOf(elems[..|elems| - 1]);
      var p := elems[|elems| - 1].pos;
      Extent(MinB(d.minx, p.x), MaxB(d.maxx, p.x), MinB(d.miny, p.y), MaxB(d.maxy, p.y))
  }

  /** Each finite bound of the `dims` reduction is attained by some entry. */
  lemma {:induction false} ExtentAttained<T>(elems: seq<Entry<T>>)
    requires |elems| > 0
    ensures var d := ExtentOf(elems);
      && (exists i :: 0 <= i < |elems| && elems[i].pos.x == d.minx.n)
      && (exists i :: 0 <= i < |elems| && elems[i].pos.x == d.maxx.n)
      && (exists i :: 0 <= i < |elems| && elems[i].pos.y == d.miny.n)
      && (exists i :: 0 <= i < |elems| && elems[i].pos.y == d.maxy.n)
  {
    var n := |elems| - 1;
    var d := ExtentOf(elems);
    var p := elems[n].pos;
    if n == 0 {
      assert elems[0].pos.x == d.minx.n == d.maxx.n && elems[0].pos.y == d.miny.n == d.maxy.n;
    } else {
      var pre := elems[..n];
      ExtentAttained(pre);
      var d' := ExtentOf(pre);
      assert forall i :: 0 <= i < n ==> pre[i] == elems[i];
      var a :| 0 <= a < n && pre[a].pos.x == d'.minx.n;
      var b :| 0 <= b < n && pre[b].pos.x == d'.maxx.n;
      var c :| 0 <= c < n && pre[c].pos.y == d'.miny.n;
      var e :| 0 <= e < n && pre[e].pos.y == d'.maxy.n;
      assert elems[if p.x < d'.minx.n then n else a].pos.x == d.minx.n;
      assert elems[if p.x > d'.maxx.n then n else b].pos.x == d.maxx.n;
      assert elems[if p.y < d'.miny.n then n else c].pos.y == d.miny.n;
      assert elems[if p.y > d'.maxy.n then n else e].pos.y == d.maxy.n;
    }
  }

  /** `dims()`: the bounding box of the occupied cells. */
  function Dims<T>(g: Sparse2D<T>): Extent {
    ExtentOf(g.elems)
  }

  lemma EntryInView<T>(g: Sparse2D<T>, i: nat)
    requires i < |g.elems|
    ensures g.elems[i].pos in View(g)
  {
    CellsDomain(g.elems, g.elems[i].pos);
  }

  lemma ViewHasEntry<T>(g: Sparse2D<T>, p: Pos) returns (i: nat)
    requires p in View(g)
    ensures i < |g.elems| && g.elems[i].pos == p
  {
    CellsDomain(g.elems, p);
    i :| 0 <= i < |g.elems| && g.elems[i].pos == p;
  }

  /** `dims()` bounds exactly the occupied cells, each bound attained by one. */
  lemma DimsBoundOccupied<T>(g: Sparse2D<T>)
    ensures Dims(g) == Degenerate <==> View(g) == map[]
    ensures View(g) != map[] ==>
      var d := Dims(g);
      && (forall p :: p in View(g) ==> d.minx.n <= p.x <= d.maxx.n && d.miny.n <= p.y <= d.maxy.n)
      && (exists p :: p in View(g) && p.x == d.minx.n)
      && (exists p :: p in View(g) && p.x == d.maxx.n)
      && (exists p :: p in View(g) && p.y == d.miny.n)
      && (exists p :: p in View(g) && p.y == d.maxy.n)
  {
    var e := g.elems;
    if |e| == 0 {
      assert View(g) == map[];
    } else {
      EntryInView(g, 0);
      var d := Dims(g);
      ExtentAttained(e);
      forall p | p in View(g) ensures d.minx.n <= p.x <= d.maxx.n && d.miny.n <= p.y <= d.maxy.n {
        var i := ViewHasEntry(g, p);
      }
      var i0 :| 0 <= i0 < |e| && e[i0].pos.x == d.minx.n;
      EntryInView(g, i0);
      var i1 :| 0 <= i1 < |e| && e[i1].pos.x == d.maxx.n;
      EntryInView(g, i1);
      var i2 :| 0 <= i2 < |e| && e[i2].pos.y == d.miny.n;
      EntryInView(g, i2);
      var i3 :| 0 <= i3 < |e| && e[i3].pos.y == d.maxy.n;
      EntryInView(g, i3);
    }
  }

  /** Adding a cell outside the current box stretches each bound just enough to cover it. */
  lemma PutOutsideGrows<T>(g: Sparse2D<T>, v: T, x: int, y: int)
    requires Valid(g)
    requires Get(g, x, y) == None
    ensures var d := Dims(g);
      Dims(Put(g, Some(v), x, y).0) == Extent(MinB(d.minx, x), MaxB(d.maxx, x), MinB(d.miny, y), MaxB(d.maxy, y))
  {
    var e := g.elems;
    assert IndexOf(e, Addr(x, y)).None?;
    var e' := Put(g, Some(v), x, y).0.elems;
    assert e' == e + [Entry(Addr(x, y), Pos(x, y), v)];
    assert e'[..|e'| - 1] == e;
  }

  /** One row of `h` rows of `w` undefined cells each. */
  function Blank<T>(w: nat, h: nat): (r: seq<seq<Option<T>>>)
    ensures |r| == h
    ensures forall i :: 0 <= i < h ==> |r[i]| == w && forall j :: 0 <= j < w ==> r[i][j] == None
  {
    seq(h, _ => seq(w, _ => None))
  }

  ghost predicate Inside<T>(res: seq<seq<Option<T>>>, e: Entry<T>, minx: int, miny: int) {
    0 <= e.pos.y - miny < |res| && 0 <= e.pos.x - minx < |res[e.pos.y - miny]|
  }

  /**
   * `r` is `res` with the cells of `elems` written in at offset `(minx, miny)`: same shape,
   * a cell's value where `elems` has one, `res`'s value elsewhere.
   */
  ghost predicate Filled<T>(res: seq<seq<Option<T>>>, elems: seq<Entry<T>>, minx: int, miny: int, r: seq<seq<Option<T>>>) {
    && |r| == |res| && (forall i :: 0 <= i < |r| ==> |r[i]| == |res[i]|)
    && forall i, j :: 0 <= i < |r| && 0 <= j < |r[i]| ==>
      r[i][j] == if Pos(j + minx, i + miny) in Cells(elems) then Some(Cells(elems)[Pos(j + minx, i + miny)]) else res[i][j]
  }

  /** `list.forEach(el => res[y - miny][x - minx] = el)`, in record order. */
  function Fill<T>(res: seq<seq<Option<T>>>, elems: seq<Entry<T>>, minx: int, miny: int): (r: seq<seq<Option<T>>>)
    requires forall k :: 0 <= k < |elems| ==> Inside(res, elems[k], minx, miny)
    requires PosDistinct(elems)
    ensures Filled(res, elems, minx, miny, r)
    decreases |elems|
  {
    if |elems| == 0 then res
    else
      var e := elems[0];
      assert Inside(res, e, minx, miny);
      var row := e.pos.y - miny;
      var res' := res[row := res[row][e.pos.x - minx := Some(e.el)]];
      var t := elems[1..];
      assert forall k :: 0 <= k < |t| ==> t[k] == elems[k + 1];
      assert forall k :: 0 <= k < |t| ==> Inside(res', t[k], minx, miny) by {
        assert forall k :: 0 <= k < |t| ==> Inside(res, t[k], minx, miny);
      }
      CellsDomain(t, e.pos);
      var r := Fill(res', t, minx, miny);
      FillStep(res, elems, minx, miny, r);
      r
  }

  /** Writing the first entry, then the rest over it, fills in all of `elems`. */
  lemma FillStep<T>(res: seq<seq<Option<T>>>, elems: seq<Entry<T>>, minx: int, miny: int, r: seq<seq<Option<T>>>)
    requires |elems| > 0 && Inside(res, elems[0], minx, miny)
    requires elems[0].pos !in Cells(elems[1..])
    requires var e := elems[0]; var row := e.pos.y - miny;
      Filled(res[row := res[row][e.pos.x - minx := Some(e.el)]], elems[1..], minx, miny, r)
    ensures Filled(res, elems, minx, miny, r)
  {
  }

  /**
   * `r` is the dense projection of `g` over the box `d`: one row per `y` of the
   * box and one column per `x`, cell `[i][j]` holding what `get(minx + j, miny + i)`
   * returns.
   */
  ghost predicate Dense<T>(g: Sparse2D<T>, d: Extent, r: seq<seq<Option<T>>>) {
    && d.minx.Fin? && d.maxx.Fin? && d.miny.Fin? && d.maxy.Fin?
    && |r| == d.maxy.n - d.miny.n + 1
    && (forall i :: 0 <= i < |r| ==> |r[i]| == d.maxx.n - d.minx.n + 1)
    && (forall i, j :: 0 <= i < |r| && 0 <= j < |r[i]| ==> r[i][j] == Get(g, d.minx.n + j, d.miny.n + i))
  }

  /** `toArray()`: `[]` for an empty grid, otherwise the dense projection over the `dims` box. */
  function ToArray<T>(g: Sparse2D<T>): (r: seq<seq<Option<T>>>)
    requires Valid(g)
    ensures |g.elems| == 0 ==> r == []
    ensures |g.elems| > 0 ==> Dense(g, Dims(g), r)
  {
    if |g.elems| == 0 then []
    else
      BoxHolds(g.elems);
      DenseBox(g, Dims(g))
  }

  /** The dense projection over the `dims` box of a non-empty grid. */
  function DenseBox<T>(g: Sparse2D<T>, d: Extent): (r: seq<seq<Option<T>>>)
    requires Valid(g) && Boxed(g.elems, d)
    ensures Dense(g, d, r)
  {
    var minx, miny, w, h := d.minx.n, d.miny.n, d.maxx.n - d.minx.n + 1, d.maxy.n - d.miny.n + 1;
    FillBox(g, minx, miny, w, h)
  }

  /** The `dims` box of a non-empty grid is non-empty and holds every entry. */
  lemma BoxHolds<T>(e: seq<Entry<T>>)
    requires |e| > 0
    ensures Boxed(e, ExtentOf(e))
  {
    assert e[0] in e;
  }

  /** `d` is a finite, non-empty box that holds every entry of `e`. */
  ghost predicate Boxed<T>(e: seq<Entry<T>>, d: Extent) {
    && d.minx.Fin? && d.maxx.Fin? && d.miny.Fin? && d.maxy.Fin?
    && d.minx.n <= d.maxx.n && d.miny.n <= d.maxy.n
    && Fits(e, d.minx.n, d.miny.n, d.maxx.n - d.minx.n + 1, d.maxy.n - d.miny.n + 1)
  }

  /** Every entry of `e` lies in the `w` by `h` box at `(minx, miny)`. */
  ghost predicate Fits<T>(e: seq<Entry<T>>, minx: int, miny: int, w: int, h: int) {
    forall k :: 0 <= k < |e| ==> minx <= e[k].pos.x < minx + w && miny <= e[k].pos.y < miny + h
  }

  /** The body of `toArray`: a blank `w` by `h` box at `(minx, miny)`, then every entry written in. */
  function FillBox<T>(g: Sparse2D<T>, minx: int, miny: int, w: nat, h: nat): (r: seq<seq<Option<T>>>)
    requires Valid(g)
    requires Fits(g.elems, minx, miny, w, h)
    ensures |r| == h && forall i :: 0 <= i < h ==> |r[i]| == w
    ensures forall i, j :: 0 <= i < |r| && 0 <= j < |r[i]| ==> r[i][j] == Get(g, minx + j, miny + i)
  {
    var base: seq<seq<Option<T>>> := Blank(w, h);
    assert forall k :: 0 <= k < |g.elems| ==> Inside(base, g.elems[k], minx, miny);
    var r := Fill(base, g.elems, minx, miny);
    ReadsBack(g, r, minx, miny);
    r
  }

  /** A box that holds the cell map at `(minx, miny)` reads as `get` does. */
  lemma ReadsBack<T>(g: Sparse2D<T>, r: seq<seq<Option<T>>>, minx: int, miny: int)
    requires KeysAreAddrs(g.elems)
    requires forall i, j :: 0 <= i < |r| && 0 <= j < |r[i]| ==>
      r[i][j] == if Pos(j + minx, i + miny) in View(g) then Some(View(g)[Pos(j + minx, i + miny)]) else None
    ensures forall i, j :: 0 <= i < |r| && 0 <= j < |r[i]| ==> r[i][j] == Get(g, minx + j, miny + i)
  {
    forall i, j | 0 <= i < |r| && 0 <= j < |r[i]| ensures r[i][j] == Get(g, minx + j, miny + i) {
      FilledCell(g, r[i][j], j + minx, i + miny);
    }
  }

  /** A cell of the blank box after the entries are written in is what `get` reads there. */
  lemma FilledCell<T>(g: Sparse2D<T>, v: Option<T>, x: int, y: int)
    requires KeysAreAddrs(g.elems)
    requires v == if Pos(x, y) in View(g) then Some(View(g)[Pos(x, y)]) else None
    ensures v == Get(g, x, y)
  {
    GetView(g, x, y);
  }

  /** `row.forEach((el, x) => res.put(el, x, y))`, from column `x` on. */
  function PutRow<T>(g: Sparse2D<T>, row: seq<Option<T>>, x: nat, y: int): (r: Sparse2D<T>)
    requires Valid(g)
    ensures Valid(r)
    ensures forall x', y' {:trigger Get(r, x', y')} :: Get(r, x', y') == if y' == y && x <= x' < |row| then row[x'] else Get(g, x', y')
    decreases |row| - x
  {
    if x >= |row| then g else PutRow(Put(g, row[x], x, y).0, row, x + 1, y)
  }

  /** `vals.forEach((row, y) => ...)`, from row `y` on. */
  function PutRows<T>(g: Sparse2D<T>, rows: seq<seq<Option<T>>>, y: nat): (r: Sparse2D<T>)
    requires Valid(g)
    ensures Valid(r)
    ensures forall x', y' {:trigger Get(r, x', y')} :: Get(r, x', y') == if y <= y' < |rows| && 0 <= x' < |rows[y']| then rows[y'][x'] else Get(g, x', y')
    decreases |rows| - y
  {
    if y >= |rows| then g else PutRows(PutRow(g, rows[y], 0, y), rows, y + 1)
  }

  /** `Sparse2D.from(vals)`: `vals[y][x]` is stored at `(x, y)`; undefined cells stay empty. */
  function From<T>(rows: seq<seq<Option<T>>>): (g: Sparse2D<T>)
    ensures Valid(g)
    ensures forall x, y {:trigger Get(g, x, y)} :: Get(g, x, y) == if 0 <= y < |rows| && 0 <= x < |rows[y]| then rows[y][x] else None
  {
    PutRows(Empty(), rows, 0)
  }

  lemma GetHasEntry<T>(g: Sparse2D<T>, x: int, y: int) returns (k: nat)
    requires KeysAreAddrs(g.elems)
    requires Get(g, x, y).Some?
    ensures k < |g.elems| && g.elems[k].pos == Pos(x, y)
  {
    GetView(g, x, y);
    k := ViewHasEntry(g, Pos(x, y));
  }

  lemma EntryHasGet<T>(g: Sparse2D<T>, k: nat)
    requires KeysAreAddrs(g.elems) && k < |g.elems|
    ensures Get(g, g.elems[k].pos.x, g.elems[k].pos.y).Some?
  {
    EntryInView(g, k);
    GetView(g, g.elems[k].pos.x, g.elems[k].pos.y);
  }

  predicate RowOccupied<T>(row: seq<Option<T>>) {
    exists j :: 0 <= j < |row| && row[j].Some?
  }

  predicate ColumnOccupied<T>(rows: seq<seq<Option<T>>>, c: nat) {
    exists i :: 0 <= i < |rows| && c < |rows[i]| && rows[i][c].Some?
  }

  /** `g` reads `rows[y][x]` at every `(x, y)` inside `rows` and nothing elsewhere. */
  ghost predicate Mirrors<T>(g: Sparse2D<T>, rows: seq<seq<Option<T>>>) {
    forall x, y {:trigger Get(g, x, y)} :: Get(g, x, y) == if 0 <= y < |rows| && 0 <= x < |rows[y]| then rows[y][x] else None
  }

  /** `rows` is a rectangle with an occupied cell on each of its four edges. */
  ghost predicate TightRectangle<T>(rows: seq<seq<Option<T>>>) {
    && |rows| > 0 && |rows[0]| > 0
    && (forall i :: 0 <= i < |rows| ==> |rows[i]| == |rows[0]|)
    && RowOccupied(rows[0]) && RowOccupied(rows[|rows| - 1])
    && ColumnOccupied(rows, 0) && ColumnOccupied(rows, |rows[0]| - 1)
  }

  /** The box of `from(rows)` for a tight rectangle is exactly the rectangle. */
  lemma FromDims<T>(rows: seq<seq<Option<T>>>)
    requires TightRectangle(rows)
    ensures |From(rows).elems| > 0
    ensures Dims(From(rows)) == Extent(Fin(0), Fin(|rows[0]| - 1), Fin(0), Fin(|rows| - 1))
  {
    BoxOfGrid(From(rows), rows);
  }

  /** The four edge witnesses of a tight rectangle. */
  lemma EdgeWitnesses<T>(rows: seq<seq<Option<T>>>) returns (j0: nat, j1: nat, i0: nat, i1: nat)
    requires TightRectangle(rows)
    ensures j0 < |rows[0]| && rows[0][j0].Some?
    ensures j1 < |rows[|rows| - 1]| && rows[|rows| - 1][j1].Some?
    ensures i0 < |rows| && 0 < |rows[i0]| && rows[i0][0].Some?
    ensures i1 < |rows| && |rows[0]| - 1 < |rows[i1]| && rows[i1][|rows[0]| - 1].Some?
  {
    j0 :| 0 <= j0 < |rows[0]| && rows[0][j0].Some?;
    j1 :| 0 <= j1 < |rows[|rows| - 1]| && rows[|rows| - 1][j1].Some?;
    i0 :| 0 <= i0 < |rows| && 0 < |rows[i0]| && rows[i0][0].Some?;
    i1 :| 0 <= i1 < |rows| && |rows[0]| - 1 < |rows[i1]| && rows[i1][|rows[0]| - 1].Some?;
  }

  /** Any grid whose cells are exactly those of a tight rectangle has that rectangle as its box. */
  lemma BoxOfGrid<T>(g: Sparse2D<T>, rows: seq<seq<Option<T>>>)
    requires TightRectangle(rows) && KeysAreAddrs(g.elems)
    requires Mirrors(g, rows)
    ensures |g.elems| > 0
    ensures ExtentOf(g.elems) == Extent(Fin(0), Fin(|rows[0]| - 1), Fin(0), Fin(|rows| - 1))
  {
    var h, w := |rows|, |rows[0]|;
    var e := g.elems;
    var j0, j1, i0, i1 := EdgeWitnesses(rows);
    var k0 := CellEntry(g, rows, j0, 0);
    var k1 := CellEntry(g, rows, j1, h - 1);
    var k2 := CellEntry(g, rows, 0, i0);
    var k3 := CellEntry(g, rows, w - 1, i1);
    EntriesInRows(g, rows);
    ExtentIsBox(e, 0, w - 1, 0, h - 1, k2, k3, k0, k1);
  }

  /** An occupied cell of the rectangle is stored in some entry of the grid. */
  lemma CellEntry<T>(g: Sparse2D<T>, rows: seq<seq<Option<T>>>, x: int, y: int) returns (k: nat)
    requires 0 <= y < |rows| && 0 <= x < |rows[y]| && rows[y][x].Some?
    requires KeysAreAddrs(g.elems)
    requires Mirrors(g, rows)
    ensures k < |g.elems| && g.elems[k].pos == Pos(x, y)
  {
    assert Get(g, x, y).Some?;
    k := GetHasEntry(g, x, y);
  }

  /** Every entry of a grid whose cells are those of a rectangle lies inside the rectangle. */
  lemma EntriesInRows<T>(g: Sparse2D<T>, rows: seq<seq<Option<T>>>)
    requires |rows| > 0 && forall i :: 0 <= i < |rows| ==> |rows[i]| == |rows[0]|
    requires KeysAreAddrs(g.elems)
    requires Mirrors(g, rows)
    ensures forall k :: 0 <= k < |g.elems| ==> 0 <= g.elems[k].pos.x <= |rows[0]| - 1 && 0 <= g.elems[k].pos.y <= |rows| - 1
  {
    forall k | 0 <= k < |g.elems| ensures 0 <= g.elems[k].pos.x <= |rows[0]| - 1 && 0 <= g.elems[k].pos.y <= |rows| - 1 {
      var p := g.elems[k].pos;
      EntryHasGet(g, k);
      assert Get(g, p.x, p.y).Some?;
      assert 0 <= p.y < |rows| && 0 <= p.x < |rows[p.y]|;
    }
  }

  /** Entries inside a box that touch each of its four sides have that box as their extent. */
  lemma ExtentIsBox<T>(e: seq<Entry<T>>, x0: int, x1: int, y0: int, y1: int, a: nat, b: nat, c: nat, d: nat)
    requires a < |e| && b < |e| && c < |e| && d < |e|
    requires forall k :: 0 <= k < |e| ==> x0 <= e[k].pos.x <= x1 && y0 <= e[k].pos.y <= y1
    requires e[a].pos.x == x0 && e[b].pos.x == x1 && e[c].pos.y == y0 && e[d].pos.y == y1
    ensures ExtentOf(e) == Extent(Fin(x0), Fin(x1), Fin(y0), Fin(y1))
  {
    var r := ExtentOf(e);
    ExtentAttained(e);
    var a' :| 0 <= a' < |e| && e[a'].pos.x == r.minx.n;
    var b' :| 0 <= b' < |e| && e[b'].pos.x == r.maxx.n;
    var c' :| 0 <= c' < |e| && e[c'].pos.y == r.miny.n;
    var d' :| 0 <= d' < |e| && e[d'].pos.y == r.maxy.n;
  }

  /** `from` then `toArray` gives back any rectangle whose occupied cells touch all four edges. */
  lemma FromToArray<T>(rows: seq<seq<Option<T>>>)
    requires TightRectangle(rows)
    ensures ToArray(From(rows)) == rows
  {
    FromDims(rows);
    ToArrayOfGrid(From(rows), rows);
  }

  lemma ToArrayOfGrid<T>(g: Sparse2D<T>, rows: seq<seq<Option<T>>>)
    requires TightRectangle(rows) && Valid(g) && |g.elems| > 0
    requires Mirrors(g, rows)
    requires Dims(g) == Extent(Fin(0), Fin(|rows[0]| - 1), Fin(0), Fin(|rows| - 1))
    ensures ToArray(g) == rows
  {
    var r := ToArray(g);
    SameCells(r, rows, |rows[0]|, (i, j) => Get(g, j, i));
  }

  /** Two rectangles of the same size that agree cell by cell are equal. */
  lemma SameCells<T>(r: seq<seq<Option<T>>>, rows: seq<seq<Option<T>>>, w: nat, cell: (int, int) -> Option<T>)
    requires |r| == |rows|
    requires forall i :: 0 <= i < |r| ==> |r[i]| == w && |rows[i]| == w
    requires forall i, j :: 0 <= i < |r| && 0 <= j < |r[i]| ==> r[i][j] == cell(i, j)
    requires forall i, j :: 0 <= i < |rows| && 0 <= j < |rows[i]| ==> rows[i][j] == cell(i, j)
    ensures r == rows
  {
    forall i | 0 <= i < |rows| ensures r[i] == rows[i] {
      assert forall j :: 0 <= j < w ==> r[i][j] == rows[i][j];
    }
  }
}

=== FILE: types.dfy ===
/**
 * The records the layout engine works on.
 *
 * The engine mutates node objects that live in the grids of their parents. The model keeps
 * every node in an arena keyed by its (unique) name, and a grid cell holds the name of its
 * occupant. Four kinds of cell reproduce what a JavaScript array slot can hold here:
 *  - `Hole`: an index never written (created when a write lands past the end of a row);
 *  - `Vacant`: an index holding `undefined`;
 *  - `Filler(loc)`: the anonymous record `{laid: true, fixed: undefined, locationAttrs}`
 *    that the end of `layNodes` puts in every `undefined` cell of a kept row;
 *  - `Occ(name)`: a real node.
 * A write at a negative column stores a non-index property on the row array; `off` keeps
 * those, since later reads at that column see them while `map`, `flat` and spreads do not.
 */
module LayoutTypes {
  import opened Wrappers

  /** The four anchor attributes, and the direction an anchored node is placed in. */
  datatype Side = Left | Right | Top | Bottom

  /** A parsed `anchor(ID:SIDE)` attribute. */
  datatype Anchor = Anchor(otherId: string, ownDirection: Side, otherSide: string, resolved: bool)

  /**
   * What a `locationAttrs.anchors` property refers to: absent (`Missing`), a fresh empty
   * array (`Fresh`), or the array `getLocationAttrs` built for the node `owner`. That array
   * is shared by every record whose `locationAttrs` was spread from the owner's, and marking
   * one of its anchors resolved shows through all of them.
   */
  datatype AnchorRef = Missing | Fresh | Owned(owner: string)

  /** `locationAttrs`: a position and a reference to an anchor array. */
  datatype Loc = Loc(x: int, y: int, anchors: AnchorRef)

  datatype Cell = Hole | Vacant | Filler(loc: Loc) | Occ(name: string)

  datatype Row = Row(cells: seq<Cell>, off: map<int, Cell>)

  type Grid = seq<Row>

  /**
   * A `LayoutPass` record. `own` is the anchor array `getLocationAttrs` parsed for this node
   * (empty when the node has no layout entry); `loc.anchors` says which array the node uses now.
   */
  datatype Node = Node(
    name: string,
    kind: string,
    title: Option<string>,
    laid: bool,
    fixed: bool,
    loc: Option<Loc>,
    own: seq<Anchor>,
    width: int,
    height: int,
    grid: Grid)

  type Arena = map<string, Node>

  /** The errors the engine throws. `TypeError` stands for reading a property of `undefined`. */
  datatype Error =
    | BadAnchor(value: string)
    | BadNumber(value: string)
    | TypeError
    | AlreadyFixed(node: string, x: int, y: int)
    | ColumnFull(node: string, column: int)
    | RowFull(node: string, row: int)
    | CouldNotLay(node: string)
    | NotInTree(node: string)
    | CrossParent(node: string)
    | Circular(pass: nat, pending: seq<(string, seq<string>)>)

  /** `!!cell`: `undefined` and holes are falsy, every record is truthy. */
  predicate Truthy(c: Cell) {
    c.Filler? || c.Occ?
  }

  /** Strictly increasing indices: the positions an order-keeping filter picks. */
  predicate Increasing(idx: seq<nat>) {
    forall i, j :: 0 <= i < j < |idx| ==> idx[i] < idx[j]
  }

  /** `r` is `s` read at the indices `idx`, one element per index. */
  ghost predicate Picks<T>(r: seq<T>, s: seq<T>, idx: seq<nat>) {
    |r| == |idx| && forall i :: 0 <= i < |idx| ==> idx[i] < |s| && r[i] == s[idx[i]]
  }

  /** Picking one more element in front. */
  lemma PicksCons<T>(x: T, r: seq<T>, s: seq<T>, k: nat, idx: seq<nat>)
    requires k < |s| && s[k] == x && Picks(r, s, idx)
    ensures Picks([x] + r, s, [k] + idx)
  {
  }
}

=== FILE: wrappers.dfy ===
/**
 * Failure-compatible wrappers shared by every module of the model:
 * `Option` stands for a JavaScript value that may be `undefined`, and
 * `Result` for a computation that may throw.
 */
module Wrappers {

  datatype Option<+T> = None | Some(value: T) {

    predicate IsFailure() {
      None?
    }

    function PropagateFailure<U>(): Option<U>
      requires None?
    {
      None
    }

    function Extract(): T
      requires Some?
    {
      value
    }

    function GetOr(default: T): T {
      match this
      case Some(v) => v
      case None => default
    }
  }

  datatype Result<+R, +E> = Success(value: R) | Failure(error: E) {

    predicate IsFailure() {
      Failure?
    }

    function PropagateFailure<U>(): Result<U, E>
      requires Failure?
    {
      Failure(error)
    }

    function Extract(): R
      requires Success?
    {
      value
    }
  }
}
